=== FILE: README.md ===
# Learning-platform front end: a Dafny model of its logic

This project models the logic of a course platform's React front end. Students register for a title (a programme) with a deposit receipt. Admins review enrolments and manage titles, courses, lessons and files. Students watch lessons and mark them complete. The database and the object store sit behind the browser. Here they become maps and explicit success flags, and every page handler becomes a pure function of its inputs.

The modules follow the source files:

- `Common`: `Option` and `Result`.
- `Strings`: substring search, split and join, trim, ASCII upper-casing, and decimal rendering. These are the JavaScript string operations the pages rely on.
- `Storage`: the object-store client in `src/lib/cloudflare.js`. It covers object naming, public URLs, upload, and recovering an object key from a URL for delete.
- `I18n`: the dotted-key translation lookup `t`.
- `Auth`: the authentication context. It covers sign-in by e-mail or phone, the fallback profile, the sign-up profile, sign-out and the role flags.
- `Routes`: the student guard and the admin guard, including the admin guard's settle timer.
- `Login`: the login page's redirects, declined and pending screens, and form.
- `Register`: the registration submission.
- `Enrolments`: the admin enrolment review. It covers the r2.dev URL rewrite, receipt error classification, the review itself, and request-id guarded list loading.
- `Catalogue`: the title and course managers. It covers referencing-user counts, the foreign-key retry on delete, and the edit/save forms.
- `VideoId` and `Lessons`: the lesson form's YouTube id extraction, lesson saving, and lesson progress.
- `Dashboard`: the student dashboard. It covers the approved-enrolment filter, the stable ordering of courses and lessons, totals and the expand toggles.
- `Files`: the lesson file manager, the course PDF manager and the file list's type label.

Three behaviours of the code are easy to misread, and the model keeps them as written:

- The file manager's type label is the upper-cased text between the first and second '/' of the MIME type. Any later '/'-pieces are dropped.
- The file list shortens a type that has no '/' to 20 characters as well.
- The receipt HEAD probe counts a "Failed to fetch" error as a CORS failure.

## Model

| member | source | states |
|---|---|---|
| Strings.SplitJoin | src/i18n/index.js:22 | segments without '.' joined with '.' split back into exactly those segments |
| Strings.SplitSecondPiece | src/components/LessonFileManager.jsx:303 | in `a/b` followed by nothing or by a further '/'-piece, the second piece of the split is `b` |
| Strings.Trim | src/contexts/AuthContext.jsx:402 | the trimmed identifier is the contiguous slice left between a whitespace-only prefix and a whitespace-only suffix; it has no whitespace at either end and keeps every non-whitespace character |
| Strings.TrimUnchanged | src/contexts/AuthContext.jsx:402 | a non-empty input without whitespace at either end is its own trim |
| Strings.DecimalRoundTrip | src/lib/cloudflare.js:55 | the decimal rendering of a timestamp reads back as the same number |
| Storage.UploadErrorMessage | src/lib/cloudflare.js:44-48 | an upload failure always carries a non-empty message, and a store failure's message ends with the store's own text |
| Storage.ObjectNameKeepsExtension | src/lib/cloudflare.js:55-58 | the generated object name ends in the file's extension; a name without '.' is its own extension |
| Storage.ObjectNameStartsWithTimestamp | src/lib/cloudflare.js:55-58 | the object name starts with the decimal timestamp and '_' |
| Storage.ObjectKey | src/lib/cloudflare.js:59 | the key ends with the object name and sits under `folder/` when a folder is given |
| Storage.ContentType | src/lib/cloudflare.js:72 | the content type is the browser's MIME type, or a non-empty default when there is none |
| Storage.PublicUrl | src/lib/cloudflare.js:78-89 | the URL ends with the key; it lies under the configured base without its trailing '/', or under `https://<bucket>.r2.dev/` |
| Storage.Upload | src/lib/cloudflare.js:44-93 | the upload succeeds iff all credentials are set and the put succeeds; on success exactly the new key is added and the public URL of that key is returned |
| Storage.ExtractKey | src/lib/cloudflare.js:112-135 | the recovered key never holds '?'; a URL without '/' yields its text before '?'; the r2.dev, S3-endpoint and custom-domain branches are pinned down by the extraction lemmas below |
| Storage.R2DevHostExtract | src/lib/cloudflare.js:115-119 | on `https://<host>/<key>` with a host ending in "r2.dev", the key after the first "r2.dev/" comes back |
| Storage.EndpointExtract | src/lib/cloudflare.js:120-124 | on an S3 endpoint URL `https://<host>/<bucket>/<key>`, the text after the first `<bucket>/` comes back as the key |
| Storage.Delete | src/lib/cloudflare.js:98-147 | the delete succeeds iff the credentials are set and the store accepts it; on success exactly the key recovered from the URL is gone and every other object is untouched |
| Storage.FallbackRoundTrip | src/lib/cloudflare.js:86-88 | a key on the r2.dev fallback URL is recovered by the delete's extraction |
| Storage.CustomRoundTrip | src/lib/cloudflare.js:80-85 | a key under a configured `https://` base is recovered: by the r2.dev branch when the host ends in "r2.dev", by the custom-domain pattern otherwise |
| Storage.ExtractKeyInvertsPublicUrl | src/lib/cloudflare.js:112-135 | for a recoverable key, extracting the key from its public URL inverts the URL construction |
| Storage.DeleteOfPublicUrl | src/lib/cloudflare.js:137-143 | deleting by an object's public URL removes that object and nothing else |
| Storage.UploadThenDelete | src/lib/cloudflare.js:40-150 | an upload followed by a delete of the returned URL restores the bucket |
| I18n.GetLanguage | src/i18n/index.js:10-12 | the stored preference is used when non-empty, and 'en' when nothing or an empty string is stored |
| I18n.SavedLanguageReadsBack | src/i18n/index.js:10-21 | a language saved by `setLanguage` is the one a later call without an explicit language uses; a saved "" reads back as English |
| I18n.TableFor | src/i18n/index.js:23 | 'am' looks keys up in the Amharic table and every other code in the English table |
| I18n.WalkIsTruthyResolve | src/i18n/index.js:25-36 | the lookup loop yields the value the full path resolves to exactly when that value is truthy |
| I18n.WalkExtend | src/i18n/index.js:25-36 | walking one more segment continues from the previous result |
| I18n.WalkFailureSticks | src/i18n/index.js:27-35 | once a segment is missing or falsy, no further segment revives the lookup |
| I18n.T | src/i18n/index.js:20-39 | the loop computes the translation: the truthy value at the dotted path or, failing that, the key |
| I18n.TranslateResolves | src/i18n/index.js:20-39 | the translation is the resolved value when it is truthy and the key otherwise |
| I18n.TranslateIsValueOrKey | src/i18n/index.js:38 | the result is either the key itself or a truthy value |
| I18n.EmptyTranslationYieldsKey | src/i18n/index.js:27-35 | an empty-string translation counts as missing and yields the key |
| I18n.AmharicMissYieldsKey | src/i18n/index.js:23-38 | a key missing in Amharic yields the key, never the English text |
| I18n.UnknownLanguageUsesEnglish | src/i18n/index.js:23 | an unknown language code translates exactly as English does |
| I18n.DefaultIsEnglish | src/i18n/index.js:10-21 | with no explicit language and nothing stored, English is used |
| Auth.DigitsOf | src/contexts/AuthContext.jsx:403 | the result holds only digits, keeps every digit of the input, and is the input when that is all digits; one character gives itself if it is a digit and nothing otherwise |
| Auth.DigitsOfAppend | src/contexts/AuthContext.jsx:403 | the digits of a concatenation are the digits of each part, in order, so together with the one-character cases the result is the input's digits in their order and number |
| Auth.SignIn | src/contexts/AuthContext.jsx:399-436 | a non-phone identifier is tried trimmed as an e-mail; an unknown phone fails with the phone message; a known phone signs in with its looked-up e-mail; the result is a user iff the password sign-in answered with one; a rejection carries the backend's own message and a missing user row 'User data not found.' |
| Auth.AtSignIsNotPhone | src/contexts/AuthContext.jsx:402-404 | an identifier containing '@' is never taken for a phone number |
| Auth.EmailSignInUsesTrimmedInput | src/contexts/AuthContext.jsx:402-423 | an e-mail is used trimmed and is never looked up as a phone |
| Auth.DigitRunIsPhone | src/contexts/AuthContext.jsx:403-404 | ten or more bare digits count as a phone number |
| Auth.RoleOf | src/contexts/AuthContext.jsx:47-48 | the metadata role when present, else a non-empty default ('student') |
| Auth.FallbackProfile | src/contexts/AuthContext.jsx:45-59 | the fallback profile copies the session's id, e-mail, name and phone and is approved exactly when it is an admin's |
| Auth.WithSessionEmail | src/contexts/AuthContext.jsx:108-113 | a fetched row missing its e-mail takes the session's; nothing else changes |
| Auth.ProfileAfterFetch | src/contexts/AuthContext.jsx:97-128 | a fetched row is kept (with the e-mail filled); any failure falls back to a session-derived profile iff there is a session |
| Auth.FallbackApprovedOnlyForAdmins | src/contexts/AuthContext.jsx:45-59 | a fallback profile passes the approval gate iff the metadata role is 'admin' |
| Auth.ManualProfile | src/contexts/AuthContext.jsx:359-379 | the hand-written profile is an unapproved student, with the chosen title when one was chosen |
| Auth.SignUp | src/contexts/AuthContext.jsx:329-397 | a sign-up error changes nothing and is reported; otherwise only the new user's row may be added or updated and every other user is untouched |
| Auth.SignUpNeverGrantsAccess | src/contexts/AuthContext.jsx:351-390 | sign-up never makes a user approved or an admin who was not one already |
| Auth.SignOut | src/contexts/AuthContext.jsx:438-451 | sign-out clears the user, the profile and the loading flag, so neither role flag holds |
| Auth.SignOutIgnoresBackend | src/contexts/AuthContext.jsx:438-451 | the state after sign-out depends neither on the prior state nor on whether the backend threw |
| Routes.ProtectedView | src/components/ProtectedRoute.jsx:9-53 | the page shows iff loading is over and an approved profile is loaded; every redirect goes to /login |
| Routes.AdminView | src/components/AdminRoute.jsx:23-43 | the page shows iff settled, not loading, and the profile is an admin's; a loaded non-admin goes to /dashboard, the rest to /login |
| Routes.AdminViewIgnoresApproval | src/components/AdminRoute.jsx:38-43 | the admin guard's answer does not depend on the approval flag |
| Routes.UnapprovedAdminOnlyReachesAdminPages | src/components/ProtectedRoute.jsx:48-50 | an unapproved admin passes the admin guard and is sent to /login by the student guard |
| Routes.GateInit | src/components/AdminRoute.jsx:9-20 | the first render hides content and starts the timer iff loading is already over |
| Routes.GateStep | src/components/AdminRoute.jsx:9-20 | every event keeps the invariant that content is hidden and no timer runs while loading |
| Routes.GateRunKeepsInvariant | src/components/AdminRoute.jsx:9-25 | after any interleaving of loading changes and timer firings, content never shows while auth is loading |
| Routes.SettlingWaitsForTimer | src/components/AdminRoute.jsx:12-17 | when loading ends content stays hidden until the timer fires, and then shows |
| Login.RedirectTarget | src/pages/LoginPage.jsx:53-63 | a settled admin goes to /admin and a settled approved student to /dashboard; nobody else is redirected |
| Login.CheckDeclined | src/pages/LoginPage.jsx:24-50 | the declined comment changes only for a settled non-admin, and only to a non-empty fetched comment |
| Login.ScreenFor | src/pages/LoginPage.jsx:96-330 | the declined screen shows iff its condition holds; the pending screen shows iff a loaded, unapproved non-admin has no declined comment; the loading screen shows iff neither of those does, no error is set, and a submit or a profile load is under way |
| Login.PendingNeverRedirects | src/pages/LoginPage.jsx:53-63 | whenever the pending screen shows, no redirect fires |
| Login.DeclinedBeforePending | src/pages/LoginPage.jsx:96-219 | a declined comment wins over the pending screen |
| Login.AdminsNeverSeeDeclined | src/pages/LoginPage.jsx:26 | an admin never reaches the declined screen |
| Login.Edit | src/pages/LoginPage.jsx:65-71 | typing stores the value in its own field only and clears the error |
| Login.SubmitStarted | src/pages/LoginPage.jsx:73-76 | starting a sign-in raises the submitting flag and clears the error, keeping the fields |
| Login.HandleSubmit | src/pages/LoginPage.jsx:73-93 | after a sign-in the flag is down and the error is empty iff the sign-in succeeded; a failure's own message is shown, or 'Login failed' when that message is empty |
| Login.UnknownPhoneShowsMessage | src/pages/LoginPage.jsx:81-85 | an unknown phone number ends on the form with the phone message, not on the loading screen |
| Login.SubmittingShowsLoading | src/pages/LoginPage.jsx:322 | while a submission is in flight, the loading screen shows unless the declined or pending screen applies |
| Login.NoDashboardLoginLoop | src/pages/LoginPage.jsx:56 | a user whom the student guard sends to /login is never sent straight back to /dashboard |
| Login.BouncedStudentSeesPending | src/pages/LoginPage.jsx:219 | a bounced, loaded non-admin with no declined comment sees the pending screen |
| Login.NoAdminLoginLoop | src/pages/LoginPage.jsx:54-56 | a user whom the admin guard sends to /login is not redirected away again |
| Register.FirstIndexWithId | src/pages/RegisterPage.jsx:37-44 | the index of the first title with the id, or the list length when none has it |
| Register.SelectedTitle | src/pages/RegisterPage.jsx:37-44 | the shown title is a listed title with the chosen id; there is none when no id is chosen or when no listed title has it |
| Register.SignUpFailureMessage | src/pages/RegisterPage.jsx:124-133 | a database error is replaced by the friendly message; any other non-empty message is shown as is |
| Register.ReceiptFailureMessage | src/pages/RegisterPage.jsx:73-81 | a receipt failure shows a non-empty message prefixed 'Failed to upload receipt: ' |
| Register.Settle | src/pages/RegisterPage.jsx:157-162 | after submission the flags are down, the error is shown, and the form is kept |
| Register.PendingEnrolment | src/pages/RegisterPage.jsx:138-151 | the filed enrolment is pending for the user, title and receipt URL, so both review decisions are offered |
| Register.Submit | src/pages/RegisterPage.jsx:83-163 | a press while in flight is ignored; otherwise the error is empty iff the registration succeeds, each validation failure gives its message, sign-up is called iff the form is valid, and existing enrolments are untouched |
| Register.RegistrationGrantsNoAccess | src/pages/RegisterPage.jsx:115-153 | a registration never approves anyone or makes anyone an admin |
| Register.FiledReceiptIsDeletable | src/pages/RegisterPage.jsx:135-151 | the receipt URL in the filed enrolment names the uploaded object, so deleting by it removes that object |
| Register.DoubleSubmitIgnored | src/pages/RegisterPage.jsx:86-88 | a second press during a submission changes nothing and calls nothing |
| Enrolments.ParseUrl | src/pages/AdminEnrolments.jsx:12-13 | a parsed URL has a non-empty host without '/' and a path starting with '/' |
| Enrolments.ConvertToR2DevUrl | src/pages/AdminEnrolments.jsx:10-41 | the URL is rewritten exactly when both it and the configured base parse, the URL is an r2.dev URL not already on a pub- host, and the base is a pub- r2.dev URL; the rewrite is `https://`, the base's host, then the URL's path |
| Enrolments.ConvertIdempotent | src/pages/AdminEnrolments.jsx:10-41 | rewriting an already rewritten URL changes nothing |
| Enrolments.ClassifyFetchError | src/pages/AdminEnrolments.jsx:98-113 | CORS is recognised first, a failed fetch included; otherwise the error is 404 iff its message mentions 404, 403 iff it mentions 403 and not 404, 500 iff it mentions 500 and neither of those, and unknown iff none |
| Enrolments.HttpStatusLandsInBucket | src/pages/AdminEnrolments.jsx:71-72 | a non-OK response, thrown as 'HTTP <status>', is classified by its own status |
| Enrolments.ProbeReceipt | src/pages/AdminEnrolments.jsx:477-508 | an OK response flags nothing; a failed response is flagged by status; a thrown error is flagged iff it is classified |
| Enrolments.ProbeAgreesOnCors | src/pages/AdminEnrolments.jsx:498-504 | on a thrown error, the probe and the blob classifier agree on what is a CORS failure |
| Enrolments.FindById | src/pages/AdminEnrolments.jsx:254-255 | the first loaded enrolment with the id, or none when no loaded one has it |
| Enrolments.UpdateEnrolmentStatus | src/pages/AdminEnrolments.jsx:238-268 | a failed write reports the error; a successful one updates only the reviewed enrolment, and only an approval changes a user: its own user becomes approved |
| Enrolments.PromptComment | src/pages/AdminEnrolments.jsx:580-581 | a cancelled prompt gives an empty comment |
| Enrolments.OfferedActions | src/pages/AdminEnrolments.jsx:576-582 | decisions are offered iff the enrolment is pending |
| Enrolments.ReviewIsFinal | src/pages/AdminEnrolments.jsx:238-268 | once written, a reviewed enrolment offers no further decision |
| Enrolments.ApprovalApprovesUser | src/pages/AdminEnrolments.jsx:253-261 | approving approves the enrolment's user; declining leaves every user as it was |
| Enrolments.StartFetch | src/pages/AdminEnrolments.jsx:166-169 | each fetch takes a larger request id and shows loading |
| Enrolments.Respond | src/pages/AdminEnrolments.jsx:197-219 | only the newest request's response lands: its rows on success; on failure an empty list and the error's own message, or 'Failed to load enrolments. Please try again.' when that message is empty |
| Enrolments.IdsOnlyGrow | src/pages/AdminEnrolments.jsx:168 | request ids never decrease, and each start increases them |
| Enrolments.StaleResponsesNeverLand | src/pages/AdminEnrolments.jsx:197-208 | responses to superseded requests, in any number and order, change nothing |
| Catalogue.Noun | src/pages/AdminCourseManager.jsx:141-146 | the noun each manager's messages use for its table is non-empty and holds no '(' |
| Catalogue.ClearSelections | src/pages/AdminCourseManager.jsx:158-162 | every user selection of the row is nulled, and every other selection is unchanged |
| Catalogue.DeleteRow | src/pages/AdminCourseManager.jsx:152 | the delete fails on a referenced row unless the schema nulls references; on success exactly the row is gone and no selection points at it |
| Catalogue.MessageOr | src/pages/AdminCourseManager.jsx:178 | an error's own message, or a non-empty default |
| Catalogue.HandleDelete | src/pages/AdminCourseManager.jsx:129-180 | a declined confirmation changes nothing; a first error other than a foreign-key refusal alerts and changes nothing; otherwise there are three outcomes: nothing changes, the row is removed with its selections nulled, or, when the retry after clearing fails, the selections are nulled, the row stays and an alert shows |
| Catalogue.DeletePreservesIntegrity | src/pages/AdminCourseManager.jsx:156-169 | a delete never leaves a user selection pointing at a missing row |
| Catalogue.ReferencedRowIsDeleted | src/pages/AdminTitlesManager.jsx:122-135 | a referenced row is deleted through the clear-and-retry path when the writes succeed |
| Catalogue.ReferenceCount | src/pages/AdminCourseManager.jsx:131-135 | the count is the number of referencing users, capped at five by the query limit, and 0 when the query fails |
| Catalogue.PossiblyMoreExactlyAtFive | src/pages/AdminTitlesManager.jsx:109-114 | the confirmation says '(and possibly more)' iff five users were counted |
| Catalogue.DeclineChangesNothing | src/pages/AdminTitlesManager.jsx:116 | declining the confirmation changes nothing, whatever the database would answer |
| Catalogue.SaveRow | src/pages/AdminCourseManager.jsx:91-115 | a successful save writes the edited row, or the new row under a fresh id |
| Catalogue.CourseRow | src/pages/AdminCourseManager.jsx:91-106 | the course row holds every form field as typed |
| Catalogue.EditCourse | src/pages/AdminCourseManager.jsx:117-127 | editing loads the row into the form, with null fields shown as "" |
| Catalogue.SaveCourse | src/pages/AdminCourseManager.jsx:91-115 | success resets and closes the form and writes the form's row: under the new id for an insert, over the edited row for an update; failure alerts 'Failed to save course' and changes nothing |
| Catalogue.EditThenSaveCourse | src/pages/AdminCourseManager.jsx:91-127 | opening a course and saving it unchanged only turns null fields into "" |
| Catalogue.EditTitle | src/pages/AdminTitlesManager.jsx:88-95 | editing loads the name, with a null deposit shown as 0 |
| Catalogue.SaveTitle | src/pages/AdminTitlesManager.jsx:62-86 | success resets the form and writes the name and deposit: under the new id for an insert, over the edited row for an update; failure alerts with the error's message and changes nothing |
| Catalogue.EditThenSaveTitle | src/pages/AdminTitlesManager.jsx:62-95 | opening a title and saving it unchanged only turns a null deposit into 0 |
| VideoId.MarkerAt | src/pages/AdminLessonManager.jsx:143 | a marker alternative matched at a position lies within the line and ends in its own final character |
| VideoId.LastMarkerUpTo | src/pages/AdminLessonManager.jsx:143 | the rightmost marker at or before a position; none exists after it |
| VideoId.ExtractVideoId | src/pages/AdminLessonManager.jsx:141-146 | the result is the input or an 11-character capture free of '#', '&' and '?' that directly follows the rightmost marker on the first line and ends at a stop character or the end of the input; without a marker the input is returned |
| VideoId.ElevenCharsUnchanged | src/pages/AdminLessonManager.jsx:145 | any 11-character input comes back unchanged |
| VideoId.ExtractIdempotent | src/pages/AdminLessonManager.jsx:141-146 | extracting from an extracted id changes nothing |
| VideoId.ExtractAfterFinalMarker | src/pages/AdminLessonManager.jsx:143-145 | an 11-character id free of stop characters that follows the last marker on the line is extracted, whether it ends the input or is followed by '#', '&' or '?' |
| VideoId.WatchUrlRoundTrip | src/pages/AdminLessonManager.jsx:143-145 | the id is recovered from its watch-page URL |
| VideoId.WatchUrlWithQuery | src/pages/AdminLessonManager.jsx:143-145 | the id is recovered from `watch?v=<id>` followed by a query or fragment such as `&t=42s` that starts a new marker nowhere |
| VideoId.ShareUrlWithQuery | src/pages/AdminLessonManager.jsx:143-145 | the id is recovered from a `youtu.be/<id>` share link, with or without a trailing `?si=…` or other such query |
| VideoId.EmbedUrlRoundTrip | src/pages/LessonPage.jsx:157 | the id is recovered from the embed URL the lesson page builds |
| VideoId.PlaceholderYieldsId | src/pages/AdminLessonManager.jsx:376 | the placeholder's example URL yields the placeholder's id |
| Lessons.RowFor | src/pages/AdminLessonManager.jsx:89-90 | the saved row holds the typed title and ordering and the extracted video id |
| Lessons.SaveLesson | src/pages/AdminLessonManager.jsx:85-115 | a save shows no alert exactly when the write succeeds and is an edit or a fresh id; failure alerts and changes nothing; success resets the form and writes only the edited row or the new row; a changed row holds the extracted id |
| Lessons.EditLesson | src/pages/AdminLessonManager.jsx:117-125 | editing loads the stored values into the form |
| Lessons.ResaveKeepsLesson | src/pages/AdminLessonManager.jsx:85-125 | saving, reopening and saving again leaves the row as it was |
| Lessons.PastedEmbedUrlStoresId | src/pages/AdminLessonManager.jsx:89-96 | pasting a lesson's own player URL stores the same id |
| Lessons.CheckProgress | src/pages/LessonPage.jsx:61-78 | a row found for this lesson and user sets the flag to that row's completion; with no row or no user the view is unchanged |
| Lessons.MarkAsCompleted | src/pages/LessonPage.jsx:80-102 | the flag turns on iff the upsert succeeds; then only this user's row for this lesson is written, as completed; a failure alerts and writes nothing |
| Lessons.MarkIdempotent | src/pages/LessonPage.jsx:80-102 | marking twice is marking once, and the button is gone afterwards |
| Lessons.MarkThenCheck | src/pages/LessonPage.jsx:61-95 | after a successful mark, reading progress reports the lesson completed |
| Lessons.MarkTouchesOnlyOwnRow | src/pages/LessonPage.jsx:85-92 | other progress rows are untouched by a mark |
| Dashboard.SortByStable | src/pages/StudentDashboard.jsx:77-79 | the sort keeps the relative order of rows with equal ordering |
| Dashboard.SortBySorted | src/pages/StudentDashboard.jsx:77-79 | the sort's output is ordered by key; the sort is a permutation (SortBy's own contract) |
| Dashboard.NormaliseCourse | src/pages/StudentDashboard.jsx:78 | a course's lessons become an ordered permutation of its lessons, with nothing else changed |
| Dashboard.NormaliseTitle | src/pages/StudentDashboard.jsx:77-79 | a title keeps as many courses, with nothing but the courses changed |
| Dashboard.NormalisedCourses | src/pages/StudentDashboard.jsx:77-79 | the normalised courses are the stably sorted courses, each with its lessons normalised |
| Dashboard.LoadedTitlesSound | src/pages/StudentDashboard.jsx:64-74 | every listed title is the normalised title of an approved enrolment of this user |
| Dashboard.LoadedTitlesComplete | src/pages/StudentDashboard.jsx:64-74 | every approved enrolment of this user with a title has that title listed |
| Dashboard.NormalisePreservesTotals | src/pages/StudentDashboard.jsx:135-141 | sorting changes neither the lesson total nor the course total |
| Dashboard.DashboardEffect | src/pages/StudentDashboard.jsx:21-29 | the fetch runs iff an approved profile with a user id is loaded; loading stops iff there is no user |
| Dashboard.ApplyEffect | src/pages/StudentDashboard.jsx:21-38 | with no user loading stops; an approved profile with a user id starts a fetch, raising loading and clearing the error; a user whose profile has not arrived keeps loading; any other user and profile leave the page as it is |
| Dashboard.FetchEnrolledTitles | src/pages/StudentDashboard.jsx:31-95 | loading always ends; success lists the loaded titles; failure empties the list and shows the error's own message, or 'Failed to load titles. Please try again.' when that message is empty; the expanded items stay |
| Dashboard.SpinnerEndsAfterFetch | src/pages/StudentDashboard.jsx:97 | after a fetch the spinner shows iff a user has no profile yet |
| Dashboard.ToggleTitle | src/pages/StudentDashboard.jsx:126-129 | the title opens or closes, and the expanded course is reset |
| Dashboard.ToggleCourse | src/pages/StudentDashboard.jsx:131-133 | the course opens or closes, and nothing else changes |
| Dashboard.ToggleCourseTwice | src/pages/StudentDashboard.jsx:131-133 | toggling a course twice restores the state |
| Dashboard.ToggleTitleTwice | src/pages/StudentDashboard.jsx:126-129 | toggling a title twice restores the state except for the collapsed course |
| Files.CheckFile | src/components/LessonFileManager.jsx:60-81 | a file is accepted iff its type is allowed for the manager and it is at most 20 MB; type is checked before size |
| Files.PdfAcceptedForLessons | src/components/CoursePdfManager.jsx:47-56 | a file the course PDF manager accepts is accepted by the lesson file manager |
| Files.SizeLimitInclusive | src/components/CoursePdfManager.jsx:53-56 | exactly 20 MB is accepted and one byte more is rejected |
| Files.Folder | src/components/LessonFileManager.jsx:87 | lesson files go under lessons/<id> and course PDFs under courses/<id> |
| Files.RecordFor | src/components/LessonFileManager.jsx:90-95 | the row records the owner, the name and the URL, plus the MIME type for lesson files only |
| Files.HandleFileUpload | src/components/LessonFileManager.jsx:56-106 | no file does nothing; a rejected file alerts its reason; success adds exactly one row for the stored object; a failure leaves the rows as they were |
| Files.FailedInsertOrphansObject | src/components/CoursePdfManager.jsx:62-77 | when the row insert fails after the upload, the object stays in the bucket with no row |
| Files.HandleDelete | src/components/LessonFileManager.jsx:109-136 | a declined confirmation changes nothing; the row goes iff the row delete succeeds; the object goes only when the storage delete succeeds |
| Files.DeleteToleratesStorageFailure | src/components/CoursePdfManager.jsx:90-103 | a failed storage delete still removes the row and raises no alert |
| Files.UploadThenDeleteRestores | src/components/LessonFileManager.jsx:83-136 | uploading a file and then deleting its row restores both the bucket and the rows |
| Files.TypeLabel | src/components/LessonFileManager.jsx:297-303 | a label is shown iff the type is non-empty: the upper-cased second '/'-piece when that is non-empty, 'FILE' otherwise |
| Files.TypeLabelPicksSubtype | src/components/LessonFileManager.jsx:303 | for `kind/subtype`, with or without further '/'-pieces, the label is the upper-cased subtype |
| Files.FormatFileType | src/components/LessonFileList.jsx:75-89 | the label is at most 20 characters; a missing type is 'FILE'; a type without '/' is upper-cased and shortened |
| Files.PdfFormatted | src/components/LessonFileList.jsx:77-85 | a PDF is listed as 'PDF' |
| Files.PdfTypeLabel | src/components/LessonFileManager.jsx:303 | the manager labels a PDF 'PDF' |
| Files.LabelsAgree | src/components/LessonFileList.jsx:77-85 | for a short two-part type the list and the manager show the same label |

## Left out

- Network, database and object-store calls become maps plus success flags or answers given as parameters. Timestamps, random ids and new row ids are parameters too.
- Storage.Upload: the client-construction check in `uploadFile` is unreachable once the credentials are set, so it has no error path here.
- Storage.ExtractKeyInvertsPublicUrl: the round trip is proved only for keys recoverable from their URL (`Recoverable`). A key must hold no '?'. It also needs one of three bases. The r2.dev fallback needs a bucket without '/' and a key without "r2.dev/". A configured `https://<host>` base whose host ends in "r2.dev" needs a key without "r2.dev/". Any other `https://<host>` base needs a host and a non-empty single-line key free of the r2.dev and cloudflarestorage markers. Not covered: an `http://` base, whose keys the source's pattern would recover as well, and a host that contains "r2.dev" other than at its end, whose URLs the source sends to the r2.dev branch and does not recover.
- Enrolments.ParseUrl: URL parsing is simplified to scheme, authority and path. The host keeps any port or userinfo.
- Regular expressions are hand-coded. `\s`, `\d` and `\w` cover ASCII only, and so does case mapping.
- Catalogue.EditTitle: the deposit is a `real`. Float rounding and input parsing are not modelled.
- Dates, locale formatting and `toISOString` are strings given by the caller.
- Session bootstrap, `onAuthStateChange`, and the one-second profile-fetch timeout are left out. The timeout is folded into the failed fetch outcome.
- The admin guard's timer is an event; its duration is not modelled.
- Lessons.MarkAsCompleted: the progress upsert is assumed to conflict on the (lesson, user) pair.
- Lessons.SaveLesson: lesson ordering comes from a number input, which yields a string. It is modelled as an integer.
- Catalogue.SaveCourse: the course form reads its ordering with `parseFloat(...) || 0`, so a typed fraction is kept; the model holds the ordering as an integer, so fractional orderings (and the `NaN`-to-0 fallback of non-numeric text) are not modelled.
- Enrolments.UpdateEnrolmentStatus: the enrolment write and the user write are not atomic. If the second write fails, the model still reports the update as written.
- Receipt display is left out: the image and blob loading, object URLs, the modal and its Escape key, and the status filter.
- Page list fetches are left out: lessons, courses, titles, file lists, and their ordering by upload time. The file managers look a row up in the loaded list; here that list is the table's rows.
- Lesson delete in the lesson manager is not modelled. It is a plain row delete with an alert.
- Downloads, file icons, the window-size flag and the register page's timed redirect after success are left out.
- In the title and course managers, the foreign-key failure message is a parameter.
- `setLanguage`, and indexing into a string leaf during translation lookup, are left out.
- The dashboard's error code logging is left out.
- Pages and components other than those listed above are not part of this model.

=== FILE: auth.dfy ===
/**
 * Identity and role derivation of the authentication context: telling a
 * phone number from an e-mail at sign-in, the profile built from session
 * metadata when the profile row is unavailable, the sign-up profile record,
 * sign-out and the role flags.
 */
module Auth {
  import opened Common
  import opened Strings

  /** Metadata stored with an auth user; "" stands for an absent field. */
  datatype Metadata = Metadata(fullName: string, phone: string, role: string)

  /** The user of the current session. */
  datatype SessionUser = SessionUser(id: string, email: string, metadata: Metadata)

  /**
   * A row of the users table. `approved` is nullable in the table; the
   * selected title is set only for students who chose one at registration.
   */
  datatype Profile = Profile(
    id: string,
    email: string,
    fullName: string,
    phone: string,
    role: string,
    approved: Option<bool>,
    selectedTitleId: Option<string>)

  /** The users table, keyed by user id. */
  type Users = map<string, Profile>

  /** The state the context publishes. */
  datatype AuthState = AuthState(user: Option<SessionUser>, profile: Option<Profile>, loading: bool)

  /** `isAdmin`: a profile is loaded and its role is 'admin'. */
  predicate IsAdmin(p: Option<Profile>) {
    p.Some? && p.value.role == "admin"
  }

  /** `isApproved`: a profile is loaded and its flag is exactly true (not merely present). */
  predicate IsApproved(p: Option<Profile>) {
    p.Some? && p.value.approved == Some(true)
  }

  // ---------------------------------------------------------------- sign-in

  /** A character the phone-number pattern admits: digit, whitespace, '+', '-', '(' or ')'. */
  predicate PhoneChar(ch: char) {
    IsDigit(ch) || IsWhitespace(ch) || ch == '+' || ch == '-' || ch == '(' || ch == ')'
  }

  /** The input with every non-digit removed. */
  function DigitsOf(s: string): (r: string)
    ensures |r| <= |s|
    ensures forall i :: 0 <= i < |r| ==> IsDigit(r[i])
    ensures forall i :: 0 <= i < |s| && IsDigit(s[i]) ==> s[i] in r
    ensures (forall i :: 0 <= i < |s| ==> IsDigit(s[i])) ==> r == s
    ensures |s| == 1 ==> r == (if IsDigit(s[0]) then s else "")
  {
    if |s| == 0 then ""
    else if IsDigit(s[0]) then [s[0]] + DigitsOf(s[1..])
    else DigitsOf(s[1..])
  }

  /**
   * Stripping distributes over concatenation. With the one-character cases
   * above, this fixes the digits kept, their order and their number.
   */
  lemma {:induction false} DigitsOfAppend(a: string, b: string)
    ensures DigitsOf(a + b) == DigitsOf(a) + DigitsOf(b)
    decreases |a|
  {
    if |a| > 0 {
      assert (a + b)[0] == a[0] && (a + b)[1..] == a[1..] + b;
      DigitsOfAppend(a[1..], b);
      if IsDigit(a[0]) {
        assert DigitsOf(a + b) == [a[0]] + DigitsOf(a[1..] + b);
        assert DigitsOf(a) == [a[0]] + DigitsOf(a[1..]);
      } else {
        assert DigitsOf(a + b) == DigitsOf(a[1..] + b);
      }
    } else {
      assert a + b == b;
    }
  }

  /** At least ten digits, and the trimmed input is a non-empty run of phone characters. */
  predicate IsPhoneNumber(input: string) {
    var t := Trim(input);
    |DigitsOf(input)| >= 10 && |t| > 0 && forall i :: 0 <= i < |t| ==> PhoneChar(t[i])
  }

  /** What the sign-in endpoint answers for an e-mail and password. */
  datatype PasswordAnswer = Rejected(message: string) | NoUserData | SignedIn(user: SessionUser)

  /** The e-mail a password sign-in was attempted with (if any) and what came of it. */
  datatype SignInResult = SignInResult(attempted: Option<string>, outcome: Result<SessionUser, string>)

  const InvalidPhoneMessage := "Invalid phone number or password."
  const NoUserDataMessage := "User data not found."

  /**
   * Sign-in with an e-mail or a phone number. `lookupEmail` is the
   * e-mail-by-phone lookup ("" for an error or no match) and `passwordSignIn`
   * the password endpoint; the password itself is inside the latter.
   */
  function SignIn(input: string, lookupEmail: string -> string, passwordSignIn: string -> PasswordAnswer): (r: SignInResult)
    ensures !IsPhoneNumber(input) ==> r.attempted == Some(Trim(input))
    ensures IsPhoneNumber(input) && lookupEmail(Trim(input)) == "" ==>
              r == SignInResult(None, Err(InvalidPhoneMessage))
    ensures IsPhoneNumber(input) && lookupEmail(Trim(input)) != "" ==>
              r.attempted == Some(lookupEmail(Trim(input)))
    ensures r.outcome.Ok? <==> r.attempted.Some? && passwordSignIn(r.attempted.value).SignedIn?
    ensures r.outcome.Ok? ==> r.outcome.value == passwordSignIn(r.attempted.value).user
    ensures r.attempted.Some? && passwordSignIn(r.attempted.value).Rejected? ==>
              r.outcome == Err(passwordSignIn(r.attempted.value).message)
    ensures r.attempted.Some? && passwordSignIn(r.attempted.value).NoUserData? ==>
              r.outcome == Err(NoUserDataMessage)
  {
    var email :=
      if IsPhoneNumber(input) then lookupEmail(Trim(input)) else Trim(input);
    if IsPhoneNumber(input) && email == "" then
      SignInResult(None, Err(InvalidPhoneMessage))
    else
      var outcome := match passwordSignIn(email)
        case Rejected(message) => Err(message)
        case NoUserData => Err(NoUserDataMessage)
        case SignedIn(user) => Ok(user);
      SignInResult(Some(email), outcome)
  }

  /** An identifier containing '@' is never taken for a phone number. */
  lemma AtSignIsNotPhone(input: string)
    requires '@' in input
    ensures !IsPhoneNumber(input)
    ensures '@' in Trim(input)
  {
    AtSignSurvivesTrim(input);
    var t := Trim(input);
    var j :| 0 <= j < |t| && t[j] == '@';
    assert !PhoneChar(t[j]);
  }

  lemma AtSignSurvivesTrim(input: string)
    requires '@' in input
    ensures '@' in Trim(input)
  {
    var i :| 0 <= i < |input| && input[i] == '@';
    assert !IsWhitespace(input[i]);
  }

  /** An e-mail address is used as typed, after trimming, and a phone lookup is never made for it. */
  lemma EmailSignInUsesTrimmedInput(input: string, lookupEmail: string -> string, passwordSignIn: string -> PasswordAnswer)
    requires '@' in input
    ensures SignIn(input, lookupEmail, passwordSignIn).attempted == Some(Trim(input))
  {
    AtSignIsNotPhone(input);
  }

  /** A run of at least ten bare digits counts as a phone number. */
  lemma DigitRunIsPhone(s: string)
    requires |s| >= 10
    requires forall i :: 0 <= i < |s| ==> IsDigit(s[i])
    ensures IsPhoneNumber(s)
  {
    DigitRunTrimmed(s);
    DigitRunDigits(s);
    assert forall i :: 0 <= i < |s| ==> PhoneChar(s[i]);
  }

  lemma DigitRunDigits(s: string)
    requires forall i :: 0 <= i < |s| ==> IsDigit(s[i])
    ensures DigitsOf(s) == s
  {
  }

  lemma DigitRunTrimmed(s: string)
    requires |s| > 0
    requires forall i :: 0 <= i < |s| ==> IsDigit(s[i])
    ensures Trim(s) == s
  {
    assert !IsWhitespace(s[|s| - 1]) && !IsWhitespace(s[0]);
    TrimUnchanged(s);
  }

  // ------------------------------------------------------------- profiles

  /** The role recorded in metadata, 'student' when none is. */
  function RoleOf(m: Metadata): (role: string)
    ensures role != ""
    ensures m.role != "" ==> role == m.role
  {
    if m.role != "" then m.role else "student"
  }

  /**
   * The profile derived from session metadata when no profile row is
   * available: absent fields default to "" and only admins are approved.
   */
  function FallbackProfile(id: string, u: SessionUser): (p: Profile)
    ensures p.id == id && p.email == u.email
    ensures p.fullName == u.metadata.fullName && p.phone == u.metadata.phone
    ensures u.metadata.role == "" ==> p.role == "student"
    ensures IsApproved(Some(p)) <==> IsAdmin(Some(p))
    ensures p.approved.Some? && p.selectedTitleId.None?
  {
    var role := RoleOf(u.metadata);
    Profile(id, u.email, u.metadata.fullName, u.metadata.phone, role, Some(role == "admin"), None)
  }

  /** A fetched row without an e-mail takes the session's; nothing else about it changes. */
  function WithSessionEmail(row: Profile, session: Option<SessionUser>): (r: Profile)
    ensures r == row.(email := r.email)
    ensures row.email != "" ==> r == row
    ensures row.email == "" && session.Some? ==> r.email == session.value.email
    ensures row.email == "" && session.None? ==> r == row
  {
    if row.email == "" && session.Some? && session.value.email != "" then
      row.(email := session.value.email)
    else
      row
  }

  /** How the profile query ended. A thrown error and the one-second timeout both count as `Failed`. */
  datatype FetchOutcome = Row(row: Profile) | NoRow | QueryError | Failed

  /** The profile the context holds after trying to fetch the row of `userId`. */
  function ProfileAfterFetch(userId: string, session: Option<SessionUser>, outcome: FetchOutcome): (p: Option<Profile>)
    ensures outcome.Row? ==> p == Some(WithSessionEmail(outcome.row, session))
    ensures !outcome.Row? ==> (p.Some? <==> session.Some?)
    ensures !outcome.Row? && p.Some? ==> p.value.id == userId && (IsApproved(p) <==> IsAdmin(p))
  {
    match outcome
    case Row(row) => Some(WithSessionEmail(row, session))
    case _ => if session.Some? then Some(FallbackProfile(userId, session.value)) else None
  }

  /** Only an admin's fallback profile passes the approval gate, whatever else the metadata holds. */
  lemma FallbackApprovedOnlyForAdmins(id: string, u: SessionUser)
    ensures IsApproved(Some(FallbackProfile(id, u))) <==> u.metadata.role == "admin"
  {
  }

  // --------------------------------------------------------------- sign-up

  /** What the sign-up endpoint answers: an error, or the new user's id ("" when none came back). */
  datatype SignUpAnswer = SignUpError(message: string) | SignUpDone(userId: string)

  /** The users table after sign-up and the reported outcome: the new user's id, or the error. */
  datatype SignUpResult = SignUpResult(users: Users, outcome: Result<string, string>)

  /** The profile written by hand when the database trigger has not made one. */
  function ManualProfile(id: string, fullName: string, phone: string, titleId: string): (p: Profile)
    ensures p.id == id && p.fullName == fullName && p.phone == phone
    ensures p.role == "student" && p.approved == Some(false)
    ensures !IsApproved(Some(p)) && !IsAdmin(Some(p))
    ensures p.selectedTitleId.Some? <==> titleId != ""
    ensures p.selectedTitleId.Some? ==> p.selectedTitleId.value == titleId
  {
    Profile(id, "", fullName, phone, "student", Some(false), if titleId != "" then Some(titleId) else None)
  }

  /**
   * Sign-up. `users` is the table as the trigger left it; `writeSucceeds`
   * says whether the follow-up insert or update goes through, whose error is
   * only logged. `titleId` is "" when no title was chosen.
   */
  function SignUp(fullName: string, phone: string, titleId: string, answer: SignUpAnswer, users: Users, writeSucceeds: bool): (r: SignUpResult)
    ensures answer.SignUpError? ==> r == SignUpResult(users, Err(answer.message))
    ensures answer.SignUpDone? ==> r.outcome == Ok(answer.userId)
    ensures !writeSucceeds || answer.SignUpError? || answer.userId == "" ==> r.users == users
    ensures r.users.Keys == users.Keys || (answer.SignUpDone? && r.users.Keys == users.Keys + {answer.userId})
    ensures forall k :: k in users && (answer.SignUpError? || k != answer.userId) ==> k in r.users && r.users[k] == users[k]
    ensures answer.SignUpDone? && answer.userId != "" && answer.userId !in users && writeSucceeds ==>
              r.users == users[answer.userId := ManualProfile(answer.userId, fullName, phone, titleId)]
    ensures answer.SignUpDone? && answer.userId != "" && answer.userId in users ==>
              r.users[answer.userId] == (if writeSucceeds && titleId != ""
                                         then users[answer.userId].(selectedTitleId := Some(titleId))
                                         else users[answer.userId])
  {
    match answer
    case SignUpError(message) => SignUpResult(users, Err(message))
    case SignUpDone(id) =>
      var after :=
        if id == "" || !writeSucceeds then users
        else if id !in users then users[id := ManualProfile(id, fullName, phone, titleId)]
        else if titleId != "" then users[id := users[id].(selectedTitleId := Some(titleId))]
        else users;
      SignUpResult(after, Ok(id))
  }

  /** A registration never produces an approved profile or an admin where there was none. */
  lemma SignUpNeverGrantsAccess(fullName: string, phone: string, titleId: string, answer: SignUpAnswer, users: Users, writeSucceeds: bool, k: string)
    requires k in SignUp(fullName, phone, titleId, answer, users, writeSucceeds).users
    ensures
      var p := SignUp(fullName, phone, titleId, answer, users, writeSucceeds).users[k];
      k in users ==> p.role == users[k].role && p.approved == users[k].approved
    ensures
      var p := SignUp(fullName, phone, titleId, answer, users, writeSucceeds).users[k];
      k !in users ==> !IsApproved(Some(p)) && !IsAdmin(Some(p))
  {
  }

  // -------------------------------------------------------------- sign-out

  /** Sign-out clears the user, the profile and the loading flag, whether or not the backend call throws. */
  function SignOut(s: AuthState, backendThrows: bool): (r: AuthState)
    ensures r.user.None? && r.profile.None? && !r.loading
    ensures !IsAdmin(r.profile) && !IsApproved(r.profile)
  {
    AuthState(None, None, false)
  }

  /** The state after sign-out depends neither on the state before nor on the backend's outcome. */
  lemma SignOutIgnoresBackend(s: AuthState, t: AuthState, a: bool, b: bool)
    ensures SignOut(s, a) == SignOut(t, b)
  {
  }
}

=== FILE: catalogue.dfy ===
/**
 * The course and title managers: saving and editing rows, and deleting a
 * row that users may have selected, with the confirmation that counts them
 * and the retry that clears their selections after a foreign-key refusal.
 */
module Catalogue {
  import opened Common
  import opened Strings

  /** The two catalogue tables that users' profiles refer to. */
  datatype Entity = CourseEntity | TitleEntity

  function Noun(e: Entity): (n: string)
    ensures '(' !in n && n != ""
  {
    match e
    case CourseEntity => "course"
    case TitleEntity => "title"
  }

  /**
   * A catalogue table and the profile column that refers to it: the rows by
   * id, and for each user the id of the row the user selected (`None` for null).
   */
  datatype Store<R> = Store(rows: map<string, R>, selections: map<string, Option<string>>)

  /** The users whose selection is `id`. */
  function Referencing<R>(s: Store<R>, id: string): set<string> {
    set u | u in s.selections && s.selections[u] == Some(id)
  }

  /** No user's selection points at a row that is not there. */
  predicate Integrity<R>(s: Store<R>) {
    forall u :: u in s.selections && s.selections[u].Some? ==> s.selections[u].value in s.rows
  }

  /** A database error: its code and its message ("" when it has none). */
  datatype DbError = DbError(code: string, message: string)

  const ForeignKeyViolation := "23503"

  /**
   * How the database treats a referenced row on delete: refuse with a
   * foreign-key violation, or null the references itself. `fkMessage` is the
   * database's text for the refusal.
   */
  datatype Schema = Schema(setNullOnDelete: bool, fkMessage: string)

  /** Every selection of `id` nulled, every other left alone. */
  function ClearSelections<R>(s: Store<R>, id: string): (r: Store<R>)
    ensures r.rows == s.rows && r.selections.Keys == s.selections.Keys
    ensures Referencing(r, id) == {}
    ensures forall u :: u in s.selections ==>
              r.selections[u] == (if s.selections[u] == Some(id) then None else s.selections[u])
  {
    var sel := map u | u in s.selections :: if s.selections[u] == Some(id) then None else s.selections[u];
    Store(s.rows, sel)
  }

  /**
   * One delete statement. `injected` is a failure for reasons outside this
   * model (permissions, the network); otherwise a referenced row is refused
   * or has its references nulled, according to the schema.
   */
  function DeleteRow<R>(s: Store<R>, id: string, schema: Schema, injected: Option<DbError>): (r: Result<Store<R>, DbError>)
    ensures injected.Some? ==> r == Err(injected.value)
    ensures injected.None? && Referencing(s, id) != {} && !schema.setNullOnDelete ==>
              r == Err(DbError(ForeignKeyViolation, schema.fkMessage))
    ensures r.Ok? ==> r.value.rows == s.rows - {id} && Referencing(r.value, id) == {}
    ensures r.Ok? ==> r.value == ClearSelections(s, id).(rows := s.rows - {id})
  {
    if injected.Some? then Err(injected.value)
    else if Referencing(s, id) != {} && !schema.setNullOnDelete then Err(DbError(ForeignKeyViolation, schema.fkMessage))
    else
      var cleared := ClearSelections(s, id);
      Ok(cleared.(rows := s.rows - {id}))
  }

  /** What the database answers to the three statements a delete may run. */
  datatype DeleteAnswers = DeleteAnswers(first: Option<DbError>, clear: Option<string>, retry: Option<DbError>)

  /** A delete's effect: the store and the alert shown. */
  datatype DeleteResult<R> = DeleteResult(store: Store<R>, alert: Option<string>)

  /** A thrown error's message, or 'Unknown error' when it has none. */
  function MessageOr(m: string): (r: string)
    ensures r != ""
    ensures m != "" ==> r == m
  {
    if m != "" then m else "Unknown error"
  }

  function DeleteFailedAlert(e: Entity, message: string): string {
    "Failed to delete " + Noun(e) + ": " + MessageOr(message)
  }

  /**
   * The delete button, after the confirmation. A foreign-key refusal clears
   * the users' selections of the row and retries once; any other error, or a
   * failure to clear, is reported without a retry.
   */
  function HandleDelete<R>(e: Entity, s: Store<R>, id: string, confirmed: bool, schema: Schema,
                           answers: DeleteAnswers): (r: DeleteResult<R>)
    ensures !confirmed ==> r == DeleteResult(s, None)
    ensures r.alert.None? ==> r.store == s || (r.store.rows == s.rows - {id} && Referencing(r.store, id) == {})
    ensures r.store.rows == s.rows || r.store.rows == s.rows - {id}
    ensures forall u :: u in s.selections ==>
              (u in r.store.selections &&
               (r.store.selections[u] == s.selections[u] || (s.selections[u] == Some(id) && r.store.selections[u].None?)))
    ensures r.store.selections.Keys == s.selections.Keys
    ensures confirmed && answers.first.Some? && answers.first.value.code != ForeignKeyViolation ==>
              r == DeleteResult(s, Some(DeleteFailedAlert(e, answers.first.value.message)))
    ensures r.store.selections != s.selections ==>
              confirmed &&
              (DeleteRow(s, id, schema, answers.first).Ok?
               || (DeleteRow(s, id, schema, answers.first).error.code == ForeignKeyViolation && answers.clear.None?))
    ensures r.alert.Some? && r.store != s ==> r.store == ClearSelections(s, id)
  {
    if !confirmed then DeleteResult(s, None)
    else match DeleteRow(s, id, schema, answers.first)
      case Ok(deleted) => DeleteResult(deleted, None)
      case Err(err) =>
        if err.code != ForeignKeyViolation then DeleteResult(s, Some(DeleteFailedAlert(e, err.message)))
        else match answers.clear
          case Some(m) =>
            DeleteResult(s, Some(DeleteFailedAlert(e, "Failed to clear " + Noun(e) + " references: " + m)))
          case None =>
            var cleared := ClearSelections(s, id);
            match DeleteRow(cleared, id, schema, answers.retry)
            case Ok(deleted) => DeleteResult(deleted, None)
            case Err(err2) => DeleteResult(cleared, Some(DeleteFailedAlert(e, err2.message)))
  }

  /** Clearing the selections lets the retry through: a delete never leaves a dangling selection. */
  lemma DeletePreservesIntegrity<R>(e: Entity, s: Store<R>, id: string, confirmed: bool, schema: Schema,
                                    answers: DeleteAnswers)
    requires Integrity(s)
    ensures Integrity(HandleDelete(e, s, id, confirmed, schema, answers).store)
  {
    var r := HandleDelete(e, s, id, confirmed, schema, answers).store;
    forall u | u in r.selections && r.selections[u].Some?
      ensures r.selections[u].value in r.rows
    {
      assert s.selections[u] == r.selections[u];
    }
  }

  /**
   * With no outside failures, a confirmed delete of a referenced row always
   * succeeds: by the database's own nulling, or by the clear and the retry.
   */
  lemma ReferencedRowIsDeleted<R>(e: Entity, s: Store<R>, id: string, schema: Schema)
    ensures
      var r := HandleDelete(e, s, id, true, schema, DeleteAnswers(None, None, None));
      r.alert.None? && r.store == ClearSelections(s, id).(rows := s.rows - {id})
  {
    var cleared := ClearSelections(s, id);
    assert DeleteRow(cleared, id, schema, None) == Ok(ClearSelections(cleared, id).(rows := cleared.rows - {id}));
    assert ClearSelections(cleared, id) == cleared;
  }

  // ----------------------------------------------------------- confirmation

  /**
   * The number of referencing users the page learns: the reference query is
   * limited to five rows, and a failed query counts as none.
   */
  function ReferenceCount<R>(s: Store<R>, id: string, querySucceeds: bool): (n: nat)
    ensures n <= 5
    ensures querySucceeds && |Referencing(s, id)| < 5 ==> n == |Referencing(s, id)|
    ensures querySucceeds && |Referencing(s, id)| >= 5 ==> n == 5
    ensures !querySucceeds ==> n == 0
  {
    if !querySucceeds then 0
    else if |Referencing(s, id)| < 5 then |Referencing(s, id)| else 5
  }

  /** The plain question asked when no user is counted. */
  function PlainQuestion(e: Entity): string {
    "Are you sure you want to delete this " + Noun(e) + "?"
  }

  /** The part of the counted message before the parenthesised plural. */
  function CountLead(e: Entity, count: nat): string {
    "This " + Noun(e) + " is selected by " + Decimal(count) + " user"
  }

  /** The part of the counted message after the note. */
  function CountTail(e: Entity): string {
    ". Their selected " + Noun(e) + " will be cleared. " + PlainQuestion(e)
  }

  /** The note added when the count reaches the query's limit. */
  const PossiblyMore := "(and possibly more)"

  /** The confirmation text for `count` referencing users. */
  function ConfirmMessage(e: Entity, count: nat): string {
    if count == 0 then PlainQuestion(e)
    else CountLead(e, count) + "(s)" + (if count == 5 then " " + PossiblyMore else "") + CountTail(e)
  }

  /** A text whose only '(' is followed by 's' holds no pattern that starts with "(a". */
  lemma OnlyPluralParen(p: string, q: string, pat: string)
    requires '(' !in p && '(' !in q
    requires |pat| >= 2 && pat[0] == '(' && pat[1] == 'a'
    ensures !Contains(p + "(s)" + q, pat)
  {
    var s := p + "(s)" + q;
    forall i: nat
      ensures !OccursAt(s, pat, i)
    {
      if i + |pat| <= |s| {
        assert s[i..i + |pat|][0] == s[i] && s[i..i + |pat|][1] == s[i + 1];
        if i < |p| {
          assert s[i] == p[i];
        } else if i > |p| + 2 {
          assert s[i] == q[i - |p| - 3];
        }
      }
    }
  }

  /** With no user counted, the plain question carries no note. */
  lemma NoNoteWithoutCount(e: Entity)
    ensures !Contains(ConfirmMessage(e, 0), PossiblyMore)
  {
    assert PossiblyMore[0] == '(';
    assert '(' !in PlainQuestion(e);
    FirstCharAbsent(PlainQuestion(e), PossiblyMore);
  }

  /** With five users counted, the note is there. */
  lemma NoteAtFive(e: Entity)
    ensures Contains(ConfirmMessage(e, 5), PossiblyMore)
  {
    var pat := PossiblyMore;
    var lead, tail := CountLead(e, 5), CountTail(e);
    var a := lead + "(s)" + " ";
    assert ConfirmMessage(e, 5) == lead + "(s)" + (" " + pat) + tail;
    assert lead + "(s)" + (" " + pat) + tail == a + pat + tail;
    assert OccursAt(pat, pat, 0);
    ContainsInside(a, pat, CountTail(e), pat);
  }

  lemma NoParenInLead(e: Entity, count: nat)
    ensures '(' !in CountLead(e, count)
  {
    assert '(' !in Decimal(count);
  }

  lemma NoParenInTail(e: Entity)
    ensures '(' !in CountTail(e)
  {
    assert '(' !in PlainQuestion(e);
  }

  /** With one to four users counted, the only parenthesis is the plural's. */
  lemma NoNoteBelowFive(e: Entity, count: nat)
    requires 0 < count < 5
    ensures !Contains(ConfirmMessage(e, count), PossiblyMore)
  {
    NoParenInLead(e, count);
    NoParenInTail(e);
    assert PossiblyMore[0] == '(' && PossiblyMore[1] == 'a';
    var lead, tail := CountLead(e, count), CountTail(e);
    assert ConfirmMessage(e, count) == lead + "(s)" + tail;
    OnlyPluralParen(CountLead(e, count), CountTail(e), PossiblyMore);
  }

  /** The confirmation says '(and possibly more)' exactly when five users were counted. */
  lemma PossiblyMoreExactlyAtFive(e: Entity, count: nat)
    requires count <= 5
    ensures Contains(ConfirmMessage(e, count), PossiblyMore) <==> count == 5
  {
    if count == 0 {
      NoNoteWithoutCount(e);
    } else if count == 5 {
      NoteAtFive(e);
    } else {
      NoNoteBelowFive(e, count);
    }
  }

  /** Declining the confirmation changes nothing, whatever the database would have answered. */
  lemma DeclineChangesNothing<R>(e: Entity, s: Store<R>, id: string, schema: Schema, answers: DeleteAnswers)
    ensures HandleDelete(e, s, id, false, schema, answers) == DeleteResult(s, None)
  {
  }

  // ------------------------------------------------------------ saving rows

  /**
   * The form's save: an update of the edited row (no row matching is not an
   * error), or an insert under `newId`, which fails when the id is taken.
   */
  function SaveRow<R>(rows: map<string, R>, editing: Option<string>, newId: string, row: R,
                      writeSucceeds: bool): (r: Option<map<string, R>>)
    ensures r.Some? <==> writeSucceeds && (editing.Some? || newId !in rows)
    ensures r.Some? && editing.None? ==> r.value == rows[newId := row]
    ensures r.Some? && editing.Some? && editing.value in rows ==> r.value == rows[editing.value := row]
    ensures r.Some? && editing.Some? && editing.value !in rows ==> r.value == rows
  {
    if !writeSucceeds then None
    else match editing
      case Some(id) => Some(if id in rows then rows[id := row] else rows)
      case None => if newId in rows then None else Some(rows[newId := row])
  }

  /** A course row; description and title id may be null. */
  datatype Course = Course(title: string, description: Option<string>, published: bool, ordering: int,
                           titleId: Option<string>)

  datatype CourseForm = CourseForm(title: string, description: string, published: bool, ordering: int, titleId: string)

  const EmptyCourseForm := CourseForm("", "", false, 0, "")

  /** The course manager's form, the course being edited, and whether the form is open. */
  datatype CourseEditor = CourseEditor(form: CourseForm, editing: Option<string>, showForm: bool)

  /** The row the form writes: every field as typed, empty strings included. */
  function CourseRow(f: CourseForm): (c: Course)
    ensures c.title == f.title && c.description == Some(f.description) && c.titleId == Some(f.titleId)
    ensures c.published == f.published && c.ordering == f.ordering
  {
    Course(f.title, Some(f.description), f.published, f.ordering, Some(f.titleId))
  }

  /** Opening a course for editing; a null description or title id shows as "". */
  function EditCourse(id: string, c: Course): (ed: CourseEditor)
    ensures ed.showForm && ed.editing == Some(id)
    ensures ed.form.description == (if c.description.Some? then c.description.value else "")
    ensures ed.form.titleId == (if c.titleId.Some? then c.titleId.value else "")
    ensures ed.form.title == c.title && ed.form.published == c.published && ed.form.ordering == c.ordering
  {
    CourseEditor(CourseForm(c.title, if c.description.Some? then c.description.value else "", c.published,
                            c.ordering, if c.titleId.Some? then c.titleId.value else ""), Some(id), true)
  }

  /** A course save: success closes and resets the form; failure alerts 'Failed to save course'. */
  function SaveCourse(ed: CourseEditor, rows: map<string, Course>, newId: string, writeSucceeds: bool)
    : (r: (CourseEditor, map<string, Course>, Option<string>))
    ensures r.2.None? <==> writeSucceeds && (ed.editing.Some? || newId !in rows)
    ensures r.2.None? ==> r.0 == CourseEditor(EmptyCourseForm, None, false)
    ensures r.2.Some? ==> r.0 == ed && r.1 == rows && r.2.value == "Failed to save course"
    ensures r.2.None? && ed.editing.None? ==> r.1 == rows[newId := CourseRow(ed.form)]
    ensures r.2.None? && ed.editing.Some? && ed.editing.value in rows ==>
              r.1 == rows[ed.editing.value := CourseRow(ed.form)]
    ensures ed.editing.Some? && ed.editing.value !in rows ==> r.1 == rows
  {
    match SaveRow(rows, ed.editing, newId, CourseRow(ed.form), writeSucceeds)
    case Some(written) => (CourseEditor(EmptyCourseForm, None, false), written, None)
    case None => (ed, rows, Some("Failed to save course"))
  }

  /**
   * Opening a course and saving it unchanged rewrites it with a null
   * description or title id turned into "" and nothing else changed.
   */
  lemma EditThenSaveCourse(id: string, rows: map<string, Course>, newId: string)
    requires id in rows
    ensures
      var c := rows[id];
      SaveCourse(EditCourse(id, c), rows, newId, true).1 ==
        rows[id := c.(description := Some(if c.description.Some? then c.description.value else ""),
                      titleId := Some(if c.titleId.Some? then c.titleId.value else ""))]
  {
  }

  /** A title row; the deposit may be null. */
  datatype TitleRow = TitleRow(name: string, deposit: Option<real>)

  datatype TitleForm = TitleForm(name: string, deposit: real)

  const EmptyTitleForm := TitleForm("", 0.0)

  datatype TitleEditor = TitleEditor(form: TitleForm, editing: Option<string>, showForm: bool)

  /** Opening a title for editing; a null or zero deposit shows as 0. */
  function EditTitle(id: string, t: TitleRow): (ed: TitleEditor)
    ensures ed.showForm && ed.editing == Some(id) && ed.form.name == t.name
    ensures ed.form.deposit == (if t.deposit.Some? then t.deposit.value else 0.0)
  {
    TitleEditor(TitleForm(t.name, if t.deposit.Some? && t.deposit.value != 0.0 then t.deposit.value else 0.0), Some(id), true)
  }

  /** A title save: success closes and resets the form; failure alerts with the error's message. */
  function SaveTitle(ed: TitleEditor, rows: map<string, TitleRow>, newId: string, writeSucceeds: bool,
                     errorMessage: string): (r: (TitleEditor, map<string, TitleRow>, Option<string>))
    ensures r.2.None? <==> writeSucceeds && (ed.editing.Some? || newId !in rows)
    ensures r.2.None? ==> r.0 == TitleEditor(EmptyTitleForm, None, false)
    ensures r.2.Some? ==> r.0 == ed && r.1 == rows && r.2.value == "Failed to save title: " + MessageOr(errorMessage)
    ensures r.2.None? && ed.editing.None? ==> r.1 == rows[newId := TitleRow(ed.form.name, Some(ed.form.deposit))]
    ensures r.2.None? && ed.editing.Some? && ed.editing.value in rows ==>
              r.1 == rows[ed.editing.value := TitleRow(ed.form.name, Some(ed.form.deposit))]
    ensures ed.editing.Some? && ed.editing.value !in rows ==> r.1 == rows
  {
    match SaveRow(rows, ed.editing, newId, TitleRow(ed.form.name, Some(ed.form.deposit)), writeSucceeds)
    case Some(written) => (TitleEditor(EmptyTitleForm, None, false), written, None)
    case None => (ed, rows, Some("Failed to save title: " + MessageOr(errorMessage)))
  }

  /** Opening a title and saving it unchanged only turns a null deposit into 0. */
  lemma EditThenSaveTitle(id: string, rows: map<string, TitleRow>, newId: string)
    requires id in rows
    ensures
      var t := rows[id];
      SaveTitle(EditTitle(id, t), rows, newId, true, "").1 ==
        rows[id := t.(deposit := Some(if t.deposit.Some? then t.deposit.value else 0.0))]
  {
  }
}

=== FILE: common.dfy ===
/** Failure-carrying values shared by every module of the model. */
module Common {

  /** A value that may be absent: JavaScript's `null`/`undefined` next to a real value. */
  datatype Option<T> = None | Some(value: T)

  /** The outcome of an operation that either produces a value or reports an error. */
  datatype Result<T, E> = Ok(value: T) | Err(error: E)
}

=== FILE: dashboard.dfy ===
/**
 * The student dashboard: when it fetches, how the fetched enrolments become
 * the list of titles (filtered, then courses and lessons stably sorted by
 * their ordering), the totals it shows, and the expand/collapse toggles.
 */
module Dashboard {
  import opened Common
  import Auth

  // ------------------------------------------------------------ stable sort

  /** Ascending by `key`. */
  predicate SortedBy<T>(s: seq<T>, key: T -> int) {
    forall i, j :: 0 <= i < j < |s| ==> key(s[i]) <= key(s[j])
  }

  /** The elements of `s` whose key is `k`, in their order in `s`. */
  function WithKey<T>(s: seq<T>, key: T -> int, k: int): seq<T>
    decreases |s|
  {
    if |s| == 0 then []
    else (if key(s[0]) == k then [s[0]] else []) + WithKey(s[1..], key, k)
  }

  /** `x` placed before the first element whose key is not below its own. */
  function InsertBy<T>(x: T, s: seq<T>, key: T -> int): (r: seq<T>)
    ensures |r| == |s| + 1
    ensures multiset(r) == multiset(s) + multiset{x}
    decreases |s|
  {
    if |s| == 0 then [x]
    else if key(x) <= key(s[0]) then [x] + s
    else
      assert s == [s[0]] + s[1..];
      [s[0]] + InsertBy(x, s[1..], key)
  }

  /** The stable sort `Array.prototype.sort` performs with a key-difference comparator. */
  function SortBy<T>(s: seq<T>, key: T -> int): (r: seq<T>)
    ensures |r| == |s|
    ensures multiset(r) == multiset(s)
    decreases |s|
  {
    if |s| == 0 then []
    else
      assert s == [s[0]] + s[1..];
      InsertBy(s[0], SortBy(s[1..], key), key)
  }

  lemma WithKeyAppend<T>(a: seq<T>, b: seq<T>, key: T -> int, k: int)
    ensures WithKey(a + b, key, k) == WithKey(a, key, k) + WithKey(b, key, k)
    decreases |a|
  {
    if |a| > 0 {
      assert (a + b)[0] == a[0];
      assert (a + b)[1..] == a[1..] + b;
      WithKeyAppend(a[1..], b, key, k);
    } else {
      assert a + b == b;
    }
  }

  /** Inserting `x` lands it in front of the elements that share its key. */
  lemma {:induction false} InsertByWithKey<T>(x: T, s: seq<T>, key: T -> int, k: int)
    ensures WithKey(InsertBy(x, s, key), key, k) == (if key(x) == k then [x] else []) + WithKey(s, key, k)
    decreases |s|
  {
    if |s| == 0 {
    } else if key(x) <= key(s[0]) {
      WithKeyAppend([x], s, key, k);
    } else {
      InsertByWithKey(x, s[1..], key, k);
      WithKeyAppend([s[0]], InsertBy(x, s[1..], key), key, k);
    }
  }

  /** Stability: elements with equal keys keep their relative order. */
  lemma {:induction false} SortByStable<T>(s: seq<T>, key: T -> int, k: int)
    ensures WithKey(SortBy(s, key), key, k) == WithKey(s, key, k)
    decreases |s|
  {
    if |s| > 0 {
      SortByStable(s[1..], key, k);
      InsertByWithKey(s[0], SortBy(s[1..], key), key, k);
    }
  }

  lemma {:induction false} InsertBySorted<T>(x: T, s: seq<T>, key: T -> int)
    requires SortedBy(s, key)
    ensures SortedBy(InsertBy(x, s, key), key)
    ensures |s| > 0 ==> InsertBy(x, s, key)[0] == x || InsertBy(x, s, key)[0] == s[0]
    decreases |s|
  {
    if |s| > 0 && key(x) > key(s[0]) {
      InsertBySorted(x, s[1..], key);
      var r := InsertBy(x, s, key);
      forall i, j | 0 <= i < j < |r|
        ensures key(r[i]) <= key(r[j])
      {
        if i == 0 {
          assert r[j] in multiset(InsertBy(x, s[1..], key));
          assert r[j] == x || r[j] in multiset(s[1..]);
          if r[j] != x {
            var m :| 0 <= m < |s[1..]| && s[1..][m] == r[j];
            assert s[m + 1] == r[j];
          }
        }
      }
    }
  }

  /** The sort's result is ascending. */
  lemma {:induction false} SortBySorted<T>(s: seq<T>, key: T -> int)
    ensures SortedBy(SortBy(s, key), key)
    decreases |s|
  {
    if |s| > 0 {
      SortBySorted(s[1..], key);
      InsertBySorted(s[0], SortBy(s[1..], key), key);
    }
  }

  // ------------------------------------------------------------ the rows

  datatype LessonRow = LessonRow(id: string, title: string, ordering: Option<int>, youtubeId: string)

  datatype CourseRow = CourseRow(id: string, title: string, description: Option<string>, ordering: Option<int>,
                                 lessons: Option<seq<LessonRow>>)

  datatype TitleRow = TitleRow(id: string, name: string, courses: Option<seq<CourseRow>>)

  /** An enrolment with its title joined in (`None` when the title is missing). */
  datatype EnrolmentRow = EnrolmentRow(userId: string, status: string, title: Option<TitleRow>)

  /** An ordering as the comparator reads it: a missing one counts as 0. */
  function OrderKey(o: Option<int>): int {
    if o.Some? then o.value else 0
  }

  function LessonKey(l: LessonRow): int {
    OrderKey(l.ordering)
  }

  function CourseKey(c: CourseRow): int {
    OrderKey(c.ordering)
  }

  function LessonsOf(c: CourseRow): seq<LessonRow> {
    if c.lessons.Some? then c.lessons.value else []
  }

  function CoursesOf(t: TitleRow): seq<CourseRow> {
    if t.courses.Some? then t.courses.value else []
  }

  /** A course with its lessons sorted by ordering. */
  function NormaliseCourse(c: CourseRow): (r: CourseRow)
    ensures r.lessons.Some? && SortedBy(r.lessons.value, LessonKey)
    ensures multiset(r.lessons.value) == multiset(LessonsOf(c))
    ensures r == c.(lessons := r.lessons)
  {
    SortBySorted(LessonsOf(c), LessonKey);
    c.(lessons := Some(SortBy(LessonsOf(c), LessonKey)))
  }

  /** A title with its courses sorted by ordering, each course normalised. */
  function NormaliseTitle(t: TitleRow): (r: TitleRow)
    ensures r.courses.Some? && |r.courses.value| == |CoursesOf(t)|
    ensures r == t.(courses := r.courses)
  {
    var sorted := SortBy(CoursesOf(t), CourseKey);
    t.(courses := Some(seq(|sorted|, i requires 0 <= i < |sorted| => NormaliseCourse(sorted[i]))))
  }

  /** The courses of a normalised title are the sorted courses, each normalised. */
  lemma NormalisedCourses(t: TitleRow)
    ensures
      var sorted := SortBy(CoursesOf(t), CourseKey);
      && SortedBy(sorted, CourseKey)
      && (forall k :: WithKey(sorted, CourseKey, k) == WithKey(CoursesOf(t), CourseKey, k))
      && (forall i :: 0 <= i < |sorted| ==> NormaliseTitle(t).courses.value[i] == NormaliseCourse(sorted[i]))
  {
    var sorted := SortBy(CoursesOf(t), CourseKey);
    SortBySorted(CoursesOf(t), CourseKey);
    forall k ensures WithKey(sorted, CourseKey, k) == WithKey(CoursesOf(t), CourseKey, k) {
      SortByStable(CoursesOf(t), CourseKey, k);
    }
  }

  /** The enrolment at `i` is one of `userId`'s approved enrolments with its title present. */
  predicate Shown(rows: seq<EnrolmentRow>, userId: string, i: int)
    requires 0 <= i < |rows|
  {
    rows[i].userId == userId && rows[i].status == "approved" && rows[i].title.Some?
  }

  /**
   * The titles the dashboard shows: those of the user's approved
   * enrolments, with a missing title dropped, each normalised.
   */
  function LoadedTitles(rows: seq<EnrolmentRow>, userId: string): (r: seq<TitleRow>)
    ensures |r| <= |rows|
    decreases |rows|
  {
    if |rows| == 0 then []
    else (if Shown(rows, userId, 0) then [NormaliseTitle(rows[0].title.value)] else [])
         + LoadedTitles(rows[1..], userId)
  }

  /** Every title shown comes from one of the user's approved enrolments. */
  lemma {:induction false} LoadedTitlesSound(rows: seq<EnrolmentRow>, userId: string, t: TitleRow)
    requires t in LoadedTitles(rows, userId)
    ensures exists i :: 0 <= i < |rows| && Shown(rows, userId, i) && t == NormaliseTitle(rows[i].title.value)
    decreases |rows|
  {
    if !(Shown(rows, userId, 0) && t == NormaliseTitle(rows[0].title.value)) {
      LoadedTitlesSound(rows[1..], userId, t);
      var i :| 0 <= i < |rows[1..]| && Shown(rows[1..], userId, i) && t == NormaliseTitle(rows[1..][i].title.value);
      assert rows[1..][i] == rows[i + 1];
    }
  }

  /** Every approved enrolment of the user with a title has that title shown. */
  lemma {:induction false} LoadedTitlesComplete(rows: seq<EnrolmentRow>, userId: string, i: nat)
    requires i < |rows| && Shown(rows, userId, i)
    ensures NormaliseTitle(rows[i].title.value) in LoadedTitles(rows, userId)
    decreases |rows|
  {
    if i > 0 {
      assert rows[1..][i - 1] == rows[i];
      LoadedTitlesComplete(rows[1..], userId, i - 1);
    }
  }

  // ------------------------------------------------------------ totals

  function LessonCount(c: CourseRow): nat {
    if c.lessons.Some? then |c.lessons.value| else 0
  }

  /** The sum of the lesson counts of `cs`, left to right. */
  function SumLessons(cs: seq<CourseRow>): nat
    decreases |cs|
  {
    if |cs| == 0 then 0 else LessonCount(cs[0]) + SumLessons(cs[1..])
  }

  /** The total lessons shown for a title. */
  function TotalLessons(t: TitleRow): nat {
    SumLessons(CoursesOf(t))
  }

  /** The total courses shown for a title. */
  function TotalCourses(t: TitleRow): nat {
    |CoursesOf(t)|
  }

  lemma {:induction false} SumLessonsInsert(x: CourseRow, s: seq<CourseRow>)
    ensures SumLessons(InsertBy(x, s, CourseKey)) == LessonCount(x) + SumLessons(s)
    decreases |s|
  {
    if |s| > 0 && CourseKey(x) > CourseKey(s[0]) {
      SumLessonsInsert(x, s[1..]);
    }
  }

  lemma {:induction false} SumLessonsSort(s: seq<CourseRow>)
    ensures SumLessons(SortBy(s, CourseKey)) == SumLessons(s)
    decreases |s|
  {
    if |s| > 0 {
      SumLessonsSort(s[1..]);
      SumLessonsInsert(s[0], SortBy(s[1..], CourseKey));
    }
  }

  lemma {:induction false} SumLessonsNormalised(s: seq<CourseRow>)
    ensures SumLessons(seq(|s|, i requires 0 <= i < |s| => NormaliseCourse(s[i]))) == SumLessons(s)
    decreases |s|
  {
    if |s| > 0 {
      var n := seq(|s|, i requires 0 <= i < |s| => NormaliseCourse(s[i]));
      var rest := s[1..];
      assert n[1..] == seq(|rest|, i requires 0 <= i < |rest| => NormaliseCourse(rest[i]));
      SumLessonsNormalised(rest);
      assert LessonCount(n[0]) == LessonCount(s[0]);
    }
  }

  /** Normalising a title changes neither of its totals. */
  lemma NormalisePreservesTotals(t: TitleRow)
    ensures TotalLessons(NormaliseTitle(t)) == TotalLessons(t)
    ensures TotalCourses(NormaliseTitle(t)) == TotalCourses(t)
  {
    var sorted := SortBy(CoursesOf(t), CourseKey);
    SumLessonsNormalised(sorted);
    SumLessonsSort(CoursesOf(t));
  }

  // ------------------------------------------------------------ the page

  /** The dashboard's state. */
  datatype DashboardState = DashboardState(
    titles: seq<TitleRow>,
    expandedTitle: Option<string>,
    expandedCourse: Option<string>,
    loading: bool,
    error: Option<string>)

  /** What the page's effect does for the current user and profile. */
  datatype EffectAction = Fetch | StopLoading | KeepLoading | NoAction

  function DashboardEffect(user: Option<Auth.SessionUser>, profile: Option<Auth.Profile>): (a: EffectAction)
    ensures a == Fetch <==> user.Some? && user.value.id != "" && Auth.IsApproved(profile)
    ensures a == StopLoading <==> user.None?
    ensures a == KeepLoading ==> user.Some? && profile.None?
  {
    if user.Some? && user.value.id != "" && profile.Some? && profile.value.approved == Some(true) then Fetch
    else if user.None? then StopLoading
    else if profile.None? then KeepLoading
    else NoAction
  }

  /** The effect applied to the page's loading flag. */
  function ApplyEffect(d: DashboardState, user: Option<Auth.SessionUser>, profile: Option<Auth.Profile>): (r: DashboardState)
    ensures user.None? ==> r == d.(loading := false)
    ensures user.Some? && user.value.id != "" && Auth.IsApproved(profile) ==> r == d.(loading := true, error := None)
    ensures user.Some? && profile.None? ==> r == d.(loading := true)
    ensures user.Some? && profile.Some? && !(user.value.id != "" && Auth.IsApproved(profile)) ==> r == d
  {
    match DashboardEffect(user, profile)
    case Fetch => d.(loading := true, error := None)
    case StopLoading => d.(loading := false)
    case KeepLoading => d.(loading := true)
    case NoAction => d
  }

  const LoadTitlesFailedMessage := "Failed to load titles. Please try again."

  /**
   * The fetch and its outcome: `answer` is the enrolments table (or the
   * query's error). A failure empties the list and sets an error.
   */
  function FetchEnrolledTitles(d: DashboardState, user: Option<Auth.SessionUser>,
                               answer: Result<seq<EnrolmentRow>, string>): (r: DashboardState)
    ensures !r.loading
    ensures user.None? || user.value.id == "" ==> r == d.(loading := false)
    ensures user.Some? && user.value.id != "" && answer.Ok? ==>
              r.titles == LoadedTitles(answer.value, user.value.id) && r.error.None?
    ensures user.Some? && user.value.id != "" && answer.Err? ==>
              r.titles == [] && r.error.Some? && r.error.value != ""
    ensures user.Some? && user.value.id != "" && answer.Err? && answer.error != "" ==> r.error == Some(answer.error)
    ensures user.Some? && user.value.id != "" && answer == Err("") ==> r.error == Some(LoadTitlesFailedMessage)
    ensures r.expandedTitle == d.expandedTitle && r.expandedCourse == d.expandedCourse
  {
    match user
    case None => d.(loading := false)
    case Some(u) =>
      if u.id == "" then d.(loading := false)
      else match answer
        case Ok(rows) => d.(titles := LoadedTitles(rows, u.id), error := None, loading := false)
        case Err(m) => d.(titles := [], error := Some(if m != "" then m else LoadTitlesFailedMessage), loading := false)
  }

  /** The spinner condition. */
  predicate ShowsSpinner(d: DashboardState, user: Option<Auth.SessionUser>, profile: Option<Auth.Profile>) {
    (d.loading && |d.titles| == 0 && d.error.None?) || (user.Some? && profile.None?)
  }

  /** Once a fetch is over, the spinner shows only for a user whose profile has not arrived. */
  lemma SpinnerEndsAfterFetch(d: DashboardState, user: Option<Auth.SessionUser>, profile: Option<Auth.Profile>,
                              answer: Result<seq<EnrolmentRow>, string>)
    ensures ShowsSpinner(FetchEnrolledTitles(d, user, answer), user, profile) <==> user.Some? && profile.None?
  {
  }

  /** Expanding a title (collapsing it when it is the expanded one); the expanded course always closes. */
  function ToggleTitle(d: DashboardState, id: string): (r: DashboardState)
    ensures r.expandedCourse.None?
    ensures r.expandedTitle == (if d.expandedTitle == Some(id) then None else Some(id))
    ensures r.titles == d.titles && r.loading == d.loading && r.error == d.error
  {
    d.(expandedTitle := if d.expandedTitle == Some(id) then None else Some(id), expandedCourse := None)
  }

  /** Expanding a course, or collapsing it when it is the expanded one. */
  function ToggleCourse(d: DashboardState, id: string): (r: DashboardState)
    ensures r.expandedCourse == (if d.expandedCourse == Some(id) then None else Some(id))
    ensures r == d.(expandedCourse := r.expandedCourse)
  {
    d.(expandedCourse := if d.expandedCourse == Some(id) then None else Some(id))
  }

  /** Toggling a course twice restores the page. */
  lemma ToggleCourseTwice(d: DashboardState, id: string)
    requires d.expandedCourse.None? || d.expandedCourse == Some(id)
    ensures ToggleCourse(ToggleCourse(d, id), id) == d
  {
  }

  /** Toggling a title twice restores the title, with every course collapsed. */
  lemma ToggleTitleTwice(d: DashboardState, id: string)
    requires d.expandedTitle.None? || d.expandedTitle == Some(id)
    ensures ToggleTitle(ToggleTitle(d, id), id) == d.(expandedCourse := None)
  {
  }
}

=== FILE: enrolments.dfy ===
/**
 * The admin enrolment review page: the rewrite of receipt URLs onto the
 * bucket's public r2.dev host, the two classifiers of receipt-loading
 * errors, the pending -> approved/declined review, and the request-id guard
 * that keeps stale list responses from landing.
 */
module Enrolments {
  import opened Common
  import opened Strings
  import Auth

  // ------------------------------------------------------------ URLs

  /** The parts of an absolute URL the page reads. */
  datatype Url = Url(scheme: string, host: string, path: string)

  predicate IsAsciiLetter(ch: char) {
    'a' <= ch <= 'z' || 'A' <= ch <= 'Z'
  }

  /**
   * A simplified absolute-URL parser: a scheme of letters, "://", a non-empty
   * host running to the first '/', '?' or '#', then a path running to the
   * first '?' or '#' ("/" when empty).
   */
  function ParseUrl(s: string): (u: Option<Url>)
    ensures u.Some? ==> u.value.host != "" && '/' !in u.value.host && |u.value.path| > 0 && u.value.path[0] == '/'
  {
    if !Contains(s, "://") then None
    else
      var scheme := Before(s, "://");
      var rest := After(s, "://");
      var host := PrefixUntil(rest, {'/', '?', '#'});
      var tail := rest[|host|..];
      var path := PrefixUntil(tail, {'?', '#'});
      if scheme == "" || !(forall i :: 0 <= i < |scheme| ==> IsAsciiLetter(scheme[i])) || host == "" then None
      else Some(Url(scheme, host, if path == "" then "/" else path))
  }

  /** Both markers of a public r2.dev development URL. */
  predicate LooksLikePubR2Dev(s: string) {
    Contains(s, "pub-") && Contains(s, ".r2.dev")
  }

  /**
   * Rewrites a receipt URL on an r2.dev host other than a "pub-" one onto the
   * host of the configured public URL, keeping the path and dropping query
   * and fragment. `configured` is "" when no public URL is configured.
   */
  function ConvertToR2DevUrl(url: string, configured: string): (r: string)
    ensures ParseUrl(url).None? ==> r == url
    ensures LooksLikePubR2Dev(url) ==> r == url
    ensures !Contains(url, ".r2.dev") ==> r == url
    ensures !LooksLikePubR2Dev(configured) ==> r == url
    ensures r != url ==> ParseUrl(url).Some? && ParseUrl(configured).Some?
                         && r == "https://" + ParseUrl(configured).value.host + ParseUrl(url).value.path
    ensures ParseUrl(url).Some? && ParseUrl(configured).Some? && Contains(url, ".r2.dev") && !LooksLikePubR2Dev(url)
            && LooksLikePubR2Dev(configured) ==>
              r == "https://" + ParseUrl(configured).value.host + ParseUrl(url).value.path
  {
    match ParseUrl(url)
    case None => url
    case Some(u) =>
      if LooksLikePubR2Dev(url) then url
      else if Contains(url, ".r2.dev") && !Contains(url, "pub-") && configured != "" && LooksLikePubR2Dev(configured) then
        match ParseUrl(configured)
        case None => url
        case Some(e) => "https://" + e.host + u.path
      else url
  }

  /** Rewriting twice is rewriting once, when the configured host is itself a "pub-" r2.dev host. */
  lemma ConvertIdempotent(url: string, configured: string)
    requires ParseUrl(configured).Some? && LooksLikePubR2Dev(ParseUrl(configured).value.host)
    ensures ConvertToR2DevUrl(ConvertToR2DevUrl(url, configured), configured) == ConvertToR2DevUrl(url, configured)
  {
    var r := ConvertToR2DevUrl(url, configured);
    if r != url {
      var host := ParseUrl(configured).value.host;
      var path := ParseUrl(url).value.path;
      assert r == "https://" + host + path;
      ContainsInside("https://", host, path, "pub-");
      ContainsInside("https://", host, path, ".r2.dev");
    }
  }

  // ----------------------------------------------------- error classifiers

  /** The kinds of receipt-loading error the page tells apart. */
  datatype ErrorKind = Cors | Status404 | Status403 | Status500 | OtherStatus | Unknown

  /** Messages that name a cross-origin refusal. */
  predicate CorsFamily(m: string) {
    Contains(m, "CORS") || Contains(m, "cross-origin") || Contains(m, "Access-Control-Allow-Origin")
    || Contains(m, "blocked by CORS policy")
  }

  /** The classifier of the blob fetch: CORS first (a failed fetch included), then 404, 403 and 500. */
  function ClassifyFetchError(m: string): (k: ErrorKind)
    ensures k != OtherStatus
    ensures k == Cors <==> CorsFamily(m) || Contains(m, "Failed to fetch")
    ensures k == Status404 <==> k != Cors && Contains(m, "404")
    ensures k == Status403 <==> k != Cors && !Contains(m, "404") && Contains(m, "403")
    ensures k == Status500 <==> k != Cors && !Contains(m, "404") && !Contains(m, "403") && Contains(m, "500")
    ensures k == Unknown <==> k != Cors && !Contains(m, "404") && !Contains(m, "403") && !Contains(m, "500")
  {
    if CorsFamily(m) || Contains(m, "Failed to fetch") then Cors
    else if Contains(m, "404") then Status404
    else if Contains(m, "403") then Status403
    else if Contains(m, "500") then Status500
    else Unknown
  }

  /** The error a non-OK response is thrown as. */
  function HttpMessage(statusText: string): string {
    "HTTP " + statusText
  }

  /** A three-digit pattern occurs in an HTTP message exactly when it is the status. */
  lemma ThreeDigitPattern(d: string, pat: string)
    requires |d| == 3 && |pat| == 3
    requires forall i :: 0 <= i < 3 ==> IsDigit(d[i]) && IsDigit(pat[i])
    ensures Contains(HttpMessage(d), pat) <==> d == pat
  {
    var s := HttpMessage(d);
    assert s[5..8] == d;
    if d == pat {
      assert OccursAt(s, pat, 5);
    }
    forall i: nat | OccursAt(s, pat, i)
      ensures d == pat
    {
      assert s[i..i + 3][0] == s[i];
      assert i == 5;
    }
  }

  /** No letter of the CORS-family patterns or of "Failed to fetch" starts an occurrence in an HTTP message. */
  lemma HttpMessageNotCors(d: string)
    requires |d| == 3 && forall i :: 0 <= i < 3 ==> IsDigit(d[i])
    ensures !CorsFamily(HttpMessage(d)) && !Contains(HttpMessage(d), "Failed to fetch")
  {
    var s := HttpMessage(d);
    assert forall i :: 0 <= i < |s| ==> s[i] == 'H' || s[i] == 'T' || s[i] == 'P' || s[i] == ' ' || IsDigit(s[i]);
    FirstCharAbsent(s, "CORS");
    FirstCharAbsent(s, "cross-origin");
    FirstCharAbsent(s, "Access-Control-Allow-Origin");
    FirstCharAbsent(s, "blocked by CORS policy");
    FirstCharAbsent(s, "Failed to fetch");
  }

  /** A non-OK response, thrown as 'HTTP <status>', lands in its own status bucket. */
  lemma HttpStatusLandsInBucket(d: string)
    requires |d| == 3 && forall i :: 0 <= i < 3 ==> IsDigit(d[i])
    ensures ClassifyFetchError(HttpMessage(d)) ==
              if d == "404" then Status404
              else if d == "403" then Status403
              else if d == "500" then Status500
              else Unknown
  {
    HttpMessageNotCors(d);
    ThreeDigitPattern(d, "404");
    ThreeDigitPattern(d, "403");
    ThreeDigitPattern(d, "500");
  }

  /** How the HEAD probe of a receipt ended. */
  datatype ProbeOutcome = Responded(ok: bool, status: nat) | Threw(message: string)

  /** What the probe records: the error type shown and whether the receipt is flagged as failing. */
  datatype ProbeResult = ProbeResult(errorType: Option<ErrorKind>, receiptError: bool)

  /** The HEAD probe's classification. */
  function ProbeReceipt(o: ProbeOutcome): (r: ProbeResult)
    ensures r.receiptError ==> r.errorType.Some? && r.errorType != Some(Unknown)
    ensures o.Responded? && o.ok ==> r == ProbeResult(None, false)
    ensures o.Responded? && !o.ok ==> r.receiptError && r.errorType.Some? && r.errorType.value != Cors
    ensures o.Responded? && !o.ok ==>
              (r.errorType == Some(Status500) <==> o.status == 500)
              && (r.errorType == Some(Status404) <==> o.status == 404)
              && (r.errorType == Some(Status403) <==> o.status == 403)
    ensures o.Threw? ==> r.errorType.Some? && (r.receiptError <==> r.errorType != Some(Unknown))
  {
    match o
    case Responded(ok, status) =>
      if ok then ProbeResult(None, false)
      else
        var kind := if status == 500 then Status500 else if status == 404 then Status404
                    else if status == 403 then Status403 else OtherStatus;
        ProbeResult(Some(kind), true)
    case Threw(m) =>
      if CorsFamily(m) then ProbeResult(Some(Cors), true)
      else if Contains(m, "Failed to fetch") then ProbeResult(Some(Cors), true)
      else ProbeResult(Some(Unknown), false)
  }

  /** On a thrown error, the probe and the blob classifier agree on what is a CORS failure. */
  lemma ProbeAgreesOnCors(m: string)
    ensures ProbeReceipt(Threw(m)).errorType == Some(Cors) <==> ClassifyFetchError(m) == Cors
    ensures ProbeReceipt(Threw(m)).receiptError <==> ClassifyFetchError(m) == Cors
  {
  }

  // ---------------------------------------------------------------- review

  /** A row of the enrolments table; review fields are "" until reviewed. */
  datatype Enrolment = Enrolment(
    id: string,
    userId: string,
    titleId: string,
    receiptUrl: string,
    status: string,
    reviewedBy: string,
    reviewedAt: string,
    adminComment: string)

  /** The enrolments table, keyed by enrolment id. */
  type EnrolmentTable = map<string, Enrolment>

  /** The two tables a review writes. */
  datatype ReviewDb = ReviewDb(enrolments: EnrolmentTable, users: Auth.Users)

  /** The first loaded enrolment with this id. */
  function FindById(loaded: seq<Enrolment>, id: string): (r: Option<Enrolment>)
    ensures r.Some? ==> r.value in loaded && r.value.id == id
    ensures r.None? ==> forall k :: 0 <= k < |loaded| ==> loaded[k].id != id
    ensures r.Some? ==> exists k :: 0 <= k < |loaded| && loaded[k] == r.value &&
                                    forall j :: 0 <= j < k ==> loaded[j].id != id
  {
    if |loaded| == 0 then None
    else if loaded[0].id == id then Some(loaded[0])
    else FindById(loaded[1..], id)
  }

  const UpdateFailedMessage := "Failed to update enrolment status"

  /**
   * A review: the enrolment gets the status, reviewer, time and comment;
   * an approval also approves the enrolment's user, found in the loaded list.
   * The user write is taken on its success path only.
   */
  function UpdateEnrolmentStatus(db: ReviewDb, loaded: seq<Enrolment>, id: string, status: string,
                                 reviewer: string, now: string, comment: string, writeSucceeds: bool): (r: Result<ReviewDb, string>)
    ensures !writeSucceeds ==> r == Err(UpdateFailedMessage)
    ensures writeSucceeds ==> r.Ok?
    ensures r.Ok? ==> r.value.enrolments.Keys == db.enrolments.Keys && r.value.users.Keys == db.users.Keys
    ensures r.Ok? && id in db.enrolments ==>
              r.value.enrolments[id] == db.enrolments[id].(status := status, reviewedBy := reviewer,
                                                           reviewedAt := now, adminComment := comment)
    ensures r.Ok? ==> forall k :: k in db.enrolments && k != id ==> r.value.enrolments[k] == db.enrolments[k]
    ensures r.Ok? && status != "approved" ==> r.value.users == db.users
    ensures r.Ok? ==> forall u :: u in db.users && r.value.users[u] != db.users[u] ==>
              status == "approved" && FindById(loaded, id).Some? && u == FindById(loaded, id).value.userId
              && r.value.users[u] == db.users[u].(approved := Some(true))
  {
    if !writeSucceeds then Err(UpdateFailedMessage)
    else
      var enrolments :=
        if id in db.enrolments then
          db.enrolments[id := db.enrolments[id].(status := status, reviewedBy := reviewer, reviewedAt := now, adminComment := comment)]
        else db.enrolments;
      var users :=
        if status == "approved" then
          match FindById(loaded, id)
          case Some(e) =>
            if e.userId in db.users then db.users[e.userId := db.users[e.userId].(approved := Some(true))] else db.users
          case None => db.users
        else db.users;
      Ok(ReviewDb(enrolments, users))
  }

  /** The two review decisions. */
  datatype Decision = Approve | Decline

  function StatusOf(d: Decision): string {
    match d
    case Approve => "approved"
    case Decline => "declined"
  }

  /** The comment prompt's answer: a cancelled prompt (`None`) gives "". */
  function PromptComment(answer: Option<string>): (c: string)
    ensures answer.Some? ==> c == answer.value
    ensures answer.None? ==> c == ""
  {
    match answer
    case Some(text) => text
    case None => ""
  }

  /** The decisions offered for an enrolment: both while pending, none after. */
  function OfferedActions(e: Enrolment): (ds: seq<Decision>)
    ensures |ds| > 0 <==> e.status == "pending"
  {
    if e.status == "pending" then [Approve, Decline] else []
  }

  /** Clicking a decision button and answering the comment prompt. */
  function Review(db: ReviewDb, loaded: seq<Enrolment>, e: Enrolment, d: Decision, reviewer: string,
                  now: string, promptAnswer: Option<string>, writeSucceeds: bool): Result<ReviewDb, string>
  {
    UpdateEnrolmentStatus(db, loaded, e.id, StatusOf(d), reviewer, now, PromptComment(promptAnswer), writeSucceeds)
  }

  /** A review is final: once written, the enrolment offers no further decision. */
  lemma ReviewIsFinal(db: ReviewDb, loaded: seq<Enrolment>, e: Enrolment, d: Decision, reviewer: string,
                      now: string, promptAnswer: Option<string>)
    requires e.id in db.enrolments
    ensures
      var r := Review(db, loaded, e, d, reviewer, now, promptAnswer, true);
      r.Ok? && r.value.enrolments[e.id].status == StatusOf(d) && OfferedActions(r.value.enrolments[e.id]) == []
  {
  }

  /** Approving a listed enrolment approves its user; declining leaves every user as it was. */
  lemma ApprovalApprovesUser(db: ReviewDb, loaded: seq<Enrolment>, e: Enrolment, reviewer: string,
                             now: string, promptAnswer: Option<string>)
    requires FindById(loaded, e.id) == Some(e) && e.userId in db.users
    ensures
      var r := Review(db, loaded, e, Approve, reviewer, now, promptAnswer, true);
      r.Ok? && Auth.IsApproved(Some(r.value.users[e.userId]))
    ensures
      var r := Review(db, loaded, e, Decline, reviewer, now, promptAnswer, true);
      r.Ok? && r.value.users == db.users
  {
  }

  // ------------------------------------------------------ request-id guard

  /** The list state of the page and the id of the newest request. */
  datatype ListState = ListState(latestId: nat, enrolments: seq<Enrolment>, error: Option<string>, loading: bool)

  /** Starting a fetch takes a fresh, larger id and shows loading. */
  function StartFetch(s: ListState): (r: ListState)
    ensures r.latestId > s.latestId
    ensures r.loading && r.error.None? && r.enrolments == s.enrolments
  {
    ListState(s.latestId + 1, s.enrolments, None, true)
  }

  const LoadFailedMessage := "Failed to load enrolments. Please try again."

  /** A response for request `requestId`; only the newest request's response is applied. */
  function Respond(s: ListState, requestId: nat, answer: Result<seq<Enrolment>, string>): (r: ListState)
    ensures requestId != s.latestId ==> r == s
    ensures requestId == s.latestId ==> !r.loading && r.latestId == s.latestId
    ensures requestId == s.latestId && answer.Ok? ==> r.enrolments == answer.value && r.error.None?
    ensures requestId == s.latestId && answer.Err? ==> r.enrolments == [] && r.error.Some? && r.error.value != ""
    ensures requestId == s.latestId && answer.Err? && answer.error != "" ==> r.error == Some(answer.error)
    ensures requestId == s.latestId && answer == Err("") ==> r.error == Some(LoadFailedMessage)
  {
    if requestId != s.latestId then s
    else match answer
      case Ok(rows) => s.(enrolments := rows, error := None, loading := false)
      case Err(m) => s.(enrolments := [], error := Some(if m != "" then m else LoadFailedMessage), loading := false)
  }

  /** What can happen to the list: a fetch starts, or a response arrives. */
  datatype FetchEvent = Start | Response(requestId: nat, answer: Result<seq<Enrolment>, string>)

  function RunFetches(s: ListState, events: seq<FetchEvent>): ListState
    decreases |events|
  {
    if |events| == 0 then s
    else
      var next := match events[0]
        case Start => StartFetch(s)
        case Response(id, answer) => Respond(s, id, answer);
      RunFetches(next, events[1..])
  }

  /** Request ids never go back, and every start moves them forward. */
  lemma {:induction false} IdsOnlyGrow(s: ListState, events: seq<FetchEvent>)
    ensures RunFetches(s, events).latestId >= s.latestId
    ensures Start in events ==> RunFetches(s, events).latestId > s.latestId
    decreases |events|
  {
    if |events| > 0 {
      var next := match events[0]
        case Start => StartFetch(s)
        case Response(id, answer) => Respond(s, id, answer);
      IdsOnlyGrow(next, events[1..]);
      if Start in events && events[0] != Start {
        assert Start in events[1..];
      }
    }
  }

  /** Responses to superseded requests, however many and in whatever order, change nothing. */
  lemma {:induction false} StaleResponsesNeverLand(s: ListState, events: seq<FetchEvent>)
    requires forall k :: 0 <= k < |events| ==> events[k].Response? && events[k].requestId < s.latestId
    ensures RunFetches(s, events) == s
    decreases |events|
  {
    if |events| > 0 {
      StaleResponsesNeverLand(s, events[1..]);
    }
  }
}

=== FILE: files.dfy ===
/**
 * The attachment managers: an admin uploads files to a lesson (a whitelist
 * of document and image types) or PDFs to a course, each stored in the
 * object store and recorded in a table, and deletes them again. Also the
 * two ways the pages label a file's MIME type.
 */
module Files {
  import opened Common
  import opened Strings
  import Storage

  // ------------------------------------------------------------ validation

  /** The MIME types a lesson attachment may have. */
  const LessonFileTypes: seq<string> := [
    "application/pdf",
    "application/msword",
    "application/vnd.openxmlformats-officedocument.wordprocessingml.document",
    "application/vnd.ms-excel",
    "application/vnd.openxmlformats-officedocument.spreadsheetml.sheet",
    "text/plain",
    "image/png",
    "image/jpeg",
    "image/jpg"
  ]

  const PdfType := "application/pdf"

  /** 20 MiB: a file of exactly this size is still accepted. */
  const MaxFileSize: nat := 20 * 1024 * 1024

  const LessonTypeRejected := "Please upload a PDF, Word document, Excel file, image, or text file"
  const PdfTypeRejected := "Please upload a PDF file"
  const TooLargeRejected := "File size must be less than 20MB"

  /** The two managers: lesson attachments and course PDFs. */
  datatype Kind = LessonFiles | CoursePdfs

  predicate TypeAllowed(kind: Kind, mimeType: string) {
    match kind
    case LessonFiles => mimeType in LessonFileTypes
    case CoursePdfs => mimeType == PdfType
  }

  /** The verdict on a chosen file: accepted, or the alert that rejects it. */
  datatype Check = Accepted | Rejected(message: string)

  /** The type is checked first, then the size. */
  function CheckFile(kind: Kind, f: Storage.FileInfo): (c: Check)
    ensures c == Accepted <==> TypeAllowed(kind, f.mimeType) && f.size <= MaxFileSize
    ensures !TypeAllowed(kind, f.mimeType) ==>
              c == Rejected(if kind == LessonFiles then LessonTypeRejected else PdfTypeRejected)
    ensures TypeAllowed(kind, f.mimeType) && f.size > MaxFileSize ==> c == Rejected(TooLargeRejected)
  {
    if !TypeAllowed(kind, f.mimeType) then
      Rejected(match kind case LessonFiles => LessonTypeRejected case CoursePdfs => PdfTypeRejected)
    else if f.size > MaxFileSize then Rejected(TooLargeRejected)
    else Accepted
  }

  /** Every file the course manager accepts, the lesson manager accepts too. */
  lemma PdfAcceptedForLessons(f: Storage.FileInfo)
    requires CheckFile(CoursePdfs, f) == Accepted
    ensures CheckFile(LessonFiles, f) == Accepted
  {
    assert LessonFileTypes[0] == PdfType;
  }

  /** The limit is inclusive: the largest accepted file is exactly 20 MiB. */
  lemma SizeLimitInclusive(kind: Kind, name: string, mimeType: string)
    requires TypeAllowed(kind, mimeType)
    ensures CheckFile(kind, Storage.FileInfo(name, mimeType, 20971520)) == Accepted
    ensures CheckFile(kind, Storage.FileInfo(name, mimeType, 20971521)) == Rejected(TooLargeRejected)
  {
  }

  // ------------------------------------------------------------ upload

  /** A row of `lesson_files` or `course_files`; a course PDF records no type. */
  datatype FileRecord = FileRecord(ownerId: string, name: string, url: string, fileType: Option<string>)

  /** The object store and the file table. */
  datatype Store = Store(bucket: Storage.Bucket, rows: map<string, FileRecord>)

  /**
   * Everything the page learns from the outside during an upload: the store
   * configuration, the clock and random id that name the object, whether
   * the put succeeds (and its error text), the new row's id, and whether
   * the insert succeeds (and its error text).
   */
  datatype Services = Services(
    cfg: Storage.Config,
    timestamp: nat,
    randomId: string,
    sendSucceeds: bool,
    sendMessage: string,
    rowId: string,
    insertSucceeds: bool,
    insertMessage: string)

  /** The folder a kind's uploads go to. */
  function Folder(kind: Kind, ownerId: string): (folder: string)
    ensures kind == LessonFiles ==> folder == "lessons/" + ownerId
    ensures kind == CoursePdfs ==> folder == "courses/" + ownerId
  {
    match kind
    case LessonFiles => "lessons/" + ownerId
    case CoursePdfs => "courses/" + ownerId
  }

  /** The record written for an uploaded file. */
  function RecordFor(kind: Kind, ownerId: string, f: Storage.FileInfo, url: string): (rec: FileRecord)
    ensures rec.ownerId == ownerId && rec.name == f.name && rec.url == url
    ensures rec.fileType.Some? <==> kind == LessonFiles
    ensures rec.fileType.Some? ==> rec.fileType.value == f.mimeType
  {
    FileRecord(ownerId, f.name, url, if kind == LessonFiles then Some(f.mimeType) else None)
  }

  function UploadFailedPrefix(kind: Kind): string {
    match kind
    case LessonFiles => "Failed to upload file: "
    case CoursePdfs => "Failed to upload PDF: "
  }

  /** An upload's effect: the store, the alert shown, and whether the list is fetched again. */
  datatype UploadResult = UploadResult(store: Store, alert: Option<string>, refreshed: bool)

  /** The object key an accepted upload writes. */
  function KeyFor(kind: Kind, ownerId: string, f: Storage.FileInfo, s: Services): string {
    Storage.UploadKey(Folder(kind, ownerId), s.timestamp, s.randomId, f.name)
  }

  /**
   * Handling the file input: nothing without a file; a rejected file is only
   * alerted; an accepted one is put in the store and then recorded. The two
   * steps are not atomic: a failed insert leaves the object in the store.
   */
  function HandleFileUpload(kind: Kind, ownerId: string, file: Option<Storage.FileInfo>, st: Store,
                            s: Services): (r: UploadResult)
    ensures file.None? ==> r == UploadResult(st, None, false)
    ensures file.Some? && CheckFile(kind, file.value).Rejected? ==>
              r == UploadResult(st, Some(CheckFile(kind, file.value).message), false)
    ensures r.store.rows != st.rows ==> r.alert.None?
    ensures r.alert.None? && file.Some? ==>
              && CheckFile(kind, file.value) == Accepted
              && Storage.CredentialsPresent(s.cfg) && s.sendSucceeds
              && s.rowId !in st.rows && r.refreshed
              && r.store.rows == st.rows[s.rowId := RecordFor(kind, ownerId, file.value,
                                           Storage.PublicUrl(s.cfg, KeyFor(kind, ownerId, file.value, s)))]
    ensures r.alert.None? <==> (file.None? ||
              (CheckFile(kind, file.value) == Accepted && Storage.CredentialsPresent(s.cfg) && s.sendSucceeds
               && s.insertSucceeds && s.rowId !in st.rows))
    ensures r.alert.Some? ==> r.store.rows == st.rows && !r.refreshed
    ensures r.store.bucket != st.bucket ==>
              file.Some? && CheckFile(kind, file.value) == Accepted && Storage.CredentialsPresent(s.cfg)
              && s.sendSucceeds
  {
    match file
    case None => UploadResult(st, None, false)
    case Some(f) =>
      match CheckFile(kind, f)
      case Rejected(m) => UploadResult(st, Some(m), false)
      case Accepted =>
        match Storage.Upload(s.cfg, f, Folder(kind, ownerId), s.timestamp, s.randomId, st.bucket, s.sendSucceeds)
        case Err(e) =>
          UploadResult(st, Some(UploadFailedPrefix(kind) + Storage.UploadErrorMessage(e, s.sendMessage)), false)
        case Ok(up) =>
          if s.insertSucceeds && s.rowId !in st.rows then
            UploadResult(Store(up.bucket, st.rows[s.rowId := RecordFor(kind, ownerId, f, up.url)]), None, true)
          else
            UploadResult(Store(up.bucket, st.rows), Some(UploadFailedPrefix(kind) + s.insertMessage), false)
  }

  /** A failed insert after a successful put leaves an object that no row points to. */
  lemma FailedInsertOrphansObject(kind: Kind, ownerId: string, f: Storage.FileInfo, st: Store, s: Services)
    requires CheckFile(kind, f) == Accepted && Storage.CredentialsPresent(s.cfg) && s.sendSucceeds
    requires !s.insertSucceeds
    ensures
      var r := HandleFileUpload(kind, ownerId, Some(f), st, s);
      && r.alert.Some? && r.store.rows == st.rows
      && KeyFor(kind, ownerId, f, s) in r.store.bucket
  {
  }

  // ------------------------------------------------------------ delete

  function DeleteFailedMessage(kind: Kind): string {
    match kind
    case LessonFiles => "Failed to delete file"
    case CoursePdfs => "Failed to delete PDF"
  }

  /** A delete's effect: the store and the alert shown. */
  datatype DeleteResult = DeleteResult(store: Store, alert: Option<string>)

  /**
   * Deleting a row after confirmation: the object its URL names is deleted
   * first, and a failure there is ignored; a row without a URL skips the
   * store. Then the row is deleted, and only that failing raises an alert.
   */
  function HandleDelete(kind: Kind, st: Store, id: string, confirmed: bool, cfg: Storage.Config,
                        storageSucceeds: bool, dbSucceeds: bool): (r: DeleteResult)
    ensures !confirmed ==> r == DeleteResult(st, None)
    ensures r.alert.Some? <==> confirmed && !dbSucceeds
    ensures r.alert.Some? ==> r.alert.value == DeleteFailedMessage(kind) && r.store.rows == st.rows
    ensures confirmed && dbSucceeds ==> r.store.rows == st.rows - {id}
    ensures id !in st.rows || st.rows[id].url == "" ==> r.store.bucket == st.bucket
    ensures confirmed && id in st.rows && st.rows[id].url != "" && Storage.CredentialsPresent(cfg) && storageSucceeds ==>
              r.store.bucket == st.bucket - {Storage.ExtractKey(st.rows[id].url, cfg.bucketName)}
    ensures r.store.bucket.Keys <= st.bucket.Keys
  {
    if !confirmed then DeleteResult(st, None)
    else
      var bucket :=
        if id in st.rows && st.rows[id].url != "" then
          match Storage.Delete(cfg, st.rows[id].url, st.bucket, storageSucceeds)
          case Ok(b) => b
          case Err(_) => st.bucket
        else st.bucket;
      if dbSucceeds then DeleteResult(Store(bucket, st.rows - {id}), None)
      else DeleteResult(Store(bucket, st.rows), Some(DeleteFailedMessage(kind)))
  }

  /** The row goes whatever the object store answers. */
  lemma DeleteToleratesStorageFailure(kind: Kind, st: Store, id: string, cfg: Storage.Config)
    ensures HandleDelete(kind, st, id, true, cfg, false, true).store.rows == st.rows - {id}
    ensures HandleDelete(kind, st, id, true, cfg, false, true).alert.None?
    ensures HandleDelete(kind, st, id, true, cfg, false, true).store.bucket == st.bucket
  {
  }

  /**
   * Uploading a file and then deleting its row removes both the row and the
   * object, leaving the store as it was before, when the object key is
   * recoverable from the public URL and was new.
   */
  lemma UploadThenDeleteRestores(kind: Kind, ownerId: string, f: Storage.FileInfo, st: Store, s: Services)
    requires CheckFile(kind, f) == Accepted && Storage.CredentialsPresent(s.cfg) && s.sendSucceeds
    requires s.insertSucceeds && s.rowId !in st.rows
    requires Storage.Recoverable(s.cfg, KeyFor(kind, ownerId, f, s))
    requires KeyFor(kind, ownerId, f, s) !in st.bucket
    ensures
      var up := HandleFileUpload(kind, ownerId, Some(f), st, s);
      HandleDelete(kind, up.store, s.rowId, true, s.cfg, true, true) == DeleteResult(st, None)
  {
    var key := KeyFor(kind, ownerId, f, s);
    Storage.UploadThenDelete(s.cfg, f, Folder(kind, ownerId), s.timestamp, s.randomId, st.bucket);
    var put := Storage.Upload(s.cfg, f, Folder(kind, ownerId), s.timestamp, s.randomId, st.bucket, true).value;
    var rec := RecordFor(kind, ownerId, f, put.url);
    var up := HandleFileUpload(kind, ownerId, Some(f), st, s);
    assert up.store == Store(put.bucket, st.rows[s.rowId := rec]);
    PublicUrlNotEmpty(s.cfg, key);
    assert Storage.Delete(s.cfg, rec.url, put.bucket, true) == Ok(st.bucket);
    RowsAfterRemove(st.rows, s.rowId, rec);
  }

  lemma RowsAfterRemove(rows: map<string, FileRecord>, id: string, rec: FileRecord)
    requires id !in rows
    ensures rows[id := rec] - {id} == rows
  {
    assert (rows[id := rec] - {id}).Keys == rows.Keys;
  }

  lemma PublicUrlNotEmpty(cfg: Storage.Config, key: string)
    ensures Storage.PublicUrl(cfg, key) != ""
  {
    if cfg.publicUrl == "" {
      assert Storage.PublicUrl(cfg, key)[0] == 'h';
    } else {
      assert |Storage.PublicUrl(cfg, key)| > |key|;
    }
  }

  // ------------------------------------------------------------ type labels

  /**
   * The label next to a file in the manager: nothing for a missing type,
   * else the upper-cased text between the first and second '/', or "FILE"
   * when that is missing or empty.
   */
  function TypeLabel(fileType: string): (r: Option<string>)
    ensures r.None? <==> fileType == ""
    ensures r.Some? ==> r.value != "" && '/' !in r.value
    ensures r.Some? && '/' !in fileType ==> r.value == "FILE"
    ensures |Split(fileType, '/')| > 1 && Split(fileType, '/')[1] != "" ==>
              r == Some(Upper(Split(fileType, '/')[1]))
    ensures fileType != "" && (|Split(fileType, '/')| == 1 || Split(fileType, '/')[1] == "") ==>
              r == Some("FILE")
  {
    if fileType == "" then None
    else
      var parts := Split(fileType, '/');
      if |parts| > 1 && parts[1] != "" then
        assert forall i :: 0 <= i < |parts[1]| ==> UpperChar(parts[1][i]) != '/';
        Some(Upper(parts[1]))
      else Some("FILE")
  }

  /**
   * For a type `kind/subtype`, possibly followed by further '/'-pieces, the
   * label is the upper-cased subtype.
   */
  lemma TypeLabelPicksSubtype(kind: string, subtype: string, tail: string)
    requires '/' !in kind && '/' !in subtype && subtype != ""
    requires tail == "" || tail[0] == '/'
    ensures TypeLabel(kind + "/" + subtype + tail) == Some(Upper(subtype))
  {
    SplitSecondPiece(kind, subtype, tail, '/');
    assert kind + "/" + subtype + tail == kind + ['/'] + subtype + tail;
  }

  /** A string of at most 20 characters; a longer one keeps its first 17 and gains "...". */
  function Shorten(s: string): (r: string)
    ensures |r| <= 20
    ensures |s| <= 20 ==> r == s
    ensures |s| > 20 ==> |r| == 20 && r == s[..17] + "..."
  {
    if |s| > 20 then s[..17] + "..." else s
  }

  /**
   * The label in the student's file list: "FILE" for a missing type; with a
   * '/', the upper-cased second segment, shortened, or with its first '.'
   * dropped when short enough; without one, the whole type upper-cased and
   * shortened.
   */
  function FormatFileType(fileType: Option<string>): (r: string)
    ensures |r| <= 20
    ensures fileType.None? || fileType.value == "" ==> r == "FILE"
    ensures fileType.Some? && fileType.value != "" && '/' !in fileType.value ==>
              r == Shorten(Upper(fileType.value))
    ensures fileType.Some? && '/' in fileType.value ==>
              var main := Upper(Split(fileType.value, '/')[1]);
              r == if |main| > 20 then Shorten(main) else RemoveFirst(main, '.')
  {
    if fileType.None? || fileType.value == "" then "FILE"
    else
      var parts := Split(fileType.value, '/');
      if |parts| > 1 then
        var main := Upper(parts[1]);
        if |main| > 20 then Shorten(main) else RemoveFirst(main, '.')
      else
        SplitSingle(fileType.value, '/');
        Shorten(Upper(fileType.value))
  }

  /** Splitting at a character that occurs gives at least two parts. */
  lemma SplitSingle(s: string, c: char)
    requires |Split(s, c)| == 1
    ensures c !in s
  {
    assert Join(Split(s, c), c) == Split(s, c)[0];
  }

  /** The split of a type with one '/'. */
  lemma SplitOneSlash(a: string, b: string)
    requires '/' !in a && '/' !in b
    ensures Split(a + "/" + b, '/') == [a, b]
  {
    var parts := [a, b];
    assert Join(parts, '/') == a + "/" + b by {
      assert parts[1..] == [b];
    }
    SplitJoin(parts, '/');
  }

  lemma PdfSplit()
    ensures Split(PdfType, '/') == ["application", "pdf"]
  {
    var a, b := "application", "pdf";
    assert PdfType == a + "/" + b;
    SplitOneSlash(a, b);
  }

  lemma UpperPdf()
    ensures Upper("pdf") == "PDF" && '.' !in Upper("pdf")
  {
    var up := Upper("pdf");
    assert up[0] == 'P' && up[1] == 'D' && up[2] == 'F';
  }

  lemma PdfHasSlash()
    ensures '/' in PdfType
  {
    assert PdfType[11] == '/';
  }

  /** The student list labels a PDF "PDF". */
  lemma PdfFormatted()
    ensures FormatFileType(Some(PdfType)) == "PDF"
  {
    PdfSplit();
    PdfHasSlash();
    UpperPdf();
  }

  /** The manager labels a PDF "PDF" too. */
  lemma PdfTypeLabel()
    ensures TypeLabel(PdfType) == Some("PDF")
  {
    PdfSplit();
    UpperPdf();
  }

  /**
   * The two labels agree on a `type/subtype` whose subtype is non-empty,
   * has no '.', and is at most 20 characters long.
   */
  lemma LabelsAgree(kind: string, subtype: string)
    requires '/' !in kind && '/' !in subtype
    requires subtype != "" && '.' !in Upper(subtype) && |subtype| <= 20
    ensures FormatFileType(Some(kind + "/" + subtype)) == TypeLabel(kind + "/" + subtype).value
  {
    SplitOneSlash(kind, subtype);
    assert '/' in kind + "/" + subtype by {
      assert (kind + "/" + subtype)[|kind|] == '/';
    }
  }
}

=== FILE: i18n.dfy ===
/**
 * Translation lookup: a dotted key walked through a nested table of the
 * chosen language, falling back to the key itself on any miss.
 */
module I18n {
  import opened Common
  import opened Strings

  /** A translation file: nested tables whose leaves are strings. */
  datatype Node = Text(text: string) | Table(entries: map<string, Node>)

  /** The two bundled translation files. */
  datatype Catalog = Catalog(en: Node, am: Node)

  /** JavaScript truthiness of a looked-up value: a table is truthy, a string unless it is empty. */
  predicate Truthy(n: Node) {
    n.Table? || n.text != ""
  }

  /** The stored language preference, or 'en' when none (or an empty one) is stored. */
  function GetLanguage(stored: Option<string>): (lang: string)
    ensures lang != ""
    ensures stored.Some? && stored.value != "" ==> lang == stored.value
    ensures stored.None? || stored.value == "" ==> lang == "en"
  {
    match stored
    case Some(l) => if l != "" then l else "en"
    case None => "en"
  }

  /**
   * A language saved by `setLanguage` is the one later calls use without an
   * explicit language; saving "" reads back as English.
   */
  lemma SavedLanguageReadsBack(saved: string)
    ensures CurrentLanguage("", Some(saved)) == (if saved == "" then "en" else saved)
    ensures saved != "" ==> GetLanguage(Some(saved)) == saved
  {
  }

  /** The language a call uses: the explicit one, else the stored preference ("" stands for none given). */
  function CurrentLanguage(lang: string, stored: Option<string>): string {
    if lang != "" then lang else GetLanguage(stored)
  }

  /** The table a language looks keys up in; an unknown code uses English. */
  function TableFor(c: Catalog, lang: string): (t: Node)
    ensures lang == "am" ==> t == c.am
    ensures lang != "am" ==> t == c.en
  {
    if lang == "am" then c.am else c.en
  }

  /** One `value?.[k]` step; a string leaf is terminal. */
  function Step(n: Node, k: string): Option<Node> {
    if n.Table? && k in n.entries then Some(n.entries[k]) else None
  }

  /** The lookup loop: stops with `None` at the first segment that is missing or falsy. */
  function Walk(n: Node, keys: seq<string>): Option<Node>
    decreases |keys|
  {
    if |keys| == 0 then Some(n)
    else match Step(n, keys[0])
      case None => None
      case Some(v) => if Truthy(v) then Walk(v, keys[1..]) else None
  }

  /** Plain path lookup, with no regard to truthiness. */
  function Resolve(n: Node, keys: seq<string>): Option<Node>
    decreases |keys|
  {
    if |keys| == 0 then Some(n)
    else match Step(n, keys[0])
      case None => None
      case Some(v) => Resolve(v, keys[1..])
  }

  /**
   * Inner nodes on a path are tables, and tables are truthy, so a non-empty
   * walk succeeds exactly when the path resolves to a truthy value.
   */
  lemma {:induction false} WalkIsTruthyResolve(n: Node, keys: seq<string>)
    requires |keys| >= 1
    ensures Walk(n, keys) == (match Resolve(n, keys)
                              case Some(v) => if Truthy(v) then Some(v) else None
                              case None => None)
  {
    match Step(n, keys[0])
    case None =>
    case Some(v) =>
      if |keys| > 1 {
        if v.Table? {
          WalkIsTruthyResolve(v, keys[1..]);
        }
      }
  }

  /** Walking one more segment. */
  lemma {:induction false} WalkExtend(n: Node, keys: seq<string>, k: string)
    ensures Walk(n, keys + [k]) == (match Walk(n, keys)
                                   case None => None
                                   case Some(v) =>
                                     match Step(v, k)
                                     case None => None
                                     case Some(w) => if Truthy(w) then Some(w) else None)
  {
    if |keys| > 0 {
      assert (keys + [k])[0] == keys[0];
      assert (keys + [k])[1..] == keys[1..] + [k];
      match Step(n, keys[0])
      case None =>
      case Some(v) =>
        if Truthy(v) {
          WalkExtend(v, keys[1..], k);
        }
    } else {
      assert keys + [k] == [k];
    }
  }

  /** Once the walk has failed, more segments cannot revive it. */
  lemma {:induction false} WalkFailureSticks(n: Node, keys: seq<string>, rest: seq<string>)
    requires Walk(n, keys).None?
    ensures Walk(n, keys + rest).None?
  {
    assert |keys| > 0;
    assert (keys + rest)[0] == keys[0];
    assert (keys + rest)[1..] == keys[1..] + rest;
    match Step(n, keys[0])
    case None =>
    case Some(v) =>
      if Truthy(v) {
        WalkFailureSticks(v, keys[1..], rest);
      }
  }

  /** The translation of `key`: the value its path leads to, or the key itself. */
  function Translate(c: Catalog, key: string, lang: string, stored: Option<string>): Node {
    match Walk(TableFor(c, CurrentLanguage(lang, stored)), Split(key, '.'))
    case Some(v) => v
    case None => Text(key)
  }

  /**
   * The lookup as the application runs it: walk the chosen language's table;
   * at the first miss re-walk the English table, which ends in the key on
   * every path.
   */
  method T(c: Catalog, key: string, lang: string, stored: Option<string>) returns (r: Node)
    ensures r == Translate(c, key, lang, stored)
  {
    var currentLang := CurrentLanguage(lang, stored);
    var keys := Split(key, '.');
    var start := TableFor(c, currentLang);
    var value := start;
    var i := 0;
    while i < |keys|
      invariant 0 <= i <= |keys|
      invariant Walk(start, keys[..i]) == Some(value)
      invariant i > 0 ==> Truthy(value)
    {
      WalkExtend(start, keys[..i], keys[i]);
      assert keys[..i + 1] == keys[..i] + [keys[i]];
      var next := Step(value, keys[i]);
      if next.None? || !Truthy(next.value) {
        WalkFailureSticks(start, keys[..i + 1], keys[i + 1..]);
        TakeDrop(keys, i + 1);
        // Fall back to English: every exit of this walk returns the key.
        var english := c.en;
        var j := 0;
        while j < |keys|
          invariant 0 <= j <= |keys|
        {
          var step := Step(english, keys[j]);
          if step.None? || !Truthy(step.value) {
            return Text(key);
          }
          english := step.value;
          j := j + 1;
        }
        return Text(key);
      }
      value := next.value;
      i := i + 1;
    }
    assert keys[..|keys|] == keys;
    r := if Truthy(value) then value else Text(key);
  }

  /**
   * The result is the value at the key's path when that value is truthy, and
   * the key itself otherwise.
   */
  lemma TranslateResolves(c: Catalog, key: string, lang: string, stored: Option<string>)
    ensures
      var found := Resolve(TableFor(c, CurrentLanguage(lang, stored)), Split(key, '.'));
      Translate(c, key, lang, stored) == (if found.Some? && Truthy(found.value) then found.value else Text(key))
  {
    WalkIsTruthyResolve(TableFor(c, CurrentLanguage(lang, stored)), Split(key, '.'));
  }

  /** The result is always either a truthy table value or the key. */
  lemma TranslateIsValueOrKey(c: Catalog, key: string, lang: string, stored: Option<string>)
    ensures var r := Translate(c, key, lang, stored); r == Text(key) || Truthy(r)
  {
    TranslateResolves(c, key, lang, stored);
  }

  /** An empty-string translation counts as missing. */
  lemma EmptyTranslationYieldsKey(c: Catalog, key: string, lang: string, stored: Option<string>)
    requires Resolve(TableFor(c, CurrentLanguage(lang, stored)), Split(key, '.')) == Some(Text(""))
    ensures Translate(c, key, lang, stored) == Text(key)
  {
    TranslateResolves(c, key, lang, stored);
  }

  /** A miss in Amharic yields the key, never the English text, whatever English holds. */
  lemma AmharicMissYieldsKey(c: Catalog, key: string, stored: Option<string>)
    requires Walk(c.am, Split(key, '.')).None?
    ensures Translate(c, key, "am", stored) == Text(key)
  {
  }

  /** A language code other than 'en' and 'am' looks keys up exactly as English does. */
  lemma UnknownLanguageUsesEnglish(c: Catalog, key: string, lang: string, stored: Option<string>)
    requires lang != "" && lang != "en" && lang != "am"
    ensures Translate(c, key, lang, stored) == Translate(c, key, "en", stored)
  {
  }

  /** With no explicit language and nothing stored, English is used. */
  lemma DefaultIsEnglish(c: Catalog, key: string)
    ensures Translate(c, key, "", None) == Translate(c, key, "en", None)
  {
  }
}

=== FILE: lessons.dfy ===
/**
 * Lessons: the admin form that saves a lesson (with its video id
 * extracted first), and a student's completion progress on the lesson page.
 */
module Lessons {
  import opened Common
  import Auth
  import VideoId

  // ------------------------------------------------------------ the admin form

  /** A row of the lessons table. */
  datatype Lesson = Lesson(courseId: string, title: string, youtubeId: string, ordering: int)

  /** The lessons table, keyed by lesson id. */
  type LessonTable = map<string, Lesson>

  /** The lesson form's fields; `video` holds whatever the admin typed: an id or a URL. */
  datatype LessonForm = LessonForm(title: string, video: string, ordering: int)

  const EmptyLessonForm := LessonForm("", "", 0)

  /** The form, the id of the lesson being edited (none when adding), and whether the form is open. */
  datatype Editor = Editor(form: LessonForm, editing: Option<string>, showForm: bool)

  /** A save's effect: the editor, the table, and the alert shown on failure. */
  datatype SaveResult = SaveResult(editor: Editor, lessons: LessonTable, alert: Option<string>)

  const SaveFailedMessage := "Failed to save lesson"

  /** The row written for the form: the typed title and ordering, and the extracted video id. */
  function RowFor(courseId: string, f: LessonForm): (l: Lesson)
    ensures l.youtubeId == VideoId.ExtractVideoId(f.video)
    ensures l.courseId == courseId && l.title == f.title && l.ordering == f.ordering
  {
    Lesson(courseId, f.title, VideoId.ExtractVideoId(f.video), f.ordering)
  }

  /**
   * Saving the form. An edit updates the edited row and keeps its course; an
   * addition inserts a row under `newId` for the course of the current route
   * (an id already taken makes the insert fail). Success closes and resets
   * the form; failure alerts and leaves everything as it was.
   */
  function SaveLesson(ed: Editor, routeCourseId: string, lessons: LessonTable, newId: string,
                      writeSucceeds: bool): (r: SaveResult)
    ensures r.alert.Some? ==> r.alert.value == SaveFailedMessage && r.editor == ed && r.lessons == lessons
    ensures r.alert.None? <==> writeSucceeds && (ed.editing.Some? || newId !in lessons)
    ensures r.alert.None? ==> r.editor == Editor(EmptyLessonForm, None, false)
    ensures ed.editing.None? && r.alert.None? ==>
              r.lessons == lessons[newId := RowFor(routeCourseId, ed.form)] && newId !in lessons
    ensures ed.editing.Some? && r.alert.None? && ed.editing.value in lessons ==>
              r.lessons == lessons[ed.editing.value := RowFor(lessons[ed.editing.value].courseId, ed.form)]
    ensures ed.editing.Some? && ed.editing.value !in lessons ==> r.lessons == lessons
    ensures forall k :: k in r.lessons && k in lessons && r.lessons[k] != lessons[k] ==>
              ed.editing == Some(k) && r.lessons[k].youtubeId == VideoId.ExtractVideoId(ed.form.video)
  {
    var ok := writeSucceeds && (ed.editing.Some? || newId !in lessons);
    if !ok then SaveResult(ed, lessons, Some(SaveFailedMessage))
    else
      var written :=
        match ed.editing
        case Some(id) => if id in lessons then lessons[id := RowFor(lessons[id].courseId, ed.form)] else lessons
        case None => lessons[newId := RowFor(routeCourseId, ed.form)];
      SaveResult(Editor(EmptyLessonForm, None, false), written, None)
  }

  /** Opening a lesson for editing loads its stored values into the form. */
  function EditLesson(id: string, l: Lesson): (ed: Editor)
    ensures ed.showForm && ed.editing == Some(id)
    ensures ed.form.video == l.youtubeId && ed.form.title == l.title && ed.form.ordering == l.ordering
  {
    Editor(LessonForm(l.title, l.youtubeId, l.ordering), Some(id), true)
  }

  /**
   * Saving a lesson, opening it again and saving without changes leaves its
   * row as it was: the stored id survives a second extraction.
   */
  lemma ResaveKeepsLesson(ed: Editor, routeCourseId: string, lessons: LessonTable, newId: string)
    requires ed.editing.None?
    requires SaveLesson(ed, routeCourseId, lessons, newId, true).alert.None?
    ensures
      var saved := SaveLesson(ed, routeCourseId, lessons, newId, true).lessons;
      SaveLesson(EditLesson(newId, saved[newId]), routeCourseId, saved, newId, true).lessons == saved
  {
    var saved := SaveLesson(ed, routeCourseId, lessons, newId, true).lessons;
    VideoId.ExtractIdempotent(ed.form.video);
    assert RowFor(saved[newId].courseId, EditLesson(newId, saved[newId]).form) == saved[newId];
  }

  /** Pasting a lesson's own player URL into the form stores the same id. */
  lemma PastedEmbedUrlStoresId(id: string, l: Lesson, lessons: LessonTable, newId: string)
    requires id in lessons && lessons[id] == l
    requires |l.youtubeId| == 11 && forall k :: 0 <= k < 11 ==> VideoId.IsIdChar(l.youtubeId[k])
    ensures
      var ed := EditLesson(id, l).(form := EditLesson(id, l).form.(video := VideoId.EmbedUrl(l.youtubeId)));
      SaveLesson(ed, "", lessons, newId, true).lessons[id].youtubeId == l.youtubeId
  {
    VideoId.EmbedUrlRoundTrip(l.youtubeId);
  }

  // ----------------------------------------------------------------- progress

  /** A progress row. */
  datatype ProgressRow = ProgressRow(completed: bool, completedAt: string)

  /** The progress table, keyed by (lesson id, user id): the pair the upsert writes. */
  type ProgressTable = map<(string, string), ProgressRow>

  /** The lesson page's own state: the completed flag and whether a mark is in flight. */
  datatype LessonView = LessonView(completed: bool, markingComplete: bool)

  /** Reading the progress row: only a row that is found updates the flag; no user, no read. */
  function CheckProgress(v: LessonView, user: Option<Auth.SessionUser>, lessonId: string, table: ProgressTable,
                         readSucceeds: bool): (r: LessonView)
    ensures user.None? || !readSucceeds ==> r == v
    ensures user.Some? && readSucceeds && (lessonId, user.value.id) in table ==>
              r == v.(completed := table[(lessonId, user.value.id)].completed)
    ensures user.Some? && (lessonId, user.value.id) !in table ==> r == v
    ensures r.markingComplete == v.markingComplete
    ensures r.completed != v.completed ==>
              user.Some? && (lessonId, user.value.id) in table && r.completed == table[(lessonId, user.value.id)].completed
  {
    match user
    case None => v
    case Some(u) =>
      if readSucceeds && (lessonId, u.id) in table then v.(completed := table[(lessonId, u.id)].completed) else v
  }

  /** A mark's effect: the view, the table and the alert shown on failure. */
  datatype MarkResult = MarkResult(view: LessonView, table: ProgressTable, alert: Option<string>)

  const MarkFailedMessage := "Failed to mark lesson as completed"

  /**
   * Marking the lesson complete upserts the (lesson, user) row with the
   * current time; the flag turns on only once the write succeeded.
   */
  function MarkAsCompleted(v: LessonView, user: Option<Auth.SessionUser>, lessonId: string, table: ProgressTable,
                           now: string, writeSucceeds: bool): (r: MarkResult)
    ensures user.None? ==> r == MarkResult(v, table, None)
    ensures user.Some? ==> !r.view.markingComplete
    ensures r.view.completed <==> v.completed || (user.Some? && writeSucceeds)
    ensures r.alert.Some? <==> user.Some? && !writeSucceeds
    ensures r.alert.Some? ==> r.alert.value == MarkFailedMessage && r.table == table
    ensures user.Some? && writeSucceeds ==>
              r.table == table[(lessonId, user.value.id) := ProgressRow(true, now)]
  {
    match user
    case None => MarkResult(v, table, None)
    case Some(u) =>
      if writeSucceeds then
        MarkResult(LessonView(true, false), table[(lessonId, u.id) := ProgressRow(true, now)], None)
      else
        MarkResult(v.(markingComplete := false), table, Some(MarkFailedMessage))
  }

  /** The mark button is offered only while the lesson is not completed. */
  predicate MarkButtonOffered(v: LessonView) {
    !v.completed
  }

  /** Marking twice is marking once: the same rows, and the row completed. */
  lemma MarkIdempotent(v: LessonView, u: Auth.SessionUser, lessonId: string, table: ProgressTable, now: string)
    ensures
      var once := MarkAsCompleted(v, Some(u), lessonId, table, now, true);
      var twice := MarkAsCompleted(once.view, Some(u), lessonId, once.table, now, true);
      twice == once && once.table[(lessonId, u.id)].completed && !MarkButtonOffered(once.view)
  {
  }

  /** After a successful mark, reading the progress back reports the lesson completed. */
  lemma MarkThenCheck(v: LessonView, u: Auth.SessionUser, lessonId: string, table: ProgressTable, now: string,
                      page: LessonView)
    ensures
      var marked := MarkAsCompleted(v, Some(u), lessonId, table, now, true);
      CheckProgress(page, Some(u), lessonId, marked.table, true).completed
  {
  }

  /** Another student's progress is untouched by a mark. */
  lemma MarkTouchesOnlyOwnRow(v: LessonView, u: Auth.SessionUser, lessonId: string, table: ProgressTable,
                              now: string, ok: bool, key: (string, string))
    requires key in table && key != (lessonId, u.id)
    ensures MarkAsCompleted(v, Some(u), lessonId, table, now, ok).table[key] == table[key]
  {
  }
}

=== FILE: login.dfy ===
/**
 * The login page: where a signed-in user is sent, which screen is shown
 * (declined, pending, loading or the form), and the form's own state.
 */
module Login {
  import opened Common
  import opened Auth
  import Routes

  /**
   * The page's state. `declinedComment` holds the admin comment of a declined
   * enrolment once the page has found one.
   */
  datatype LoginForm = LoginForm(
    emailOrPhone: string,
    password: string,
    submitting: bool,
    error: string,
    declinedComment: Option<string>)

  /** The page as first shown: empty fields, no error, nothing found yet. */
  const InitialForm := LoginForm("", "", false, "", None)

  /** The screen the page renders. */
  datatype Screen = DeclinedScreen(comment: string) | PendingScreen | LoadingScreen | FormScreen

  /** User and profile are loaded and no sign-in is in progress: the condition both effects wait for. */
  predicate Settled(a: AuthState, submitting: bool) {
    a.user.Some? && a.profile.Some? && !a.loading && !submitting
  }

  /** Where the page sends a signed-in user: admins to the admin area, approved students to the dashboard. */
  function RedirectTarget(a: AuthState, submitting: bool): (r: Option<string>)
    ensures r == Some("/admin") <==> Settled(a, submitting) && IsAdmin(a.profile)
    ensures r == Some("/dashboard") <==> Settled(a, submitting) && !IsAdmin(a.profile) && IsApproved(a.profile)
    ensures r.None? || r == Some("/admin") || r == Some("/dashboard")
  {
    if a.user.Some? && a.profile.Some? && !a.loading && !submitting then
      var p := a.profile.value;
      if p.role == "admin" || p.approved == Some(true) then
        Some(if p.role == "admin" then "/admin" else "/dashboard")
      else None
    else None
  }

  /**
   * The declined-enrolment lookup. `latest` is the admin comment of the most
   * recently reviewed declined enrolment ("" for none), or `None` when the
   * query failed or found nothing. It runs only for settled non-admins and
   * only remembers a non-empty comment.
   */
  function CheckDeclined(a: AuthState, f: LoginForm, latest: Option<string>): (r: Option<string>)
    ensures IsAdmin(a.profile) ==> r == f.declinedComment
    ensures !Settled(a, f.submitting) ==> r == f.declinedComment
    ensures r != f.declinedComment ==> latest.Some? && latest.value != "" && r == latest
  {
    if Settled(a, f.submitting) && a.profile.value.role != "admin" && latest.Some? && latest.value != "" then
      latest
    else
      f.declinedComment
  }

  /** The condition for the declined screen. */
  predicate ShowsDeclined(a: AuthState, f: LoginForm) {
    a.user.Some? && a.profile.Some? && !a.loading && f.declinedComment.Some? && f.declinedComment.value != ""
  }

  /** The screen for the current auth state and page state, checked in this order. */
  function ScreenFor(a: AuthState, f: LoginForm): (s: Screen)
    ensures s.DeclinedScreen? <==> ShowsDeclined(a, f)
    ensures s.DeclinedScreen? ==> s.comment != ""
    ensures s == PendingScreen <==>
              !ShowsDeclined(a, f) && a.user.Some? && a.profile.Some? && !a.loading
              && !IsApproved(a.profile) && !IsAdmin(a.profile)
    ensures s == LoadingScreen <==>
              !ShowsDeclined(a, f)
              && !(a.user.Some? && a.profile.Some? && !a.loading && !IsApproved(a.profile) && !IsAdmin(a.profile))
              && f.error == "" && (f.submitting || (a.loading && a.user.Some? && a.profile.None?))
  {
    if ShowsDeclined(a, f) then DeclinedScreen(f.declinedComment.value)
    else if a.user.Some? && a.profile.Some? && !a.loading
            && a.profile.value.approved != Some(true) && a.profile.value.role != "admin" then PendingScreen
    else if (f.submitting || (a.loading && a.user.Some? && a.profile.None?)) && f.error == "" then LoadingScreen
    else FormScreen
  }

  /** The pending screen never shows while the page is redirecting. */
  lemma PendingNeverRedirects(a: AuthState, f: LoginForm)
    requires ScreenFor(a, f) == PendingScreen
    ensures RedirectTarget(a, f.submitting).None?
  {
  }

  /** A declined comment wins over the pending screen. */
  lemma DeclinedBeforePending(a: AuthState, f: LoginForm)
    requires a.user.Some? && a.profile.Some? && !a.loading && !IsApproved(a.profile) && !IsAdmin(a.profile)
    requires f.declinedComment.Some? && f.declinedComment.value != ""
    ensures ScreenFor(a, f) == DeclinedScreen(f.declinedComment.value)
  {
  }

  /** Only a non-admin can ever come to see the declined screen from a fresh page. */
  lemma AdminsNeverSeeDeclined(a: AuthState, latest: Option<string>)
    requires IsAdmin(a.profile)
    ensures !ScreenFor(a, InitialForm.(declinedComment := CheckDeclined(a, InitialForm, latest))).DeclinedScreen?
  {
  }

  // --------------------------------------------------------- the form

  /** The two inputs of the form. */
  datatype Field = EmailOrPhone | Password

  /** Typing into a field stores the value and clears the error. */
  function Edit(f: LoginForm, field: Field, value: string): (r: LoginForm)
    ensures r.error == ""
    ensures field == EmailOrPhone ==> r.emailOrPhone == value && r.password == f.password
    ensures field == Password ==> r.password == value && r.emailOrPhone == f.emailOrPhone
    ensures r.submitting == f.submitting && r.declinedComment == f.declinedComment
  {
    match field
    case EmailOrPhone => f.(emailOrPhone := value, error := "")
    case Password => f.(password := value, error := "")
  }

  /** The page while a sign-in is in flight: submitting, with the previous error cleared. */
  function SubmitStarted(f: LoginForm): (r: LoginForm)
    ensures r.submitting && r.error == ""
    ensures r.emailOrPhone == f.emailOrPhone && r.password == f.password && r.declinedComment == f.declinedComment
  {
    f.(error := "", submitting := true)
  }

  const LoginFailedMessage := "Login failed"

  /**
   * A submission, given what sign-in answered: a failure shows its message,
   * or 'Login failed' when it has none; either way submitting ends.
   */
  function HandleSubmit(f: LoginForm, outcome: Result<SessionUser, string>): (r: LoginForm)
    ensures !r.submitting
    ensures outcome.Ok? <==> r.error == ""
    ensures outcome.Err? && outcome.error != "" ==> r.error == outcome.error
    ensures outcome == Err("") ==> r.error == LoginFailedMessage
    ensures r.emailOrPhone == f.emailOrPhone && r.password == f.password && r.declinedComment == f.declinedComment
  {
    var inFlight := SubmitStarted(f);
    match outcome
    case Err(message) => inFlight.(error := if message != "" then message else LoginFailedMessage, submitting := false)
    case Ok(_) => inFlight.(submitting := false)
  }

  /** A phone number without a matching account ends on the form with the phone message, not on the loading screen. */
  lemma UnknownPhoneShowsMessage(a: AuthState, f: LoginForm, lookupEmail: string -> string, passwordSignIn: string -> PasswordAnswer)
    requires IsPhoneNumber(f.emailOrPhone) && lookupEmail(Strings.Trim(f.emailOrPhone)) == ""
    ensures HandleSubmit(f, SignIn(f.emailOrPhone, lookupEmail, passwordSignIn).outcome).error == InvalidPhoneMessage
    ensures ScreenFor(a, HandleSubmit(f, SignIn(f.emailOrPhone, lookupEmail, passwordSignIn).outcome)) != LoadingScreen
  {
  }

  /** A submission in flight shows the loading screen unless the declined or pending screen applies. */
  lemma SubmittingShowsLoading(a: AuthState, f: LoginForm)
    requires !ShowsDeclined(a, f)
    requires !(a.user.Some? && a.profile.Some? && !a.loading && !IsApproved(a.profile) && !IsAdmin(a.profile))
    ensures ScreenFor(a, SubmitStarted(f)) == LoadingScreen
  {
  }

  // ------------------------------------------- together with the route guards

  /** A student the student guard bounces to the login page is not sent straight back to the dashboard. */
  lemma NoDashboardLoginLoop(a: AuthState, f: LoginForm)
    requires Routes.ProtectedView(a) == Routes.Redirect("/login")
    ensures RedirectTarget(a, f.submitting) != Some("/dashboard")
  {
  }

  /** Bounced by the student guard, a loaded non-admin without a declined comment sees the pending screen. */
  lemma BouncedStudentSeesPending(a: AuthState, f: LoginForm)
    requires Routes.ProtectedView(a) == Routes.Redirect("/login")
    requires a.profile.Some? && !IsAdmin(a.profile) && a.user.Some?
    requires !ShowsDeclined(a, f)
    ensures ScreenFor(a, f) == PendingScreen
  {
  }

  /** Users the admin guard sends to the login page are not sent back to the admin area. */
  lemma NoAdminLoginLoop(a: AuthState, showContent: bool, f: LoginForm)
    requires Routes.AdminView(a, showContent) == Routes.Redirect("/login")
    ensures RedirectTarget(a, f.submitting).None?
  {
  }
}

=== FILE: register.dfy ===
/**
 * The registration page: choosing a title, and the submission that checks
 * the form, signs the student up, uploads the payment receipt and files a
 * pending enrolment.
 */
module Register {
  import opened Common
  import opened Strings
  import Auth
  import Storage
  import Enrolments

  /** A title (a programme a student enrols in) as listed on the page. */
  datatype Title = Title(id: string, name: string)

  /** The index of the first listed title with this id, or the list's length when none has it. */
  function FirstIndexWithId(titles: seq<Title>, id: string): (k: nat)
    ensures k <= |titles|
    ensures k < |titles| ==> titles[k].id == id
    ensures forall j :: 0 <= j < k ==> titles[j].id != id
  {
    if |titles| == 0 then 0
    else if titles[0].id == id then 0
    else 1 + FirstIndexWithId(titles[1..], id)
  }

  /** The title shown for the chosen id: none while no id is chosen or the id is not listed. */
  function SelectedTitle(titles: seq<Title>, id: string): (r: Option<Title>)
    ensures id == "" ==> r.None?
    ensures r.Some? ==> r.value in titles && r.value.id == id
    ensures id != "" && r.None? ==> forall k :: 0 <= k < |titles| ==> titles[k].id != id
    ensures r.Some? ==> exists k :: 0 <= k < |titles| && titles[k] == r.value
                          && forall j :: 0 <= j < k ==> titles[j].id != id
  {
    var k := FirstIndexWithId(titles, id);
    if id == "" || k == |titles| then None else Some(titles[k])
  }

  /** The form's fields; `titleId` is "" while no title is chosen. */
  datatype Form = Form(
    email: string,
    password: string,
    confirmPassword: string,
    fullName: string,
    phone: string,
    titleId: string,
    receipt: Option<Storage.FileInfo>)

  /** The page: the form, the in-flight guard, the loading flag, the error shown and the success flag. */
  datatype Page = Page(form: Form, inFlight: bool, loading: bool, error: string, success: bool)

  /** The backend state a registration writes: profiles, enrolments and the object store. */
  datatype Backend = Backend(users: Auth.Users, enrolments: Enrolments.EnrolmentTable, bucket: Storage.Bucket)

  /**
   * What the outside world answers during one submission: the sign-up
   * answer, whether the profile write succeeds, the store configuration, the
   * clock and random id the upload uses, whether the store accepts the put
   * and its error text, and the new enrolment's id and whether its insert succeeds.
   */
  datatype Services = Services(
    signUp: Auth.SignUpAnswer,
    profileWriteSucceeds: bool,
    cfg: Storage.Config,
    timestamp: nat,
    randomId: string,
    sendSucceeds: bool,
    sendMessage: string,
    enrolmentId: string,
    insertSucceeds: bool)

  /** A submission's effect, and which backend calls it made. */
  datatype Submission = Submission(page: Page, db: Backend, signUpCalled: bool, uploadCalled: bool)

  const PasswordMismatchMessage := "Passwords do not match"
  const NoReceiptMessage := "Please upload a payment receipt"
  const NoTitleMessage := "Please select a title"
  const DatabaseErrorMessage := "Failed to create user profile. Please check that the database trigger is properly configured."
  const UserCreationFailedMessage := "User creation failed. Please try again."
  const RegistrationFailedMessage := "Registration failed"
  const ReceiptFolder := "receipts"

  /** The form passes the page's own checks. */
  predicate Valid(f: Form) {
    f.password == f.confirmPassword && f.receipt.Some? && f.titleId != ""
  }

  /** The message shown for a sign-up error with message `m`. */
  function SignUpFailureMessage(m: string): (r: string)
    ensures r != ""
    ensures Contains(m, "Database error") ==> r == DatabaseErrorMessage
    ensures !Contains(m, "Database error") && m != "" ==> r == m
  {
    if Contains(m, "Database error") then DatabaseErrorMessage
    else if m != "" then m
    else RegistrationFailedMessage
  }

  /** The message shown when the receipt upload fails. */
  function ReceiptFailureMessage(e: Storage.StorageError, sendMessage: string): (r: string)
    ensures r != ""
    ensures "Failed to upload receipt: " <= r
  {
    "Failed to upload receipt: " + Storage.UploadErrorMessage(e, sendMessage)
  }

  /** The page once the submission is over: the flags are down and `error` shows. */
  function Settle(p: Page, error: string): (r: Page)
    ensures !r.loading && !r.inFlight && r.error == error
    ensures r.form == p.form && r.success == p.success
  {
    p.(error := error, loading := false, inFlight := false)
  }

  /** The receipt upload a valid form's submission makes. */
  function ReceiptUpload(f: Form, db: Backend, s: Services): Result<Storage.Uploaded, Storage.StorageError>
    requires f.receipt.Some?
  {
    Storage.Upload(s.cfg, f.receipt.value, ReceiptFolder, s.timestamp, s.randomId, db.bucket, s.sendSucceeds)
  }

  /** The enrolment a successful registration files. */
  function PendingEnrolment(id: string, userId: string, titleId: string, receiptUrl: string): (e: Enrolments.Enrolment)
    ensures e.status == "pending" && Enrolments.OfferedActions(e) != []
    ensures e.id == id && e.userId == userId && e.titleId == titleId && e.receiptUrl == receiptUrl
  {
    Enrolments.Enrolment(id, userId, titleId, receiptUrl, "pending", "", "", "")
  }

  /** A registration succeeds exactly when the form is valid, sign-up yields a user id, and the upload goes through. */
  predicate Registers(f: Form, db: Backend, s: Services) {
    Valid(f) && s.signUp.SignUpDone? && s.signUp.userId != "" && ReceiptUpload(f, db, s).Ok?
  }

  /**
   * One press of the submit button. A press while a submission is in
   * flight is ignored. The checks run in order before anything is sent;
   * the receipt is uploaded only after sign-up has produced a user; the
   * enrolment insert's failure is not reported.
   */
  function Submit(p: Page, db: Backend, s: Services): (r: Submission)
    ensures p.inFlight || p.loading ==> r == Submission(p, db, false, false)
    ensures !(p.inFlight || p.loading) ==> !r.page.loading && !r.page.inFlight && r.page.form == p.form
    ensures !(p.inFlight || p.loading) ==> (r.page.error == "" <==> Registers(p.form, db, s))
    ensures !(p.inFlight || p.loading) ==> (r.page.success <==> p.success || Registers(p.form, db, s))
    ensures !(p.inFlight || p.loading) && p.form.password != p.form.confirmPassword ==>
              r.page.error == PasswordMismatchMessage && r.db == db && !r.signUpCalled
    ensures !(p.inFlight || p.loading) && p.form.password == p.form.confirmPassword && p.form.receipt.None? ==>
              r.page.error == NoReceiptMessage && r.db == db && !r.signUpCalled
    ensures !(p.inFlight || p.loading) && p.form.password == p.form.confirmPassword && p.form.receipt.Some?
              && p.form.titleId == "" ==>
              r.page.error == NoTitleMessage && r.db == db && !r.signUpCalled
    ensures r.signUpCalled <==> !(p.inFlight || p.loading) && Valid(p.form)
    ensures r.uploadCalled <==> r.signUpCalled && s.signUp.SignUpDone? && s.signUp.userId != ""
    ensures r.signUpCalled && s.signUp.SignUpError? ==> r.page.error == SignUpFailureMessage(s.signUp.message)
    ensures r.db.enrolments.Keys <= db.enrolments.Keys + {s.enrolmentId}
    ensures forall k :: k in db.enrolments ==> k in r.db.enrolments && r.db.enrolments[k] == db.enrolments[k]
    ensures s.enrolmentId in r.db.enrolments && s.enrolmentId !in db.enrolments ==>
              Registers(p.form, db, s) && !(p.inFlight || p.loading)
              && r.db.enrolments[s.enrolmentId] ==
                 PendingEnrolment(s.enrolmentId, s.signUp.userId, p.form.titleId, ReceiptUpload(p.form, db, s).value.url)
  {
    if p.inFlight || p.loading then Submission(p, db, false, false)
    else
      var f := p.form;
      if f.password != f.confirmPassword then Submission(Settle(p, PasswordMismatchMessage), db, false, false)
      else if f.receipt.None? then Submission(Settle(p, NoReceiptMessage), db, false, false)
      else if f.titleId == "" then Submission(Settle(p, NoTitleMessage), db, false, false)
      else
        var signedUp := Auth.SignUp(f.fullName, f.phone, f.titleId, s.signUp, db.users, s.profileWriteSucceeds);
        var afterSignUp := db.(users := signedUp.users);
        match signedUp.outcome
        case Err(m) => Submission(Settle(p, SignUpFailureMessage(m)), afterSignUp, true, false)
        case Ok(userId) =>
          if userId == "" then Submission(Settle(p, UserCreationFailedMessage), afterSignUp, true, false)
          else
            match ReceiptUpload(f, db, s)
            case Err(e) => Submission(Settle(p, ReceiptFailureMessage(e, s.sendMessage)), afterSignUp, true, true)
            case Ok(up) =>
              var enrolments :=
                if s.insertSucceeds && s.enrolmentId !in db.enrolments then
                  db.enrolments[s.enrolmentId := PendingEnrolment(s.enrolmentId, userId, f.titleId, up.url)]
                else db.enrolments;
              Submission(Settle(p, "").(success := true), Backend(signedUp.users, enrolments, up.bucket), true, true)
  }

  /**
   * Registration grants no access: existing profiles keep their role and
   * approval, a new profile is neither approved nor an admin, and every new
   * enrolment waits for review.
   */
  lemma RegistrationGrantsNoAccess(p: Page, db: Backend, s: Services)
    ensures
      var r := Submit(p, db, s);
      forall k :: k in r.db.users && k in db.users ==>
        r.db.users[k].role == db.users[k].role && r.db.users[k].approved == db.users[k].approved
    ensures
      var r := Submit(p, db, s);
      forall k :: k in r.db.users && k !in db.users ==>
        !Auth.IsApproved(Some(r.db.users[k])) && !Auth.IsAdmin(Some(r.db.users[k]))
    ensures
      var r := Submit(p, db, s);
      forall k :: k in r.db.enrolments && k !in db.enrolments ==> r.db.enrolments[k].status == "pending"
  {
    var r := Submit(p, db, s);
    if r.signUpCalled {
      var f := p.form;
      var signedUp := Auth.SignUp(f.fullName, f.phone, f.titleId, s.signUp, db.users, s.profileWriteSucceeds);
      assert r.db.users == signedUp.users;
      forall k | k in r.db.users
        ensures k in db.users ==> r.db.users[k].role == db.users[k].role && r.db.users[k].approved == db.users[k].approved
        ensures k !in db.users ==> !Auth.IsApproved(Some(r.db.users[k])) && !Auth.IsAdmin(Some(r.db.users[k]))
      {
        Auth.SignUpNeverGrantsAccess(f.fullName, f.phone, f.titleId, s.signUp, db.users, s.profileWriteSucceeds, k);
      }
    }
  }

  /**
   * The receipt URL filed with a new enrolment leads back to the uploaded
   * object: deleting by it removes exactly that object.
   */
  lemma FiledReceiptIsDeletable(p: Page, db: Backend, s: Services)
    requires !(p.inFlight || p.loading) && Valid(p.form)
    requires Storage.CredentialsPresent(s.cfg) && s.sendSucceeds
    requires Storage.Recoverable(s.cfg, Storage.UploadKey(ReceiptFolder, s.timestamp, s.randomId, p.form.receipt.value.name))
    requires s.signUp.SignUpDone? && s.signUp.userId != ""
    requires s.insertSucceeds && s.enrolmentId !in db.enrolments
    ensures
      var r := Submit(p, db, s);
      var key := Storage.UploadKey(ReceiptFolder, s.timestamp, s.randomId, p.form.receipt.value.name);
      && r.page.success && s.enrolmentId in r.db.enrolments
      && Storage.Delete(s.cfg, r.db.enrolments[s.enrolmentId].receiptUrl, r.db.bucket, true) == Ok(r.db.bucket - {key})
  {
    Storage.UploadThenDelete(s.cfg, p.form.receipt.value, ReceiptFolder, s.timestamp, s.randomId, db.bucket);
  }

  /** A second press while the first is in flight changes nothing and calls nothing. */
  lemma DoubleSubmitIgnored(p: Page, db: Backend, s: Services, t: Services)
    requires !(p.inFlight || p.loading)
    ensures
      var inFlight := p.(inFlight := true, loading := true, error := "");
      Submit(inFlight, db, t) == Submission(inFlight, db, false, false)
  {
  }
}

=== FILE: routes.dfy ===
/**
 * The two route guards: the student guard, which admits approved profiles,
 * and the admin guard, which admits admins once loading has settled.
 */
module Routes {
  import opened Common
  import opened Auth

  /** What a guard renders: a placeholder, a redirect, or the protected page. */
  datatype View = Placeholder | Redirect(to: string) | Children

  /** The student guard. */
  function ProtectedView(a: AuthState): (v: View)
    ensures a.loading ==> v == Placeholder
    ensures v == Children <==> !a.loading && a.user.Some? && IsApproved(a.profile)
    ensures v.Redirect? ==> v.to == "/login"
    ensures !a.loading && a.user.None? ==> v == Redirect("/login")
    ensures !a.loading && a.profile.None? ==> v == Redirect("/login")
  {
    if a.loading then Placeholder
    else if a.user.None? then Redirect("/login")
    else if a.profile.None? then Redirect("/login")
    else if a.profile.value.approved != Some(true) then Redirect("/login")
    else Children
  }

  /** The admin guard, given the settle flag the guard keeps. */
  function AdminView(a: AuthState, showContent: bool): (v: View)
    ensures a.loading || !showContent ==> v == Placeholder
    ensures v == Children <==> !a.loading && showContent && a.user.Some? && IsAdmin(a.profile)
    ensures v == Redirect("/dashboard") <==>
              !a.loading && showContent && a.user.Some? && a.profile.Some? && !IsAdmin(a.profile)
    ensures v.Redirect? ==> v.to == "/login" || v.to == "/dashboard"
  {
    if a.loading || !showContent then Placeholder
    else if a.user.None? then Redirect("/login")
    else if a.profile.None? then Redirect("/login")
    else if a.profile.value.role != "admin" then Redirect("/dashboard")
    else Children
  }

  /** The admin guard never looks at the approval flag. */
  lemma AdminViewIgnoresApproval(a: AuthState, showContent: bool, approved: Option<bool>)
    requires a.profile.Some?
    ensures AdminView(a.(profile := Some(a.profile.value.(approved := approved))), showContent)
            == AdminView(a, showContent)
  {
  }

  /** An unapproved admin is admitted by the admin guard and turned away by the student guard. */
  lemma UnapprovedAdminOnlyReachesAdminPages(a: AuthState)
    requires !a.loading && a.user.Some? && a.profile.Some?
    requires a.profile.value.role == "admin" && a.profile.value.approved != Some(true)
    ensures AdminView(a, true) == Children
    ensures ProtectedView(a) == Redirect("/login")
  {
  }

  // ------------------------------------------------- the admin guard's settle flag

  /**
   * The admin guard's own state: the auth loading flag it last saw, whether
   * content may show, and whether the short settle timer is running.
   */
  datatype Gate = Gate(loading: bool, showContent: bool, timerPending: bool)

  /** Something that happens to the guard: the auth loading flag takes a value, or the timer fires. */
  datatype GateEvent = LoadingIs(loading: bool) | TimerFires

  /** While loading, content is hidden and no timer runs. */
  predicate GateInv(g: Gate) {
    g.loading ==> !g.showContent && !g.timerPending
  }

  /** The guard as first rendered: its effect runs once for the initial loading flag. */
  function GateInit(loading: bool): (g: Gate)
    ensures GateInv(g) && !g.showContent
    ensures g.timerPending <==> !loading
  {
    Gate(loading, false, !loading)
  }

  /**
   * One event. The effect runs only when the loading flag changes: settling
   * starts the timer, and loading again cancels it and hides the content.
   */
  function GateStep(g: Gate, e: GateEvent): (r: Gate)
    ensures GateInv(g) ==> GateInv(r)
    ensures GateInv(g) && e.LoadingIs? && e.loading ==> !r.showContent
    ensures e.LoadingIs? ==> r.loading == e.loading
    ensures e.TimerFires? ==> r.loading == g.loading
  {
    match e
    case LoadingIs(l) =>
      if l == g.loading then g
      else if !l then Gate(false, g.showContent, true)
      else Gate(true, false, false)
    case TimerFires =>
      if g.timerPending then g.(showContent := true, timerPending := false) else g
  }

  /** The guard after a sequence of events. */
  function GateRun(g: Gate, events: seq<GateEvent>): Gate
    decreases |events|
  {
    if |events| == 0 then g else GateRun(GateStep(g, events[0]), events[1..])
  }

  /** However the events interleave, the guard never shows content while auth is loading. */
  lemma {:induction false} GateRunKeepsInvariant(g: Gate, events: seq<GateEvent>)
    requires GateInv(g)
    ensures GateInv(GateRun(g, events))
    ensures GateRun(g, events).loading ==> !GateRun(g, events).showContent
    decreases |events|
  {
    if |events| > 0 {
      GateRunKeepsInvariant(GateStep(g, events[0]), events[1..]);
    }
  }

  /** After loading ends, the content waits for the timer: the flag is still down. */
  lemma SettlingWaitsForTimer(g: Gate)
    requires GateInv(g) && g.loading
    ensures !GateStep(g, LoadingIs(false)).showContent
    ensures GateStep(g, LoadingIs(false)).timerPending
    ensures GateStep(GateStep(g, LoadingIs(false)), TimerFires).showContent
  {
  }
}

=== FILE: storage.dfy ===
/**
 * The object-store wrapper: how an upload names its object and builds the
 * public URL, and how a delete recovers the object key from such a URL.
 * The bucket is an abstract map from key to object; the store's `send` call
 * becomes a success flag.
 */
module Storage {
  import opened Common
  import opened Strings

  /** The five environment settings read at load time; "" stands for an unset one. */
  datatype Config = Config(
    accountId: string,
    accessKeyId: string,
    secretAccessKey: string,
    bucketName: string,
    publicUrl: string)

  /** Upload and delete both refuse to touch the store unless all four credentials are set. */
  predicate CredentialsPresent(cfg: Config) {
    cfg.accountId != "" && cfg.accessKeyId != "" && cfg.secretAccessKey != "" && cfg.bucketName != ""
  }

  /** A browser file: its name, its MIME type ("" when the browser reports none) and its size in bytes. */
  datatype FileInfo = FileInfo(name: string, mimeType: string, size: nat)

  datatype StoredObject = StoredObject(contentType: string, size: nat)

  /** The bucket's contents by object key. */
  type Bucket = map<string, StoredObject>

  datatype StorageError = NotConfigured | SendFailed

  const NotConfiguredMessage := "Cloudflare R2 credentials not configured. Please add VITE_CLOUDFLARE_R2_BUCKET_NAME and VITE_CLOUDFLARE_R2_PUBLIC_URL to your .env file."

  /** The message an upload failure is thrown with; `sendMessage` is the store's own error text. */
  function UploadErrorMessage(e: StorageError, sendMessage: string): (m: string)
    ensures m != ""
    ensures e.SendFailed? ==> |m| >= |sendMessage| && m[|m| - |sendMessage|..] == sendMessage
  {
    match e
    case NotConfigured => NotConfiguredMessage
    case SendFailed => "Failed to upload to R2: " + sendMessage
  }

  /** The file extension used in object names: the text after the last '.', or the whole name. */
  function Extension(fileName: string): string {
    AfterLast(fileName, '.')
  }

  /** Appending `c` and a tail without `c` makes that tail the new last segment. */
  lemma AfterLastAppended(x: string, c: char, e: string)
    requires c !in e
    ensures AfterLast(x + [c] + e, c) == e
  {
    var s := x + [c] + e;
    var r := AfterLast(s, c);
    assert s[|x|] == c;
    assert forall k :: 0 <= k < |e| ==> s[|x| + 1 + k] == e[k];
    assert r == s[|s| - |e|..] == e;
  }

  /** The generated object name `<timestamp>_<randomId>.<extension>`. */
  function ObjectName(timestamp: nat, randomId: string, fileName: string): string {
    Decimal(timestamp) + "_" + randomId + "." + Extension(fileName)
  }

  lemma PrefixOfConcat(a: string, b: string)
    ensures a <= a + b
  {
    assert (a + b)[..|a|] == a;
  }

  /** The object name keeps the file's extension; a name without '.' is its own extension. */
  lemma ObjectNameKeepsExtension(timestamp: nat, randomId: string, fileName: string)
    ensures Extension(ObjectName(timestamp, randomId, fileName)) == Extension(fileName)
    ensures '.' !in fileName ==> Extension(ObjectName(timestamp, randomId, fileName)) == fileName
  {
    var e := Extension(fileName);
    var prefix := Decimal(timestamp) + "_" + randomId;
    AfterLastAppended(prefix, '.', e);
    assert ObjectName(timestamp, randomId, fileName) == prefix + ['.'] + e;
  }

  /** The object name starts with the decimal timestamp and an underscore. */
  lemma ObjectNameStartsWithTimestamp(timestamp: nat, randomId: string, fileName: string)
    ensures Decimal(timestamp) + "_" <= ObjectName(timestamp, randomId, fileName)
  {
    var p := Decimal(timestamp) + "_";
    var t := randomId + "." + Extension(fileName);
    PrefixOfConcat(p, t);
    ConcatAssoc(p, randomId, ".", Extension(fileName));
  }

  lemma ConcatAssoc(p: string, a: string, b: string, c: string)
    ensures p + a + b + c == p + (a + b + c)
  {
  }

  /** The object key: the name inside `folder` when one is given. */
  function ObjectKey(folder: string, name: string): (key: string)
    ensures |name| <= |key| && key[|key| - |name|..] == name
    ensures folder == "" ==> key == name
    ensures folder != "" ==> folder + "/" <= key && |key| == |folder| + 1 + |name|
  {
    if folder != "" then folder + "/" + name else name
  }

  /** The content type sent with the object. */
  function ContentType(file: FileInfo): (r: string)
    ensures r != ""
    ensures file.mimeType != "" ==> r == file.mimeType
  {
    if file.mimeType != "" then file.mimeType else "application/octet-stream"
  }

  function WithoutTrailingSlash(u: string): (r: string)
    ensures r <= u && |u| - 1 <= |r|
  {
    if |u| > 0 && u[|u| - 1] == '/' then u[..|u| - 1] else u
  }

  /** The public URL of an object: under the configured base, or on the bucket's r2.dev host. */
  function PublicUrl(cfg: Config, key: string): (url: string)
    ensures |key| <= |url| && url[|url| - |key|..] == key
    ensures cfg.publicUrl != "" ==> url == WithoutTrailingSlash(cfg.publicUrl) + "/" + key
    ensures cfg.publicUrl == "" ==> "https://" + cfg.bucketName + ".r2.dev/" <= url
  {
    if cfg.publicUrl != "" then
      if cfg.publicUrl[|cfg.publicUrl| - 1] == '/' then cfg.publicUrl + key
      else cfg.publicUrl + "/" + key
    else
      "https://" + cfg.bucketName + ".r2.dev/" + key
  }

  /** The upload's answer: the public URL, and the bucket after the put. */
  datatype Uploaded = Uploaded(url: string, bucket: Bucket)

  function UploadKey(folder: string, timestamp: nat, randomId: string, fileName: string): string {
    ObjectKey(folder, ObjectName(timestamp, randomId, fileName))
  }

  /**
   * Uploads `file` into `folder`. The clock reading and the random id are
   * parameters, and `sendSucceeds` says whether the store accepted the put.
   */
  function Upload(cfg: Config, file: FileInfo, folder: string, timestamp: nat, randomId: string,
                  bucket: Bucket, sendSucceeds: bool): (r: Result<Uploaded, StorageError>)
    ensures !CredentialsPresent(cfg) ==> r == Err(NotConfigured)
    ensures CredentialsPresent(cfg) && !sendSucceeds ==> r == Err(SendFailed)
    ensures r.Ok? <==> CredentialsPresent(cfg) && sendSucceeds
    ensures r.Ok? ==>
      var key := UploadKey(folder, timestamp, randomId, file.name);
      && r.value.url == PublicUrl(cfg, key)
      && r.value.bucket.Keys == bucket.Keys + {key}
      && r.value.bucket[key] == StoredObject(ContentType(file), file.size)
      && forall k :: k in bucket && k != key ==> r.value.bucket[k] == bucket[k]
  {
    if !CredentialsPresent(cfg) then Err(NotConfigured)
    else if !sendSucceeds then Err(SendFailed)
    else
      var key := UploadKey(folder, timestamp, randomId, file.name);
      Ok(Uploaded(PublicUrl(cfg, key), bucket[key := StoredObject(ContentType(file), file.size)]))
  }

  /** Length of the `https://` or `http://` that starts at `i`, if one does. */
  function SchemeAt(s: string, i: nat): (n: Option<nat>)
    ensures n.Some? ==> i + n.value <= |s|
  {
    if OccursAt(s, "https://", i) then Some(8)
    else if OccursAt(s, "http://", i) then Some(7)
    else None
  }

  /** The first '/' at or after `i`, or the end of `s`. */
  function SlashFrom(s: string, i: nat): (j: nat)
    requires i <= |s|
    decreases |s| - i
    ensures i <= j <= |s|
    ensures j < |s| ==> s[j] == '/'
    ensures forall k :: i <= k < j ==> s[k] != '/'
  {
    if i == |s| || s[i] == '/' then i else SlashFrom(s, i + 1)
  }

  /**
   * The capture of `https?:\/\/[^\/]+\/(.+)` when its match starts at `i`: a
   * scheme, a non-empty host run ending at a '/', then the rest of the line,
   * which must be non-empty.
   */
  function PathMatchAt(s: string, i: nat): (r: Option<string>)
    ensures r.Some? ==> |r.value| > 0 && forall k :: 0 <= k < |r.value| ==> !IsLineTerminator(r.value[k])
  {
    match SchemeAt(s, i)
    case None => None
    case Some(n) =>
      var slash := SlashFrom(s, i + n);
      if slash == i + n || slash == |s| then None
      else
        var e := LineEndFrom(s, slash + 1);
        if e == slash + 1 then None else Some(s[slash + 1..e])
  }

  /** The leftmost match of the custom-domain pattern at or after `i`. */
  function CustomDomainPathFrom(s: string, i: nat): (r: Option<string>)
    decreases |s| + 1 - i
    ensures r.Some? ==> exists k: nat :: i <= k && PathMatchAt(s, k) == r
    ensures r.None? ==> forall k: nat :: i <= k ==> PathMatchAt(s, k).None?
  {
    if i > |s| then
      assert forall k: nat :: i <= k ==> SchemeAt(s, k).None?;
      None
    else
      match PathMatchAt(s, i)
      case Some(p) => Some(p)
      case None => CustomDomainPathFrom(s, i + 1)
  }

  /** The object key named by a URL, as the delete operation recovers it. */
  function ExtractKey(url: string, bucketName: string): (key: string)
    ensures '?' !in key
    ensures '/' !in url ==> key == Before(url, "?")
  {
    var path :=
      if '/' !in url then url
      else if Contains(url, "r2.dev") then
        (if Contains(url, "r2.dev/") then SecondPiece(url, "r2.dev/") else url)
      else if Contains(url, "cloudflarestorage.com") then
        (if Contains(url, bucketName + "/") then SecondPiece(url, bucketName + "/") else url)
      else
        (match CustomDomainPathFrom(url, 0) case Some(p) => p case None => url);
    BeforeQuestionMark(path)
  }

  /** Everything before the first '?': the query string is dropped. */
  function BeforeQuestionMark(s: string): (r: string)
    ensures '?' !in r
    ensures '?' !in s ==> r == s
  {
    BeforeCharExcluded(s, '?');
    Before(s, "?")
  }

  /** Deletes the object a URL names; `sendSucceeds` says whether the store accepted the delete. */
  function Delete(cfg: Config, url: string, bucket: Bucket, sendSucceeds: bool): (r: Result<Bucket, StorageError>)
    ensures !CredentialsPresent(cfg) ==> r == Err(NotConfigured)
    ensures CredentialsPresent(cfg) && !sendSucceeds ==> r == Err(SendFailed)
    ensures r.Ok? <==> CredentialsPresent(cfg) && sendSucceeds
    ensures r.Ok? ==> r.value.Keys == bucket.Keys - {ExtractKey(url, cfg.bucketName)}
    ensures r.Ok? ==> forall k :: k in r.value ==> r.value[k] == bucket[k]
  {
    if !CredentialsPresent(cfg) then Err(NotConfigured)
    else if !sendSucceeds then Err(SendFailed)
    else Ok(bucket - {ExtractKey(url, cfg.bucketName)})
  }

  /** The host of a configured public URL `https://<host>` (with or without a final '/'). */
  function PublicHost(publicUrl: string): string
    requires "https://" <= publicUrl
  {
    var base := WithoutTrailingSlash(publicUrl);
    if |base| >= 8 then base[8..] else ""
  }

  /** A host ending in "r2.dev", such as a bucket's `pub-<hash>.r2.dev` development host. */
  predicate R2DevHost(host: string) {
    |host| >= 6 && host[|host| - 6..] == "r2.dev"
  }

  /**
   * The URL shapes under which a delete finds exactly the key an upload
   * wrote: the r2.dev fallback, a configured `https://` base on an r2.dev
   * host (both read by the r2.dev branch), or a configured base on any other
   * host (read by the custom-domain pattern).
   */
  predicate Recoverable(cfg: Config, key: string) {
    && '?' !in key
    && (if cfg.publicUrl == "" then '/' !in cfg.bucketName && !Contains(key, "r2.dev/")
        else "https://" <= cfg.publicUrl && BaseRecoverable(PublicHost(cfg.publicUrl), key))
  }

  /** The key comes back from `https://<host>/<key>`, by the r2.dev branch or by the custom-domain pattern. */
  predicate BaseRecoverable(host: string, key: string) {
    && host != "" && '/' !in host
    && if R2DevHost(host) then !Contains(key, "r2.dev/") else CustomRecoverable(host, key)
  }

  /** What the custom-domain pattern needs: neither marker anywhere, and a non-empty key on one line. */
  predicate CustomRecoverable(host: string, key: string) {
    && !Contains(host, "r2.dev") && !Contains(host, "cloudflarestorage.com")
    && key != ""
    && (forall k :: 0 <= k < |key| ==> !IsLineTerminator(key[k]))
    && !Contains(key, "r2.dev") && !Contains(key, "cloudflarestorage.com")
  }

  /** On the r2.dev fallback URL, the first "r2.dev/" is the one after the bucket name. */
  lemma FallbackFirstMarker(bucket: string, key: string)
    requires '/' !in bucket
    ensures IndexOf("https://" + bucket + ".r2.dev/" + key, "r2.dev/") == Some(9 + |bucket|)
  {
    var url := "https://" + bucket + ".r2.dev/" + key;
    var p := 9 + |bucket|;
    assert url[p..p + 7] == "r2.dev/";
    assert OccursAt(url, "r2.dev/", p);
    forall j: nat | j < p
      ensures !OccursAt(url, "r2.dev/", j)
    {
      if j + 6 < 8 {
        assert url[j..j + 7][0] == url[j] != 'r';
      } else {
        assert url[j..j + 7][6] == url[j + 6] != '/';
      }
    }
  }

  /** A key on the r2.dev fallback URL comes back out of `ExtractKey`. */
  lemma FallbackRoundTrip(cfg: Config, key: string)
    requires cfg.publicUrl == ""
    requires Recoverable(cfg, key)
    ensures ExtractKey(PublicUrl(cfg, key), cfg.bucketName) == key
  {
    assert PublicUrl(cfg, key) == "https://" + cfg.bucketName + ".r2.dev/" + key;
    FallbackExtract(cfg.bucketName, key);
  }

  /** `https://<bucket>.r2.dev/<key>` gives back the key. */
  lemma FallbackExtract(b: string, key: string)
    requires '/' !in b && '?' !in key && !Contains(key, "r2.dev/")
    ensures ExtractKey("https://" + b + ".r2.dev/" + key, b) == key
  {
    var url := "https://" + b + ".r2.dev/" + key;
    assert url[6] == '/';
    assert OccursAt(url, "r2.dev", 9 + |b|) by {
      assert url[9 + |b|..15 + |b|] == "r2.dev";
    }
    FallbackFirstMarker(b, key);
    var pre := "https://" + b + ".";
    assert Before(url, "r2.dev/") == pre;
    assert url == pre + "r2.dev/" + key;
    assert After(url, "r2.dev/") == key;
    assert SecondPiece(url, "r2.dev/") == Before(key, "r2.dev/") == key;
  }

  /** A pattern without '/' found in `https://<host>/<key>` lies in the host or in the key. */
  lemma CustomUrlContains(host: string, key: string, pat: string)
    requires '/' !in pat && |pat| > 0
    requires pat[0] !in "https:"
    ensures Contains("https://" + host + "/" + key, pat) <==> Contains(host, pat) || Contains(key, pat)
  {
    forall i: nat
      ensures !OccursAt("https:", pat, i)
    {
      if i + |pat| <= 6 {
        assert "https:"[i..i + |pat|][0] == "https:"[i] != pat[0];
      }
    }
    ContainsAroundSeparator("https://" + host, '/', key, pat);
    assert "https://" + host + "/" + key == ("https://" + host) + ['/'] + key;
    ContainsAroundSeparator("https:/", '/', host, pat);
    assert "https://" + host == "https:/" + ['/'] + host;
    ContainsAroundSeparator("https:", '/', [], pat);
    assert "https:/" == "https:" + ['/'] + [];
    assert !Contains([], pat);
  }

  /** The contract of `SlashFrom` pins its value down. */
  lemma SlashFromIs(s: string, i: nat, j: nat)
    requires i <= j < |s| && s[j] == '/'
    requires forall k :: i <= k < j ==> s[k] != '/'
    ensures SlashFrom(s, i) == j
  {
  }

  /** The contract of `LineEndFrom` pins its value down when no terminator follows. */
  lemma LineEndFromIsEnd(s: string, i: nat)
    requires i <= |s|
    requires forall k :: i <= k < |s| ==> !IsLineTerminator(s[k])
    ensures LineEndFrom(s, i) == |s|
  {
  }

  /** On `https://<host>/<key>`, the custom-domain pattern matches at the start and captures the key. */
  lemma CustomPathMatch(host: string, key: string)
    requires host != "" && '/' !in host
    requires key != "" && forall k :: 0 <= k < |key| ==> !IsLineTerminator(key[k])
    ensures CustomDomainPathFrom("https://" + host + "/" + key, 0) == Some(key)
  {
    var url := "https://" + host + "/" + key;
    var slash := 8 + |host|;
    assert url[..8] == "https://";
    assert OccursAt(url, "https://", 0);
    assert url[slash] == '/';
    assert forall k :: 8 <= k < slash ==> url[k] == host[k - 8];
    SlashFromIs(url, 8, slash);
    assert url[slash + 1..|url|] == key;
    LineEndFromIsEnd(url, slash + 1);
    assert SchemeAt(url, 0) == Some(8);
    assert SlashFrom(url, 0 + 8) == slash;
    assert PathMatchAt(url, 0) == Some(key);
  }

  /** Under a custom base, the public URL is `https://<host>/<key>`. */
  lemma CustomUrlShape(cfg: Config, key: string)
    requires cfg.publicUrl != "" && "https://" <= cfg.publicUrl && PublicHost(cfg.publicUrl) != ""
    ensures PublicUrl(cfg, key) == "https://" + PublicHost(cfg.publicUrl) + "/" + key
  {
    var base := WithoutTrailingSlash(cfg.publicUrl);
    assert base[..8] == cfg.publicUrl[..8] == "https://";
    assert base == "https://" + PublicHost(cfg.publicUrl);
  }

  /** The key of `https://<host>/<key>` comes back out of `ExtractKey`. */
  lemma CustomExtract(host: string, key: string, bucketName: string)
    requires host != "" && '/' !in host
    requires !Contains(host, "r2.dev") && !Contains(host, "cloudflarestorage.com")
    requires key != "" && '?' !in key && forall k :: 0 <= k < |key| ==> !IsLineTerminator(key[k])
    requires !Contains(key, "r2.dev") && !Contains(key, "cloudflarestorage.com")
    ensures ExtractKey("https://" + host + "/" + key, bucketName) == key
  {
    var url := "https://" + host + "/" + key;
    assert url[6] == '/';
    CustomUrlContains(host, key, "r2.dev");
    CustomUrlContains(host, key, "cloudflarestorage.com");
    CustomPathMatch(host, key);
  }

  /** On `https://<host>/<key>` with an r2.dev host, the first "r2.dev/" is the one ending the host. */
  lemma R2DevHostFirstMarker(host: string, key: string)
    requires '/' !in host && R2DevHost(host)
    ensures IndexOf("https://" + host + "/" + key, "r2.dev/") == Some(2 + |host|)
  {
    var url := "https://" + host + "/" + key;
    var p := 2 + |host|;
    assert url[p..p + 6] == host[|host| - 6..];
    assert url[p..p + 7] == "r2.dev/";
    assert OccursAt(url, "r2.dev/", p);
    forall j: nat | j < p
      ensures !OccursAt(url, "r2.dev/", j)
    {
      if j < 2 {
        assert url[j..j + 7][0] == url[j] != 'r';
      } else {
        assert url[j + 6] == host[j - 2];
        assert url[j..j + 7][6] == url[j + 6] != '/';
      }
    }
  }

  /** The key of `https://<host>/<key>` with an r2.dev host comes back out of `ExtractKey`. */
  lemma R2DevHostExtract(host: string, key: string, bucketName: string)
    requires '/' !in host && R2DevHost(host)
    requires '?' !in key && !Contains(key, "r2.dev/")
    ensures ExtractKey("https://" + host + "/" + key, bucketName) == key
  {
    var url := "https://" + host + "/" + key;
    var p := 2 + |host|;
    assert url[6] == '/';
    R2DevHostFirstMarker(host, key);
    assert OccursAt(url, "r2.dev", p) by {
      assert url[p..p + 6] == host[|host| - 6..];
    }
    assert Before(url, "r2.dev/") == url[..p];
    assert url == url[..p] + "r2.dev/" + key;
    assert After(url, "r2.dev/") == key;
    assert SecondPiece(url, "r2.dev/") == key;
  }

  /** A key under a configured `https://` base comes back out of `ExtractKey`. */
  lemma CustomRoundTrip(cfg: Config, key: string)
    requires cfg.publicUrl != ""
    requires Recoverable(cfg, key)
    ensures ExtractKey(PublicUrl(cfg, key), cfg.bucketName) == key
  {
    CustomUrlShape(cfg, key);
    var host := PublicHost(cfg.publicUrl);
    if R2DevHost(host) {
      R2DevHostExtract(host, key, cfg.bucketName);
    } else {
      CustomExtract(host, key, cfg.bucketName);
    }
  }

  /**
   * On an S3 endpoint URL `https://<host>/<bucket>/<key>`, the key is the
   * text after the first `<bucket>/`, so it comes back when that is the one
   * after the host and the key holds no second one.
   */
  lemma EndpointExtract(host: string, bucketName: string, key: string)
    requires '/' !in host && Contains(host, "cloudflarestorage.com") && !Contains(host, "r2.dev")
    requires bucketName != "" && '/' !in bucketName && !Contains(bucketName, "r2.dev")
    requires !Contains("https://" + host + "/", bucketName + "/")
    requires '?' !in key && !Contains(key, "r2.dev") && !Contains(key, bucketName + "/")
    ensures ExtractKey("https://" + host + "/" + bucketName + "/" + key, bucketName) == key
  {
    var pre := "https://" + host + "/";
    EndpointMarkers(host, bucketName, key);
    EndpointPiece(pre, bucketName, key);
    assert "https://" + host + "/" + bucketName + "/" + key == pre + bucketName + "/" + key;
  }

  /** The endpoint URL is routed to the cloudflarestorage branch. */
  lemma EndpointMarkers(host: string, bucketName: string, key: string)
    requires '/' !in host && Contains(host, "cloudflarestorage.com") && !Contains(host, "r2.dev")
    requires '/' !in bucketName && !Contains(bucketName, "r2.dev") && !Contains(key, "r2.dev")
    ensures var url := "https://" + host + "/" + bucketName + "/" + key;
      '/' in url && !Contains(url, "r2.dev") && Contains(url, "cloudflarestorage.com")
  {
    var rest := bucketName + "/" + key;
    var url := "https://" + host + "/" + bucketName + "/" + key;
    assert url == "https://" + host + "/" + rest;
    assert url[6] == '/';
    CustomUrlContains(host, rest, "r2.dev");
    assert rest == bucketName + ['/'] + key;
    ContainsAroundSeparator(bucketName, '/', key, "r2.dev");
    assert url == "https://" + host + ("/" + rest);
    ContainsInside("https://", host, "/" + rest, "cloudflarestorage.com");
  }

  /** The text after the first `<bucket>/` is the key. */
  lemma EndpointPiece(pre: string, bucketName: string, key: string)
    requires |pre| > 0 && pre[|pre| - 1] == '/'
    requires '/' !in bucketName && !Contains(pre, bucketName + "/")
    requires !Contains(key, bucketName + "/")
    ensures Contains(pre + bucketName + "/" + key, bucketName + "/")
    ensures SecondPiece(pre + bucketName + "/" + key, bucketName + "/") == key
  {
    var pat := bucketName + "/";
    var url := pre + bucketName + "/" + key;
    EndpointFirstBucket(pre, bucketName, key);
    assert url == pre + pat + key;
    assert After(url, pat) == key;
  }

  /** The first `<bucket>/` in `pre + <bucket>/ + key` is the one after `pre`, when `pre` ends in '/' and lacks it. */
  lemma EndpointFirstBucket(pre: string, bucketName: string, key: string)
    requires |pre| > 0 && pre[|pre| - 1] == '/'
    requires '/' !in bucketName && !Contains(pre, bucketName + "/")
    ensures IndexOf(pre + bucketName + "/" + key, bucketName + "/") == Some(|pre|)
    ensures Before(pre + bucketName + "/" + key, bucketName + "/") == pre
  {
    var pat := bucketName + "/";
    var url := pre + bucketName + "/" + key;
    assert url == pre + pat + key;
    assert url[|pre|..|pre| + |pat|] == pat;
    forall j: nat | j < |pre|
      ensures !OccursAt(url, pat, j)
    {
      if j + |pat| <= |pre| {
        assert pre[j..j + |pat|] == url[j..j + |pat|];
        assert !OccursAt(pre, pat, j);
      } else if j + |pat| <= |url| {
        var k := |pre| - 1 - j;
        assert pat[k] == bucketName[k] && bucketName[k] != '/';
        assert url[j..j + |pat|][k] == url[|pre| - 1] == '/';
      }
    }
    assert OccursAt(url, pat, |pre|);
    var i := IndexOf(url, pat);
    assert i.Some? && !(i.value < |pre|) && !(|pre| < i.value);
    assert url[..|pre|] == pre;
  }

  /** The key recovered from an uploaded object's URL is the key it was stored under. */
  lemma ExtractKeyInvertsPublicUrl(cfg: Config, key: string)
    requires Recoverable(cfg, key)
    ensures ExtractKey(PublicUrl(cfg, key), cfg.bucketName) == key
  {
    if cfg.publicUrl == "" {
      FallbackRoundTrip(cfg, key);
    } else {
      CustomRoundTrip(cfg, key);
    }
  }

  /** Deleting by an object's public URL removes that object and nothing else. */
  lemma DeleteOfPublicUrl(cfg: Config, key: string, bucket: Bucket)
    requires CredentialsPresent(cfg)
    requires Recoverable(cfg, key)
    ensures Delete(cfg, PublicUrl(cfg, key), bucket, true) == Ok(bucket - {key})
  {
    ExtractKeyInvertsPublicUrl(cfg, key);
  }

  lemma RemoveAfterInsert(b: Bucket, key: string, obj: StoredObject)
    requires key !in b
    ensures b[key := obj] - {key} == b
  {
    assert (b[key := obj] - {key}).Keys == b.Keys;
  }

  /**
   * Deleting by the URL an upload returned removes exactly the uploaded
   * object; when the key was new, the bucket is back where it started.
   */
  lemma UploadThenDelete(cfg: Config, file: FileInfo, folder: string, timestamp: nat, randomId: string,
                         bucket: Bucket)
    requires CredentialsPresent(cfg)
    requires Recoverable(cfg, UploadKey(folder, timestamp, randomId, file.name))
    ensures Upload(cfg, file, folder, timestamp, randomId, bucket, true).Ok?
    ensures
      var up := Upload(cfg, file, folder, timestamp, randomId, bucket, true).value;
      var key := UploadKey(folder, timestamp, randomId, file.name);
      && Delete(cfg, up.url, up.bucket, true) == Ok(up.bucket - {key})
      && (key !in bucket ==> Delete(cfg, up.url, up.bucket, true) == Ok(bucket))
  {
    var key := UploadKey(folder, timestamp, randomId, file.name);
    var up := Upload(cfg, file, folder, timestamp, randomId, bucket, true).value;
    DeleteOfPublicUrl(cfg, key, up.bucket);
    var obj := StoredObject(ContentType(file), file.size);
    assert up.bucket == bucket[key := obj];
    if key !in bucket {
      RemoveAfterInsert(bucket, key, obj);
    }
  }
}

=== FILE: strings.dfy ===
/**
 * The string operations of JavaScript that the application relies on, stated
 * over `seq<char>`: substring search (`indexOf`/`includes`), `split`, `pop`
 * of a split, `trim`, ASCII `toUpperCase`, `replace` of a single character and
 * decimal rendering of a number.
 */
module Strings {
  import opened Common

  /** `pat` occurs in `s` starting at index `i`. */
  predicate OccursAt(s: string, pat: string, i: nat) {
    i + |pat| <= |s| && s[i..i + |pat|] == pat
  }

  /** The first occurrence of `pat` in `s` at or after `from`. */
  function IndexOfFrom(s: string, pat: string, from: nat): (r: Option<nat>)
    decreases |s| - from
    ensures r.Some? ==> from <= r.value && OccursAt(s, pat, r.value)
    ensures r.Some? ==> forall j: nat :: from <= j < r.value ==> !OccursAt(s, pat, j)
    ensures r.None? ==> forall j: nat :: from <= j ==> !OccursAt(s, pat, j)
  {
    if from + |pat| > |s| then None
    else if s[from..from + |pat|] == pat then Some(from)
    else IndexOfFrom(s, pat, from + 1)
  }

  /** JavaScript `s.indexOf(pat)`, with `None` standing for -1. */
  function IndexOf(s: string, pat: string): (r: Option<nat>)
    ensures r.Some? ==> OccursAt(s, pat, r.value)
    ensures r.Some? ==> forall j: nat :: j < r.value ==> !OccursAt(s, pat, j)
    ensures r.None? <==> forall j: nat :: !OccursAt(s, pat, j)
  {
    IndexOfFrom(s, pat, 0)
  }

  /** JavaScript `s.includes(pat)`. */
  predicate Contains(s: string, pat: string)
    ensures Contains(s, pat) <==> exists i: nat :: OccursAt(s, pat, i)
  {
    IndexOf(s, pat).Some?
  }

  lemma OccursAtChar(s: string, c: char, i: nat)
    ensures OccursAt(s, [c], i) <==> i < |s| && s[i] == c
  {
    if i < |s| {
      assert s[i..i + 1] == [s[i]];
    }
  }

  /** A one-character pattern is contained exactly when the character is. */
  lemma ContainsChar(s: string, c: char)
    ensures Contains(s, [c]) <==> c in s
  {
    if c in s {
      var i :| 0 <= i < |s| && s[i] == c;
      OccursAtChar(s, c, i);
    }
    if Contains(s, [c]) {
      var i: nat :| OccursAt(s, [c], i);
      OccursAtChar(s, c, i);
    }
  }

  /** Every occurrence starts with the pattern's first character, so a string without it has none. */
  lemma FirstCharAbsent(s: string, pat: string)
    requires |pat| > 0 && pat[0] !in s
    ensures !Contains(s, pat)
  {
    forall i: nat
      ensures !OccursAt(s, pat, i)
    {
      if i + |pat| <= |s| {
        assert s[i..i + |pat|][0] == s[i];
      }
    }
  }

  /** A pattern found in a middle piece is found in the whole. */
  lemma ContainsInside(a: string, b: string, c: string, pat: string)
    requires Contains(b, pat)
    ensures Contains(a + b + c, pat)
  {
    var i: nat :| OccursAt(b, pat, i);
    assert (a + b + c)[|a| + i..|a| + i + |pat|] == b[i..i + |pat|];
    assert OccursAt(a + b + c, pat, |a| + i);
  }

  /**
   * An occurrence of a pattern without `sep` cannot straddle a `sep`: it lies
   * wholly on one side.
   */
  lemma ContainsAroundSeparator(a: string, sep: char, b: string, pat: string)
    requires sep !in pat
    ensures Contains(a + [sep] + b, pat) <==> Contains(a, pat) || Contains(b, pat)
  {
    if Contains(a + [sep] + b, pat) {
      OccurrenceSide(a, sep, b, pat);
    }
    if Contains(a, pat) {
      var i: nat :| OccursAt(a, pat, i);
      OccursInLeft(a, sep, b, pat, i);
    }
    if Contains(b, pat) {
      var i: nat :| OccursAt(b, pat, i);
      OccursInRight(a, sep, b, pat, i);
    }
  }

  lemma OccurrenceSide(a: string, sep: char, b: string, pat: string)
    requires sep !in pat
    requires Contains(a + [sep] + b, pat)
    ensures Contains(a, pat) || Contains(b, pat)
  {
    var s := a + [sep] + b;
    var i: nat :| OccursAt(s, pat, i);
    assert forall j :: i <= j < i + |pat| ==> s[j] == pat[j - i];
    assert forall j :: i <= j < i + |pat| ==> s[j] != sep;
    assert s[|a|] == sep;
    if i + |pat| <= |a| {
      assert a[i..i + |pat|] == s[i..i + |pat|];
      assert OccursAt(a, pat, i);
    } else {
      assert b[i - |a| - 1..i - |a| - 1 + |pat|] == s[i..i + |pat|];
      assert OccursAt(b, pat, i - |a| - 1);
    }
  }

  lemma OccursInLeft(a: string, sep: char, b: string, pat: string, i: nat)
    requires OccursAt(a, pat, i)
    ensures OccursAt(a + [sep] + b, pat, i)
  {
    assert (a + [sep] + b)[i..i + |pat|] == a[i..i + |pat|];
  }

  lemma OccursInRight(a: string, sep: char, b: string, pat: string, i: nat)
    requires OccursAt(b, pat, i)
    ensures OccursAt(a + [sep] + b, pat, |a| + 1 + i)
  {
    assert (a + [sep] + b)[|a| + 1 + i..|a| + 1 + i + |pat|] == b[i..i + |pat|];
  }

  /** A sequence is its prefix followed by the rest. */
  lemma TakeDrop<T>(s: seq<T>, n: nat)
    requires n <= |s|
    ensures s[..n] + s[n..] == s
  {
  }

  /** The text before the first occurrence of `pat`, or all of `s`: JavaScript `s.split(pat)[0]`. */
  function Before(s: string, pat: string): (r: string)
    ensures r <= s
    ensures !Contains(s, pat) ==> r == s
    ensures Contains(s, pat) ==> OccursAt(s, pat, |r|)
    ensures forall j: nat :: j < |r| ==> !OccursAt(s, pat, j)
  {
    match IndexOf(s, pat)
    case None => s
    case Some(i) => s[..i]
  }

  /** The text after the first occurrence of `pat`. */
  function After(s: string, pat: string): (r: string)
    requires Contains(s, pat)
    ensures s == Before(s, pat) + pat + r
  {
    var i := IndexOf(s, pat).value;
    assert s == s[..i] + s[i..i + |pat|] + s[i + |pat|..];
    s[i + |pat|..]
  }

  /** A pattern that does not occur leaves `Before` with nothing to cut. */
  lemma BeforeAbsent(s: string, pat: string)
    requires !Contains(s, pat)
    ensures Before(s, pat) == s
  {
  }

  /** Cutting at the first `c` leaves no `c` behind. */
  lemma BeforeCharExcluded(s: string, c: char)
    ensures c !in Before(s, [c])
    ensures c !in s ==> Before(s, [c]) == s
  {
    var r := Before(s, [c]);
    if c in r {
      var j :| 0 <= j < |r| && r[j] == c;
      OccursAtChar(s, c, j);
    }
    ContainsChar(s, c);
  }

  /** The text between the first and the second occurrence of `sep`: JavaScript `s.split(sep)[1]`. */
  function SecondPiece(s: string, sep: string): (r: string)
    requires Contains(s, sep)
    ensures exists k: nat :: OccursAt(s, sep, k) && r <= s[k + |sep|..]
  {
    var r := Before(After(s, sep), sep);
    assert OccursAt(s, sep, |Before(s, sep)|) && r <= s[|Before(s, sep)| + |sep|..];
    r
  }

  /** The first index of `c` in `s`. */
  function IndexOfChar(s: string, c: char): (r: Option<nat>)
    ensures r.Some? ==> r.value < |s| && s[r.value] == c && c !in s[..r.value]
    ensures r.None? <==> c !in s
  {
    if |s| == 0 then None
    else if s[0] == c then Some(0)
    else match IndexOfChar(s[1..], c)
      case None => None
      case Some(i) =>
        assert s[..i + 1] == [s[0]] + s[1..][..i];
        Some(i + 1)
  }

  /** The text after the last `c`, or all of `s` when it holds none: JavaScript `s.split(c).pop()`. */
  function AfterLast(s: string, c: char): (r: string)
    ensures c !in r
    ensures |r| <= |s| && r == s[|s| - |r|..]
    ensures c in s ==> |r| < |s| && s[|s| - |r| - 1] == c
    ensures c !in s ==> r == s
  {
    if |s| == 0 then s
    else if s[|s| - 1] == c then []
    else
      var init := s[..|s| - 1];
      assert s == init + [s[|s| - 1]];
      AfterLast(init, c) + [s[|s| - 1]]
  }

  /** Joins `parts` with `c` between neighbours: JavaScript `parts.join(c)`. */
  function Join(parts: seq<string>, c: char): string
    requires |parts| >= 1
  {
    if |parts| == 1 then parts[0] else parts[0] + [c] + Join(parts[1..], c)
  }

  /** JavaScript `s.split(c)` for a one-character separator. */
  function Split(s: string, c: char): (parts: seq<string>)
    decreases |s|
    ensures |parts| >= 1
    ensures forall k :: 0 <= k < |parts| ==> c !in parts[k]
    ensures Join(parts, c) == s
  {
    match IndexOfChar(s, c)
    case None => [s]
    case Some(i) =>
      var rest := Split(s[i + 1..], c);
      assert s == s[..i] + [c] + s[i + 1..];
      assert ([s[..i]] + rest)[1..] == rest;
      [s[..i]] + rest
  }

  /** The second piece of `a + c + b + tail` is `b` when `tail` is empty or starts a new piece. */
  lemma SplitSecondPiece(a: string, b: string, tail: string, c: char)
    requires c !in a && c !in b
    requires tail == "" || tail[0] == c
    ensures |Split(a + [c] + b + tail, c)| > 1 && Split(a + [c] + b + tail, c)[1] == b
  {
    assert a + [c] + b + tail == a + [c] + (b + tail);
    SplitAfterFirst(a, c, b + tail);
    SplitHead(b, tail, c);
  }

  /** The first piece of `b + tail` is `b` when `tail` is empty or starts with the separator. */
  lemma SplitHead(b: string, tail: string, c: char)
    requires c !in b
    requires tail == "" || tail[0] == c
    ensures Split(b + tail, c)[0] == b
  {
    if tail == "" {
      assert b + tail == b;
    } else {
      assert b + tail == b + [c] + tail[1..];
      SplitAfterFirst(b, c, tail[1..]);
    }
  }

  /** Splitting `a + c + t`, with no separator in `a`, gives `a` followed by the pieces of `t`. */
  lemma SplitAfterFirst(a: string, c: char, t: string)
    requires c !in a
    ensures Split(a + [c] + t, c) == [a] + Split(t, c)
  {
    var s := a + [c] + t;
    assert s[|a|] == c;
    assert forall k :: 0 <= k < |a| ==> s[k] == a[k];
    assert IndexOfChar(s, c) == Some(|a|);
    assert s[..|a|] == a && s[|a| + 1..] == t;
  }

  /** Splitting what was joined gives the parts back, when no part holds the separator. */
  lemma {:induction false} SplitJoin(parts: seq<string>, c: char)
    requires |parts| >= 1
    requires forall k :: 0 <= k < |parts| ==> c !in parts[k]
    ensures Split(Join(parts, c), c) == parts
  {
    if |parts| > 1 {
      var s := Join(parts, c);
      var tail := Join(parts[1..], c);
      assert s == parts[0] + [c] + tail;
      var i := IndexOfChar(s, c);
      assert s[|parts[0]|] == c;
      assert i == Some(|parts[0]|);
      assert s[i.value + 1..] == tail;
      assert s[..i.value] == parts[0];
      SplitJoin(parts[1..], c);
    }
  }

  /** ASCII whitespace, the part of JavaScript's `\s` and `trim` the model keeps. */
  predicate IsWhitespace(ch: char) {
    ch == ' ' || ch == '\t' || ch == '\n' || ch == '\r' || ch == '\U{000B}' || ch == '\U{000C}'
  }

  /** The line terminators that a regular expression `.` does not match. */
  predicate IsLineTerminator(ch: char) {
    ch == '\n' || ch == '\r' || ch == '\U{2028}' || ch == '\U{2029}'
  }

  predicate IsDigit(ch: char) {
    '0' <= ch <= '9'
  }

  /** The first index at or after `i` that is not whitespace, or the end of `s`. */
  function WhitespaceEnd(s: string, i: nat): (k: nat)
    requires i <= |s|
    ensures i <= k <= |s|
    ensures forall j :: i <= j < k ==> IsWhitespace(s[j])
    ensures k < |s| ==> !IsWhitespace(s[k])
    decreases |s| - i
  {
    if i < |s| && IsWhitespace(s[i]) then WhitespaceEnd(s, i + 1) else i
  }

  /** The index just past the last non-whitespace character before `j`, or 0. */
  function WhitespaceStart(s: string, j: nat): (k: nat)
    requires j <= |s|
    ensures k <= j
    ensures forall i :: k <= i < j ==> IsWhitespace(s[i])
    ensures k > 0 ==> !IsWhitespace(s[k - 1])
    decreases j
  {
    if j > 0 && IsWhitespace(s[j - 1]) then WhitespaceStart(s, j - 1) else j
  }

  /** `s` without its leading whitespace. */
  function TrimStart(s: string): (r: string)
    ensures |r| <= |s| && r == s[|s| - |r|..]
    ensures forall i :: 0 <= i < |s| - |r| ==> IsWhitespace(s[i])
    ensures |r| > 0 ==> !IsWhitespace(r[0])
  {
    s[WhitespaceEnd(s, 0)..]
  }

  /** `s` without its trailing whitespace. */
  function TrimEnd(s: string): (r: string)
    ensures |r| <= |s| && r == s[..|r|]
    ensures forall i :: |r| <= i < |s| ==> IsWhitespace(s[i])
    ensures |r| > 0 ==> !IsWhitespace(r[|r| - 1])
  {
    s[..WhitespaceStart(s, |s|)]
  }

  /** `r` is the piece `s[a..b]`, and only whitespace lies outside it. */
  predicate SliceBetweenWhitespace(s: string, r: string, a: nat, b: nat) {
    a <= b <= |s| && r == s[a..b]
    && (forall i :: 0 <= i < a ==> IsWhitespace(s[i]))
    && (forall i :: b <= i < |s| ==> IsWhitespace(s[i]))
  }

  /** JavaScript `s.trim()`, for ASCII whitespace. */
  function Trim(s: string): (r: string)
    ensures |r| <= |s|
    ensures |r| > 0 ==> !IsWhitespace(r[0]) && !IsWhitespace(r[|r| - 1])
    ensures exists a: nat, b: nat :: SliceBetweenWhitespace(s, r, a, b)
    ensures forall ch :: ch in r ==> ch in s
    ensures forall i :: 0 <= i < |s| && !IsWhitespace(s[i]) ==> s[i] in r
  {
    var e := TrimEnd(s);
    var r := TrimStart(e);
    TrimInside(s);
    TrimSlice(s);
    assert SliceBetweenWhitespace(s, r, WhitespaceEnd(e, 0), |e|);
    r
  }

  /** Trimming keeps the slice between the leading and the trailing whitespace. */
  lemma TrimSlice(s: string)
    ensures SliceBetweenWhitespace(s, TrimStart(TrimEnd(s)), WhitespaceEnd(TrimEnd(s), 0), |TrimEnd(s)|)
  {
    var e := TrimEnd(s);
    var r := TrimStart(e);
    var a := WhitespaceEnd(e, 0);
    assert r == e[a..];
    assert e == s[..|e|];
    assert r == s[a..|e|];
    forall i | 0 <= i < a
      ensures IsWhitespace(s[i])
    {
      assert s[i] == e[i];
    }
  }

  /** A string that neither starts nor ends with whitespace is its own trim. */
  lemma TrimUnchanged(s: string)
    requires |s| > 0 && !IsWhitespace(s[0]) && !IsWhitespace(s[|s| - 1])
    ensures Trim(s) == s
  {
    assert WhitespaceStart(s, |s|) == |s|;
    assert TrimEnd(s) == s;
    assert WhitespaceEnd(s, 0) == 0;
  }

  /** Trimming adds no character and drops only whitespace. */
  lemma TrimInside(s: string)
    ensures forall ch :: ch in TrimStart(TrimEnd(s)) ==> ch in s
    ensures forall i :: 0 <= i < |s| && !IsWhitespace(s[i]) ==> s[i] in TrimStart(TrimEnd(s))
  {
    var e := TrimEnd(s);
    var r := TrimStart(e);
    var off := |e| - |r|;
    forall ch | ch in r
      ensures ch in s
    {
      var k :| 0 <= k < |r| && r[k] == ch;
      assert e[off + k] == ch;
      assert s[off + k] == ch;
    }
    forall i | 0 <= i < |s| && !IsWhitespace(s[i])
      ensures s[i] in r
    {
      assert i < |e| && e[i] == s[i];
      assert off <= i;
      assert r[i - off] == s[i];
    }
  }

  function UpperChar(ch: char): char {
    if 'a' <= ch <= 'z' then (ch as int - 32) as char else ch
  }

  /** JavaScript `s.toUpperCase()`, for ASCII letters. */
  function Upper(s: string): (r: string)
    ensures |r| == |s|
    ensures forall i :: 0 <= i < |s| ==> r[i] == UpperChar(s[i])
  {
    seq(|s|, i requires 0 <= i < |s| => UpperChar(s[i]))
  }

  /** JavaScript `s.replace(c, '')` with a one-character string pattern: only the first `c` goes. */
  function RemoveFirst(s: string, c: char): (r: string)
    ensures c !in s ==> r == s
    ensures c in s ==> |r| == |s| - 1
    ensures c in s ==> exists i :: 0 <= i < |s| && s[i] == c && c !in s[..i] && r == s[..i] + s[i + 1..]
  {
    match IndexOfChar(s, c)
    case None => s
    case Some(i) => s[..i] + s[i + 1..]
  }

  /** The first line terminator at or after `i`, or the end of `s`. */
  function LineEndFrom(s: string, i: nat): (j: nat)
    requires i <= |s|
    decreases |s| - i
    ensures i <= j <= |s|
    ensures j < |s| ==> IsLineTerminator(s[j])
    ensures forall k :: i <= k < j ==> !IsLineTerminator(s[k])
  {
    if i == |s| || IsLineTerminator(s[i]) then i else LineEndFrom(s, i + 1)
  }

  /** The longest prefix of `s` free of the characters in `stops`. */
  function PrefixUntil(s: string, stops: set<char>): (r: string)
    ensures r <= s
    ensures forall i :: 0 <= i < |r| ==> r[i] !in stops
    ensures |r| < |s| ==> s[|r|] in stops
  {
    if |s| == 0 || s[0] in stops then "" else [s[0]] + PrefixUntil(s[1..], stops)
  }

  function DigitChar(d: nat): (ch: char)
    requires d < 10
    ensures IsDigit(ch)
  {
    "0123456789"[d]
  }

  /** The value of a string of decimal digits. */
  function DecimalValue(s: string): nat
    requires forall i :: 0 <= i < |s| ==> IsDigit(s[i])
  {
    if |s| == 0 then 0
    else
      assert IsDigit(s[|s| - 1]);
      DecimalValue(s[..|s| - 1]) * 10 + (s[|s| - 1] as int - '0' as int)
  }

  /** JavaScript `String(n)` for a non-negative integer. */
  function Decimal(n: nat): (r: string)
    ensures |r| >= 1
    ensures forall i :: 0 <= i < |r| ==> IsDigit(r[i])
    ensures n >= 10 ==> r[0] != '0'
  {
    if n < 10 then [DigitChar(n)] else Decimal(n / 10) + [DigitChar(n % 10)]
  }

  /** Reading back the rendered digits gives the number. */
  lemma {:induction false} DecimalRoundTrip(n: nat)
    ensures DecimalValue(Decimal(n)) == n
  {
    if n >= 10 {
      DecimalRoundTrip(n / 10);
      var r := Decimal(n);
      assert r[..|r| - 1] == Decimal(n / 10);
    }
  }
}

=== FILE: videoid.dfy ===
/**
 * Extraction of a YouTube video id from what an admin types into the lesson
 * form: a bare id, or a URL. The regular expression
 * `^.*(youtu.be\/|v\/|u\/\w\/|embed\/|watch\?v=|&v=)([^#&?]*).*` is
 * matched by hand: the greedy leading `.*` places the marker at the
 * rightmost position on the first line where one matches, and the capture
 * is the longest run after it free of '#', '&' and '?'.
 */
module VideoId {
  import opened Common
  import opened Strings

  /** The regex class `\w`. */
  predicate IsWordChar(ch: char) {
    'a' <= ch <= 'z' || 'A' <= ch <= 'Z' || '0' <= ch <= '9' || ch == '_'
  }

  /** The characters of a YouTube video id. */
  predicate IsIdChar(ch: char) {
    IsWordChar(ch) || ch == '-'
  }

  /** Each marker is told apart by its first character, which fixes its length ... */
  function MarkerLength(first: char): nat {
    match first
    case 'y' => 9
    case 'v' => 2
    case 'u' => 4
    case 'e' => 6
    case 'w' => 8
    case '&' => 3
    case _ => 0
  }

  /** ... and its last character. */
  function MarkerEnd(first: char): char {
    if first == 'w' || first == '&' then '=' else '/'
  }

  /**
   * The length of the marker alternative that matches at `i`, if any: at most
   * one can, since the six alternatives start with different characters.
   * The `.` of `youtu.be` matches anything but a line terminator.
   */
  function MarkerAt(s: string, i: nat): (r: Option<nat>)
    ensures r.Some? ==> 2 <= r.value && i + r.value <= |s|
    ensures r.Some? ==> r.value == MarkerLength(s[i])
    ensures r.Some? ==> s[i + r.value - 1] == MarkerEnd(s[i])
    ensures r.Some? ==> forall k :: i <= k < i + r.value ==> !IsLineTerminator(s[k])
  {
    if OccursAt(s, "youtu", i) && i + 9 <= |s| && !IsLineTerminator(s[i + 5]) && OccursAt(s, "be/", i + 6) then
      assert s[i] == s[i..i + 5][0];
      assert forall k :: i + 6 <= k < i + 9 ==> s[k] == s[i + 6..i + 9][k - i - 6];
      assert forall k :: i <= k < i + 5 ==> s[k] == s[i..i + 5][k - i];
      Some(9)
    else if OccursAt(s, "v/", i) then
      assert s[i] == s[i..i + 2][0] && s[i + 1] == s[i..i + 2][1];
      Some(2)
    else if i + 4 <= |s| && s[i] == 'u' && s[i + 1] == '/' && IsWordChar(s[i + 2]) && s[i + 3] == '/' then
      Some(4)
    else if OccursAt(s, "embed/", i) then
      assert forall k :: i <= k < i + 6 ==> s[k] == s[i..i + 6][k - i];
      Some(6)
    else if OccursAt(s, "watch?v=", i) then
      assert forall k :: i <= k < i + 8 ==> s[k] == s[i..i + 8][k - i];
      Some(8)
    else if OccursAt(s, "&v=", i) then
      assert forall k :: i <= k < i + 3 ==> s[k] == s[i..i + 3][k - i];
      Some(3)
    else None
  }

  /** A marker ending in '=' ends in "v=": `watch?v=` or `&v=`. */
  lemma MarkerEndsInV(s: string, i: nat)
    requires i < |s|
    ensures MarkerEnd(s[i]) == '/' || MarkerEnd(s[i]) == '='
    ensures MarkerAt(s, i).Some? && MarkerEnd(s[i]) == '=' ==> s[i + MarkerAt(s, i).value - 2] == 'v'
  {
    if MarkerAt(s, i).Some? && s[i] == 'w' && OccursAt(s, "watch?v=", i) {
      assert s[i + 6] == s[i..i + 8][6];
    } else if MarkerAt(s, i).Some? && s[i] == '&' && OccursAt(s, "&v=", i) {
      assert s[i + 1] == s[i..i + 3][1];
    }
  }

  /** A marker match: where it starts and how long it is. */
  datatype Marker = Marker(at: nat, len: nat)

  /** The rightmost marker starting at or before `p`. */
  function LastMarkerUpTo(s: string, p: nat): (r: Option<Marker>)
    requires p <= |s|
    ensures r.Some? ==> r.value.at <= p && MarkerAt(s, r.value.at) == Some(r.value.len)
    ensures r.Some? ==> forall q :: r.value.at < q <= p ==> MarkerAt(s, q).None?
    ensures r.None? ==> forall q :: 0 <= q <= p ==> MarkerAt(s, q).None?
    decreases p
  {
    match MarkerAt(s, p)
    case Some(n) => Some(Marker(p, n))
    case None => if p == 0 then None else LastMarkerUpTo(s, p - 1)
  }

  /** The characters the capture group stops at. */
  const IdStops: set<char> := {'#', '&', '?'}

  /**
   * `id` is what the capture group takes after the marker `m`: `m` is the
   * rightmost marker on the first line, and `id` follows it up to a stop
   * character or the end of the input.
   */
  predicate CaptureAfter(url: string, m: Marker, id: string) {
    && m.at <= LineEndFrom(url, 0)
    && MarkerAt(url, m.at) == Some(m.len)
    && (forall q :: m.at < q <= LineEndFrom(url, 0) ==> MarkerAt(url, q).None?)
    && m.at + m.len + |id| <= |url|
    && url[m.at + m.len..m.at + m.len + |id|] == id
    && (forall k :: 0 <= k < |id| ==> id[k] !in IdStops)
    && (m.at + m.len + |id| == |url| || url[m.at + m.len + |id|] in IdStops)
  }

  /**
   * The extracted id: the capture after the rightmost marker when it is
   * exactly 11 characters long, and the input unchanged otherwise.
   */
  function ExtractVideoId(url: string): (r: string)
    ensures r == url || (|r| == 11 && forall k :: 0 <= k < 11 ==> r[k] !in IdStops)
    ensures (forall q :: 0 <= q <= |url| ==> MarkerAt(url, q).None?) ==> r == url
    ensures r != url ==> exists m: Marker :: CaptureAfter(url, m, r)
  {
    match LastMarkerUpTo(url, LineEndFrom(url, 0))
    case None => url
    case Some(m) =>
      var rest := url[m.at + m.len..];
      var id := PrefixUntil(rest, IdStops);
      if |id| == 11 then
        assert url[m.at + m.len..m.at + m.len + |id|] == rest[..|id|] == id;
        assert m.at + m.len + |id| < |url| ==> url[m.at + m.len + |id|] == rest[|id|];
        assert CaptureAfter(url, m, id);
        id
      else url
  }

  /**
   * Any 11-character input comes back unchanged: a capture follows a marker
   * of at least two characters, so it is at most nine characters long.
   */
  lemma ElevenCharsUnchanged(s: string)
    requires |s| == 11
    ensures ExtractVideoId(s) == s
  {
    match LastMarkerUpTo(s, LineEndFrom(s, 0))
    case None =>
    case Some(m) =>
      assert |PrefixUntil(s[m.at + m.len..], IdStops)| <= 9;
  }

  /** Extracting from an extracted value changes nothing. */
  lemma ExtractIdempotent(url: string)
    ensures ExtractVideoId(ExtractVideoId(url)) == ExtractVideoId(url)
  {
    if ExtractVideoId(url) != url {
      ElevenCharsUnchanged(ExtractVideoId(url));
    }
  }

  /** The capture of `x + rest` is `x` when `x` holds no stop character and `rest` starts with one or is empty. */
  lemma {:induction false} PrefixUntilStopsAt(x: string, rest: string, stops: set<char>)
    requires forall k :: 0 <= k < |x| ==> x[k] !in stops
    requires rest == [] || rest[0] in stops
    ensures PrefixUntil(x + rest, stops) == x
    decreases |x|
  {
    if |x| == 0 {
      assert x + rest == rest;
    } else {
      assert (x + rest)[0] == x[0] && (x + rest)[1..] == x[1..] + rest;
      PrefixUntilStopsAt(x[1..], rest, stops);
    }
  }

  /**
   * No marker starts at or after `from` when no '/' follows it and no '='
   * after `from` comes right after a 'v': every marker ends in '/', "?v="
   * or "&v=".
   */
  lemma NoMarkerInTail(s: string, from: nat)
    requires from <= |s|
    requires forall k :: from <= k < |s| ==> s[k] != '/'
    requires forall k :: from < k < |s| && s[k] == '=' ==> s[k - 1] != 'v'
    ensures forall q :: from <= q <= |s| ==> MarkerAt(s, q).None?
  {
    forall q | from <= q <= |s|
      ensures MarkerAt(s, q).None?
    {
      if q < |s| {
        MarkerEndsInV(s, q);
      }
    }
  }

  /** No marker fits inside a run of id characters. */
  lemma NoMarkerAmongIdChars(s: string, from: nat)
    requires from <= |s|
    requires forall k :: from <= k < |s| ==> IsIdChar(s[k])
    ensures forall q :: from <= q <= |s| ==> MarkerAt(s, q).None?
  {
    forall q | from <= q <= |s|
      ensures MarkerAt(s, q).None?
    {
    }
  }

  /**
   * When the prefix ends in a marker that is the last one on the line and an
   * 11-character id follows, ended by a stop character or by the end of the
   * input, the id is extracted.
   */
  lemma ExtractAfterFinalMarker(pre: string, id: string, rest: string, n: nat)
    requires n <= |pre| && MarkerAt(pre + id + rest, |pre| - n) == Some(n)
    requires forall k :: 0 <= k < |pre| ==> !IsLineTerminator(pre[k])
    requires forall q :: |pre| - n < q <= LineEndFrom(pre + id + rest, 0) ==> MarkerAt(pre + id + rest, q).None?
    requires |id| == 11 && forall k :: 0 <= k < |id| ==> id[k] !in IdStops
    requires rest == [] || rest[0] in IdStops
    ensures ExtractVideoId(pre + id + rest) == id
  {
    var s := pre + id + rest;
    ThreeWay(pre, id, rest);
    LineEndPast(pre, id + rest);
    LastMarkerIs(s, LineEndFrom(s, 0), |pre| - n, n);
    PrefixUntilStopsAt(id, rest, IdStops);
    ExtractedCapture(s, Marker(|pre| - n, n));
  }

  /** With `m` the last marker on the line, an 11-character capture after it is the extracted id. */
  lemma ExtractedCapture(url: string, m: Marker)
    requires LastMarkerUpTo(url, LineEndFrom(url, 0)) == Some(m)
    requires m.at + m.len <= |url| && |PrefixUntil(url[m.at + m.len..], IdStops)| == 11
    ensures ExtractVideoId(url) == PrefixUntil(url[m.at + m.len..], IdStops)
  {
  }

  /** `pre + id + rest` read as `pre` and then the rest. */
  lemma ThreeWay(pre: string, id: string, rest: string)
    ensures pre + id + rest == pre + (id + rest)
    ensures (pre + id + rest)[|pre|..] == id + rest
  {
    assert pre + id + rest == pre + (id + rest);
  }

  /** The first line of `pre + t` reaches past `pre` when `pre` holds no line terminator. */
  lemma LineEndPast(pre: string, t: string)
    requires forall k :: 0 <= k < |pre| ==> !IsLineTerminator(pre[k])
    ensures LineEndFrom(pre + t, 0) >= |pre|
  {
    assert forall k :: 0 <= k < |pre| ==> (pre + t)[k] == pre[k];
  }

  /** A marker with none after it up to `p` is the one `LastMarkerUpTo` finds. */
  lemma LastMarkerIs(s: string, p: nat, at: nat, n: nat)
    requires at <= p <= |s| && MarkerAt(s, at) == Some(n)
    requires forall q :: at < q <= p ==> MarkerAt(s, q).None?
    ensures LastMarkerUpTo(s, p) == Some(Marker(at, n))
  {
  }

  /**
   * What may follow the id in a pasted URL: nothing, or a query or fragment
   * (`&t=42s`, `?si=…`, `#t=1`) that starts with a stop character, holds no
   * '/' and no "v=" that could start a later marker.
   */
  predicate QuerySuffix(rest: string) {
    rest == [] ||
    (&& rest[0] in IdStops
     && (forall k :: 0 <= k < |rest| ==> rest[k] != '/')
     && (forall k :: 0 < k < |rest| && rest[k] == '=' ==> rest[k - 1] != 'v'))
  }

  /** No marker starts in an id of id characters or in the query suffix after it. */
  lemma NoMarkerAfterPrefix(pre: string, id: string, rest: string)
    requires forall k :: 0 <= k < |id| ==> IsIdChar(id[k])
    requires QuerySuffix(rest)
    ensures forall q :: |pre| <= q <= |pre + id + rest| ==> MarkerAt(pre + id + rest, q).None?
  {
    var s := pre + id + rest;
    var b := |pre| + |id|;
    assert forall k :: |pre| <= k < b ==> s[k] == id[k - |pre|];
    assert forall k :: b <= k < |s| ==> s[k] == rest[k - b];
    forall k | |pre| < k < |s| && s[k] == '='
      ensures s[k - 1] != 'v'
    {
      assert k >= b;
      if k > b {
        assert s[k - 1] == rest[k - 1 - b];
      }
    }
    NoMarkerInTail(s, |pre|);
  }

  /**
   * The id after the final marker of `pre` comes back when only id
   * characters and a query suffix follow it.
   */
  lemma ExtractAfterPrefix(pre: string, id: string, rest: string, n: nat)
    requires n <= |pre| && MarkerAt(pre + id + rest, |pre| - n) == Some(n)
    requires forall k :: 0 <= k < |pre| ==> !IsLineTerminator(pre[k])
    requires forall q :: |pre| - n < q < |pre| ==> MarkerAt(pre + id + rest, q).None?
    requires |id| == 11 && forall k :: 0 <= k < |id| ==> IsIdChar(id[k])
    requires QuerySuffix(rest)
    ensures ExtractVideoId(pre + id + rest) == id
  {
    NoMarkerAfterPrefix(pre, id, rest);
    IdCharsHaveNoStops(id);
    assert LineEndFrom(pre + id + rest, 0) <= |pre + id + rest|;
    ExtractAfterFinalMarker(pre, id, rest, n);
  }

  /** The id characters hold no stop character. */
  lemma IdCharsHaveNoStops(id: string)
    requires forall k :: 0 <= k < |id| ==> IsIdChar(id[k])
    ensures forall k :: 0 <= k < |id| ==> id[k] !in IdStops
  {
  }

  /** The watch-page URL an admin copies from the browser. */
  function WatchUrl(id: string): string {
    WatchPrefix + id
  }

  const WatchPrefix := "https://www.youtube.com/watch?v="

  /** The watch prefix ends in the marker `watch?v=`, whatever follows it. */
  lemma WatchPrefixMarker(t: string)
    ensures MarkerAt(WatchPrefix + t, 24) == Some(8)
    ensures forall k :: 0 <= k < 32 ==> !IsLineTerminator(WatchPrefix[k])
  {
    var s := WatchPrefix + t;
    assert s[24..32] == WatchPrefix[24..32] == "watch?v=";
    assert OccursAt(s, "watch?v=", 24);
  }

  /** No other marker starts inside the marker of the watch prefix. */
  lemma WatchPrefixNoLaterMarker(t: string)
    ensures forall q :: 24 < q < 32 ==> MarkerAt(WatchPrefix + t, q).None?
  {
    var s := WatchPrefix + t;
    forall q | 24 < q < 32
      ensures MarkerAt(s, q).None?
    {
      assert s[q] == WatchPrefix[q];
      assert s[31] == '=';
    }
  }

  /** The id is recovered from a watch-page URL, also when a query or fragment follows the id. */
  lemma WatchUrlWithQuery(id: string, rest: string)
    requires |id| == 11 && forall k :: 0 <= k < |id| ==> IsIdChar(id[k])
    requires QuerySuffix(rest)
    ensures ExtractVideoId(WatchUrl(id) + rest) == id
  {
    WatchPrefixMarker(id + rest);
    WatchPrefixNoLaterMarker(id + rest);
    assert WatchPrefix + (id + rest) == WatchPrefix + id + rest;
    ExtractAfterPrefix(WatchPrefix, id, rest, 8);
  }

  /** The id is recovered from a watch-page URL. */
  lemma WatchUrlRoundTrip(id: string)
    requires |id| == 11 && forall k :: 0 <= k < |id| ==> IsIdChar(id[k])
    ensures ExtractVideoId(WatchUrl(id)) == id
  {
    WatchUrlWithQuery(id, []);
    assert WatchUrl(id) + [] == WatchUrl(id);
  }

  /** The short link YouTube's share button gives. */
  function ShareUrl(id: string): string {
    SharePrefix + id
  }

  const SharePrefix := "https://youtu.be/"

  /** The share prefix ends in the marker `youtu.be/`, whatever follows it. */
  lemma SharePrefixMarker(t: string)
    ensures MarkerAt(SharePrefix + t, 8) == Some(9)
    ensures forall k :: 0 <= k < 17 ==> !IsLineTerminator(SharePrefix[k])
  {
    var s := SharePrefix + t;
    assert s[8..13] == "youtu" && s[14..17] == "be/";
  }

  /** No other marker starts inside the marker of the share prefix. */
  lemma SharePrefixNoLaterMarker(t: string)
    ensures forall q :: 8 < q < 17 ==> MarkerAt(SharePrefix + t, q).None?
  {
    var s := SharePrefix + t;
    forall q | 8 < q < 17
      ensures MarkerAt(s, q).None?
    {
      assert s[q] == SharePrefix[q];
      assert s[11] == 't' && s[13] == '.' && s[16] == '/';
    }
  }

  /** The id is recovered from a share link, also with the share button's `?si=…` or a start time after it. */
  lemma ShareUrlWithQuery(id: string, rest: string)
    requires |id| == 11 && forall k :: 0 <= k < |id| ==> IsIdChar(id[k])
    requires QuerySuffix(rest)
    ensures ExtractVideoId(ShareUrl(id) + rest) == id
  {
    SharePrefixMarker(id + rest);
    SharePrefixNoLaterMarker(id + rest);
    assert SharePrefix + (id + rest) == SharePrefix + id + rest;
    ExtractAfterPrefix(SharePrefix, id, rest, 9);
  }

  /** The player URL the lesson page embeds for a stored id. */
  function EmbedUrl(id: string): string {
    EmbedPrefix + id
  }

  const EmbedPrefix := "https://www.youtube.com/embed/"

  /** The embed prefix ends in the marker `embed/`, whatever follows it. */
  lemma EmbedPrefixMarker(t: string)
    ensures MarkerAt(EmbedPrefix + t, 24) == Some(6)
    ensures forall k :: 0 <= k < 30 ==> !IsLineTerminator(EmbedPrefix[k])
  {
    var s := EmbedPrefix + t;
    assert s[24..30] == EmbedPrefix[24..30] == "embed/";
    assert OccursAt(s, "embed/", 24);
  }

  /** No other marker starts inside the marker of the embed prefix. */
  lemma EmbedPrefixNoLaterMarker(t: string)
    ensures forall q :: 24 < q < 30 ==> MarkerAt(EmbedPrefix + t, q).None?
  {
    var s := EmbedPrefix + t;
    forall q | 24 < q < 30
      ensures MarkerAt(s, q).None?
    {
      assert s[q] == EmbedPrefix[q];
      assert s[28] == 'd' && s[29] == '/';
    }
  }

  /** The id is recovered from the embed URL, so pasting a lesson's player URL stores the same id. */
  lemma EmbedUrlRoundTrip(id: string)
    requires |id| == 11 && forall k :: 0 <= k < |id| ==> IsIdChar(id[k])
    ensures ExtractVideoId(EmbedUrl(id)) == id
  {
    EmbedPrefixMarker(id);
    EmbedPrefixNoLaterMarker(id);
    assert EmbedPrefix + id + [] == EmbedPrefix + id;
    ExtractAfterPrefix(EmbedPrefix, id, [], 6);
  }

  /** The id in the lesson form's placeholder. */
  const PlaceholderId := "dQw4w9WgXcQ"

  /** The placeholder's watch URL, https://www.youtube.com/watch?v=dQw4w9WgXcQ, yields its id. */
  lemma PlaceholderYieldsId()
    ensures ExtractVideoId(WatchUrl(PlaceholderId)) == PlaceholderId
  {
    assert forall k :: 0 <= k < |PlaceholderId| ==> IsIdChar(PlaceholderId[k]);
    WatchUrlRoundTrip(PlaceholderId);
  }
}
